=== FILE: README.md ===
# Cooking recipes API: a Dafny model of its core

The repository is a Django service with a Telegram bot. It scrapes recipes
from the Bon Appétit search API into a database of recipes, tags and authors.
The bot lets chats search the recipes, page through results, like recipes and
subscribe to tags and authors. A periodic task then sends each chat the new
recipes its subscriptions follow.

This project models the sequential logic of that service as pure functions
over immutable datatypes, with methods for the loops, and proves what the
code promises:

- **Name canonicalisation** (`RecipeModels`). `Tag.id_from_name` and
  `Author.id_from_name` are the same function. It deletes non-word
  characters and case-folds the rest. The model proves the result
  canonical, idempotent, blind to case and punctuation, and compositional.
  It also models the `name or id` display fallback and the scope dispatch of
  `Recipe.text_search`, whose `full_text` branch filters on a field the
  model does not declare (see Findings).
- **Scraping** (`CleanText`, `BaParse`, `BaCrawl`, `EntityStore`):
  - `_clean_text`: `&amp;` first, then tags, then decimal references, then
    spacing around em dashes;
  - `_parse_ba_recipe`: ingredient groups, photo URL, the tag and author
    filters;
  - the three-attempt retry of `_load_ba_page`;
  - the page loop of `bonappetit`, with its sponsored-item skip, date
    watermark, stop rules and per-page transaction over a store of maps.
- **Telegram rendering** (`MarkdownEscape`, `Formatters`, `Message`,
  `Chunking`):
  - MarkdownV2 escaping, proved to be a per-character map that unescaping
    inverts;
  - the recipe card, the search result line and the numbered result list;
  - callback data of the form `namespace/item/action`;
  - the keyboard, laid out by `more_itertools.chunked_even` in rows of at
    most five.
- **Paged result lists** (`TelegramModels`). `SearchListMessage` and
  `LikedListMessage` are a `page_n` cursor that moves one page at a time and
  never onto an empty page. The module also models their query composition
  and order, and `Chat.update_from_message`.
- **Subscription fulfilment** (`Fulfilment`). `fulfill_subscriptions`
  selects, deduplicates and orders the recipes, sends them one by one and
  moves the watermarks. A failing send ends the run. The per-chat counter is
  modelled too.
- **Secret keys** (`SecretKey`). `generate_secret_key` has its random source
  as an oracle. A returned key is proved to have the requested length, only
  letters and digits, both cases and three digits.

The network, the clock, the random source, the Telegram transport and the
full-text engine are parameters of the model:

- a page fetch is a `faults(page, attempt)` oracle over a fixed sequence of
  response bodies;
- sending is `send(chat, recipe)`, which is false when the transport raises;
- the full-text filter is a `matches` predicate;
- `secrets.choice` is `pick(attempt, i)`;
- the escaping function of `telegram/utils.py` is an `Escaper` parameter in
  `Message`;
- the float rating's `f"{x:.1f}"` rendering is a `rating` function.

Dates are already-parsed `Option<int>` values.

Module layout: `Wrappers` (Option, Result), `Arith` (min, max and a
monotonicity fact), `Strings` (the `str` methods used), `Seqs` (filter,
flatten, stable sort), `Chunking`, `RecipeModels`,
`EntityStore`, `CleanText`, `BaParse`, `BaCrawl`, `MarkdownEscape`,
`Formatters`, `Message`, `TelegramModels`, `Fulfilment`, `SecretKey`.

## Model

| member | source | states |
|---|---|---|
| RecipeModels.IdFromName | recipes/models.py:19-21 | `re.sub(r"[^\w]+", '', name).casefold()`; its meaning is stated by the `IdFromName…` lemmas below |
| RecipeModels.IdFromNameCanonical | recipes/models.py:19-21 | the identifier holds only lower-case word characters and is no longer than the name |
| RecipeModels.IdFromNameIsFoldedWordChars | recipes/models.py:21 | the identifier is the case-folded word characters of the name, in order (deleting runs of non-word characters is deleting each one) |
| RecipeModels.IdFromNameFixesCanonical | recipes/models.py:21 | an identifier made only of lower-case word characters is its own identifier |
| RecipeModels.IdFromNameIdempotent | recipes/models.py:21 | canonicalising an identifier again leaves it unchanged |
| RecipeModels.IdFromNameAppend | recipes/models.py:21 | the identifier of a concatenation is the concatenation of the identifiers |
| RecipeModels.IdFromNameIgnoresCase | recipes/models.py:21 | folding the name first does not change its identifier |
| RecipeModels.IdFromNameIgnoresNonWord | recipes/models.py:21 | inserting a non-word character (space, apostrophe, `!`) anywhere does not change the identifier |
| RecipeModels.IdFromNameNoWordChars | recipes/models.py:21 | a name without word characters, such as `#`, has the empty identifier |
| RecipeModels.NameOrId | recipes/models.py:23-24 | `str(name or id)`: the name when it is set and non-empty, otherwise the id |
| RecipeModels.DeclaredVector | recipes/models.py:58-59 | a field name denotes a search-vector column exactly when it is `full_text_tsvector` or `essentials_tsvector`, and then denotes that column |
| RecipeModels.VectorOf | recipes/models.py:76-80 | `full_text` selects the full-text vector (the declared `full_text_tsvector` column), `essentials` the essentials vector, and no other scope is accepted |
| RecipeModels.Matching | recipes/models.py:77-79 | a filter keeps recipes of the queryset only, each one whose vector matches the query, and all of those |
| RecipeModels.TextSearch | recipes/models.py:70-80 | the corrected search: an unknown scope is an `UnknownScope` error; otherwise the result is exactly the recipes of the given queryset (all recipes when none) whose selected vector matches |
| RecipeModels.FilterFieldAsWritten | recipes/models.py:76-79 | the field each scope's `filter` names as written: `main_tsvector` for `full_text`, `essentials_tsvector` for `essentials`; its consequence is stated by `TextSearchAsWrittenFails` |
| RecipeModels.TextSearchAsWritten | recipes/models.py:70-80 | `text_search` as written, a filter on an undeclared field being an `UnknownField` error; stated by `TextSearchAsWrittenFails` |
| RecipeModels.TextSearchAsWrittenFails | recipes/models.py:76-77 | as written, every `full_text` search fails on the undeclared `main_tsvector` field, and every other scope behaves as in the corrected search |
| RecipeModels.TextSearchUsesDeclaredFields | recipes/models.py:58-80 | the corrected search filters each known scope on a declared column, `full_text` on `full_text_tsvector`, so it never fails on a field |
| EntityStore.SaveAllKeys | recipes/scrapers.py:164-168 | saving rows adds exactly their keys and leaves rows under other keys untouched |
| EntityStore.SaveAllLastWins | recipes/scrapers.py:164-168 | after saving, each row's key holds a row of the batch with that key: itself or a later one |
| EntityStore.SaveAllOverrides | recipes/scrapers.py:164-168 | saving rows over a table is the old table overridden by what the rows alone make |
| EntityStore.SaveAllIdempotent | recipes/scrapers.py:164-168 | saving the same rows twice is saving them once |
| EntityStore.Upsert | recipes/scrapers.py:158-169 | writing one item: its recipe, its tags and authors, then the link sets; stated by `UpsertWrites` and `UpsertMerge` |
| EntityStore.UpsertWrites | recipes/scrapers.py:158-169 | writing one item stores its recipe, replaces the recipe's tag and author links by exactly the item's, and adds or replaces only the item's tags and authors |
| EntityStore.UpsertMerge | recipes/scrapers.py:158-169 | writing an item over a merged store only affects the right-hand store |
| EntityStore.MergeIdempotent | recipes/scrapers.py:158-169 | overriding a store twice by the same store is overriding it once |
| EntityStore.UpsertAll | recipes/scrapers.py:143-169 | writing the items one after another; stated by the `UpsertAll…` lemmas |
| EntityStore.UpsertAllOverrides | recipes/scrapers.py:143-169 | writing items is the old store overridden by what the items alone write |
| EntityStore.UpsertAllIdempotent | recipes/scrapers.py:143-169 | writing the same items twice leaves the store as writing them once |
| EntityStore.UpsertAllAppend | recipes/scrapers.py:143-169 | writing two batches in turn is writing their concatenation |
| CleanText.CloseAt | recipes/scrapers.py:21 | the position found is the first `>`, with no line break before it, since `.` does not match a line break |
| CleanText.CloseAtNoneNoClose | recipes/scrapers.py:21 | when no `>` is found, every `>` has a line break before it |
| CleanText.StripTags | recipes/scrapers.py:21-27 | `re.sub('<.*?>', '', text)`, matching leftmost and shortest on one line; stated by the `StripTags…` lemmas |
| CleanText.StripTagsLeavesNoTag | recipes/scrapers.py:27 | after `<.*?>` is removed no `<` is followed on its line by a `>` |
| CleanText.StripTagsFixesNoTag | recipes/scrapers.py:27 | text with no tag is left unchanged |
| CleanText.StripTagsIdempotent | recipes/scrapers.py:27 | stripping tags twice is stripping them once |
| CleanText.StripTagsWithoutOpen | recipes/scrapers.py:27 | text without `<` is left unchanged |
| CleanText.DigitRun | recipes/scrapers.py:22 | the length of the longest leading run of digits |
| CleanText.RefAt | recipes/scrapers.py:22 | a match of `&#(\d+);` at the start: `&#`, a non-empty run of digits, then `;` |
| CleanText.CodePoint | recipes/scrapers.py:28 | `chr(n)` gives the character with code point `n`, and is an error past 0x10FFFF and on surrogates |
| CleanText.DecodeRefs | recipes/scrapers.py:28 | decoding never lengthens the text, and text without `&` is unchanged; what it does to each reference is stated by `DecodeRefsReference` |
| CleanText.DecodeRefsWithoutRefs | recipes/scrapers.py:22-28 | text in which no `&#` is followed by a digit is left unchanged |
| CleanText.DigitRunOf | recipes/scrapers.py:22 | the leading digit run of digits followed by a text not starting with a digit is exactly those digits |
| CleanText.DecodeRefsReference | recipes/scrapers.py:22-28 | a leading `&#N;` becomes `chr(N)` followed by the decoded rest, and the decoding fails exactly when `chr(N)` fails or the rest fails |
| CleanText.DecodeRefsDecimalRef | recipes/scrapers.py:22-28 | the decimal reference `&#<code point>;` of any character decodes back to that character |
| CleanText.SpaceDashesSpaced | recipes/scrapers.py:29 | after `replace('—', ' — ')` every em dash has a space on each side |
| CleanText.Clean | recipes/scrapers.py:25-30 | a cleaned text has every em dash spaced, including those decoded from `&#8212;` |
| CleanText.CleanStripsTagsBeforeDecoding | recipes/scrapers.py:26-28 | the text handed to the reference pass, the `&amp;`-decoded input with its tags removed, has no tag left, and cleaning fails exactly when that pass fails |
| CleanText.CleanCanOutputTag | recipes/scrapers.py:27-28 | the output itself can hold a tag: `&#60;b>` cleans to `<b>`, because `&#60;` is decoded after tags are removed |
| CleanText.CleanWithoutSpecials | recipes/scrapers.py:25-30 | text without `&`, `<` or an em dash comes out unchanged |
| CleanText.CleanWithoutRefs | recipes/scrapers.py:25-30 | text without `&amp;`, `<`, an em dash or a decimal reference comes out unchanged, even when it contains `&` |
| CleanText.CleanDecodesAmpFirst | recipes/scrapers.py:26-28 | `&amp;` is decoded before references: for every text `s`, `&amp;#s` cleans as `&#s` does |
| CleanText.CleanDecodesEncodedApostrophe | recipes/scrapers.py:26-28 | in particular `&amp;#39;` becomes an apostrophe |
| CleanText.CleanKeepsHexRefs | recipes/scrapers.py:22 | a hexadecimal reference `&#x…;` with any hexadecimal digits is left as it is, since the pattern takes decimal digits only |
| BaParse.Cleaned | recipes/scrapers.py:25-30 | cleaning one field fails exactly when `_clean_text` fails, and otherwise gives its text |
| BaParse.MapAll | recipes/scrapers.py:42-43 | mapping succeeds exactly when every item does, giving each item's result in order |
| BaParse.CleanAll | recipes/scrapers.py:42-43 | the ingredient lines are exactly the cleaned descriptions, in source order |
| BaParse.RStripDots | recipes/scrapers.py:41 | `rstrip('.')`: the longest prefix not ending in `.`, with only dots removed |
| BaParse.ParseGroup | recipes/scrapers.py:40-44 | a group's title is its cleaned heading without trailing full stops, and its ingredients are the cleaned descriptions in order |
| BaParse.ParseGroups | recipes/scrapers.py:38-44 | one parsed group per source group, in order, failing exactly when some text fails to clean |
| BaParse.GroupTitleHasNoFullStop | recipes/scrapers.py:41 | a parsed group title never ends with `.` |
| BaParse.PhotoUrl | recipes/scrapers.py:46-51 | no photos gives no URL; otherwise the URL is built from the first tout photo, and an empty tout list is an error |
| BaParse.IdFromNameDropsNonWord | recipes/models.py:21 | deleting every occurrence of one non-word character, as `replace(c, '')` does, leaves the identifier unchanged |
| BaParse.TagAndAuthorShareIds | recipes/scrapers.py:72-75 | a tag and an author built from the same name get the same id, and the tag's display name, with spaces and `-` removed, canonicalises to that same id |
| BaParse.TagForWellFormed | recipes/scrapers.py:72-75 | a tag made from a name has a canonical id and a display name with no space and no `-` |
| BaParse.NamedTags | recipes/scrapers.py:69-76 | every tag comes from a name not starting with `_`, and every such name gives a tag |
| BaParse.NamedTagsIsFilterMap | recipes/scrapers.py:69-76 | there is exactly one tag per visible name, the i-th made from the i-th visible name |
| BaParse.DefaultTagWellFormed | recipes/scrapers.py:77-80 | the default tag has a canonical id and a display name with no space and no `-` |
| BaParse.ParseTags | recipes/scrapers.py:68-81 | exactly one tag per name not starting with `_`, in order, each made from its name, and then `bonappetit`/`BonAppetit` last |
| BaParse.ParseTagsWellFormed | recipes/scrapers.py:68-81 | every tag of an item has a canonical id and a display name with no space and no `-` |
| BaParse.HiddenNamesIgnored | recipes/scrapers.py:70-71 | a name starting with `_` contributes no tag |
| BaParse.NamedTagsAppend | recipes/scrapers.py:69-76 | the tags of two name lists are the tags of each, in order |
| BaParse.KeptNamesMembership | recipes/scrapers.py:89-96 | a name is kept from one row exactly when it is a stripped ` & `-piece that is non-empty, has no comma and has at most three words |
| BaParse.AuthorNamesMembership | recipes/scrapers.py:83-96 | an author name is kept exactly when it is such a piece of some `author` or `chef` row |
| BaParse.AuthorNameTrimmed | recipes/scrapers.py:89-96 | every kept name is acceptable and starts and ends with a non-space |
| BaParse.AuthorNamesTrimmed | recipes/scrapers.py:89-96 | every kept name is non-empty, has no comma and has at most three words |
| BaParse.AuthorNamesAppend | recipes/scrapers.py:85-88 | rows are read in order and nothing is deduplicated: the names of two row lists are the names of each, in order |
| BaParse.AuthorsNamed | recipes/scrapers.py:97-101 | one author per kept name, named by it, with the name's canonical id |
| BaParse.ParseAuthors | recipes/scrapers.py:83-101 | no contributors gives no authors; otherwise the i-th author is named by the i-th kept name of the `author` rows then the `chef` rows, duplicates kept, and every author has an acceptable name and the id canonicalised from it |
| BaParse.ParseRecipe | recipes/scrapers.py:37-103 | parsing fails exactly when a text fails to clean or the tout list is empty; otherwise every recipe field is its cleaned or defaulted source field, and the tags and authors are the filtered lists |
| BaCrawl.LoadPage | recipes/scrapers.py:106-137 | a loaded page is the page's own items, and a failure names the page |
| BaCrawl.LoadFromSound | recipes/scrapers.py:113-126 | from any attempt, a load returns the page's items or fails for that page |
| BaCrawl.LoadPageGivesUpAfterThree | recipes/scrapers.py:119-122 | the HTTP error is re-raised exactly when all three attempts were HTTP errors |
| BaCrawl.LoadPageTransportNotRetried | recipes/scrapers.py:115-119 | an error other than an HTTP error is not caught: the first one ends the load |
| BaCrawl.LoadPageItemsMissingNotRetried | recipes/scrapers.py:124-137 | a JSON body that is not an object with `items` fails the load for that page, even on the first delivery, because `data['items']` is looked up after the retried block |
| BaCrawl.LoadPageMalformedNotRetried | recipes/scrapers.py:125-126 | a body that is not JSON fails the load even on the first delivery, because `resp.json()` is outside the retried block |
| BaCrawl.LoadPageUsesThreeAttempts | recipes/scrapers.py:121-122 | no attempt after the third is ever made |
| BaCrawl.LoadPageWithRetry | recipes/scrapers.py:113-126 | the retry loop computes the load above |
| BaCrawl.Observe | recipes/scrapers.py:146-151 | a dated item widens the newest/oldest trackers to include its date; an undated one leaves them |
| BaCrawl.PlanItems | recipes/scrapers.py:143-156 | the item loop of one page; stated by the `PlanItems…` lemmas |
| BaCrawl.PlanItemsIgnoresSponsored | recipes/scrapers.py:144-145 | sponsored items leave no trace: not counted, not saved, no date tracked |
| BaCrawl.WantedOfCons | recipes/scrapers.py:144-153 | the saved items of a page are its first item when wanted, then those of the rest |
| BaCrawl.PlanItemsSucceeds | recipes/scrapers.py:143-156 | a page succeeds exactly when every item that is neither sponsored nor at or before the target date parses; undated items are always among them |
| BaCrawl.PlanItemsWritesWanted | recipes/scrapers.py:143-169 | a successful page writes the parsed wanted items, in order, and counts each |
| BaCrawl.PlanItemsTracksDates | recipes/scrapers.py:146-151 | the newest and oldest dates bound every dated non-sponsored item and are each one of those items' dates or the earlier tracker |
| BaCrawl.Crawl | recipes/scrapers.py:134-178 | the page loop; stated by the `Crawl…` lemmas below |
| BaCrawl.PagesRead | recipes/scrapers.py:134-141 | the pages the crawl reads, in order, each one the successful load of its page number |
| BaCrawl.PageTracksLatest | recipes/scrapers.py:146-151 | after one successful page the newest date bounds every dated non-sponsored item of it and is one of their dates or the earlier one |
| BaCrawl.TracksLatestCons | recipes/scrapers.py:146-151 | the newest-date bound of one page composes with the bound of the pages after it |
| BaCrawl.CrawlTracksLatest | recipes/scrapers.py:134-178 | on a successful crawl the newest date bounds every dated non-sponsored item of the pages read, is no earlier than the starting one, and is one of their dates or the starting one |
| BaCrawl.CrawlCountsWrites | recipes/scrapers.py:154 | the saved count returned is the number of items written |
| BaCrawl.ParseRecipeKeepsDate | recipes/scrapers.py:56 | the parsed recipe carries the item's own publication date |
| BaCrawl.PlanItemsWritesNew | recipes/scrapers.py:152-153 | nothing a page writes is dated at or before the target date |
| BaCrawl.CrawlWritesOnlyNew | recipes/scrapers.py:152-153 | nothing the crawl writes is dated at or before the target date |
| BaCrawl.CrawlStopsAtTarget | recipes/scrapers.py:174-176 | once a page brings the oldest date to the target date or before, no later page is read |
| BaCrawl.Bonappetit | recipes/scrapers.py:129-180 | `bonappetit`: the crawl's writes applied to the store, with its count and newest date or its error |
| BaCrawl.BonappetitReportsLatest | recipes/scrapers.py:146-180 | the newest date returned bounds the date of every dated non-sponsored item read, and is one of them unless it is None |
| BaCrawl.BonappetitIdempotent | recipes/scrapers.py:129-180 | crawling the same pages again leaves the store as the first crawl left it |
| BaCrawl.PlanItemsCons | recipes/scrapers.py:143-156 | a page's plan is its first item's plan followed by the rest's |
| BaCrawl.VisitItem | recipes/scrapers.py:144-169 | one item is skipped, counted or parsed and saved as its plan says; a parse error is reported |
| BaCrawl.ProcessPage | recipes/scrapers.py:142-169 | the page's items are written inside a transaction: all of them or, on a parse error, none |
| BaCrawl.CrawlStep | recipes/scrapers.py:134-178 | a page that neither fails nor stops the crawl writes its items, and the crawl goes on at the next page |
| BaCrawl.VisitPage | recipes/scrapers.py:135-176 | one page: a failed load, an empty page or the target date stops the crawl with its outcome; otherwise the page is written and the crawl goes on |
| BaCrawl.RunCrawl | recipes/scrapers.py:129-180 | the page loop leaves the store with every written entry and returns the count and newest date, or the error |
| BaCrawl.RunBonappetit | recipes/scrapers.py:129-180 | `bonappetit` with `_parse_ba_recipe` as the item parser |
| MarkdownEscape.ModeOf | telegram/formatters.py:7-14 | `link`, `code` and `text` are the entity types; any other is an `UnknownEntityType` error |
| MarkdownEscape.Escape | telegram/formatters.py:6-18 | `escape(text, entity_type)`; stated by `EscapeMeaning`, `UnescapeEscape` and `EscapeLength` |
| MarkdownEscape.Unescape | telegram/formatters.py:16-17 | drops the backslash before each escaped character, the inverse against which `UnescapeEscape` states escaping |
| MarkdownEscape.EscapeMeaning | telegram/formatters.py:6-18 | escaping succeeds exactly for the three entity types, and then puts a backslash before each special character of that type and leaves every other character alone |
| MarkdownEscape.ReplaceEscapesOneMore | telegram/formatters.py:16-17 | one more `replace(symbol, '\\' + symbol)` pass escapes one more character, given the backslash was escaped first |
| MarkdownEscape.ReplaceEachEscapes | telegram/formatters.py:16-17 | the passes over distinct symbols, the backslash first, escape exactly those symbols, each character on its own |
| MarkdownEscape.SymbolsDistinct | telegram/formatters.py:8-12 | each symbol list starts with the backslash, has no repeats, and has the special set of its type |
| MarkdownEscape.EscapeAsEscapesEach | telegram/formatters.py:16-18 | the replacement loop is the per-character escape |
| MarkdownEscape.UnescapeEscapeEach | telegram/formatters.py:16-17 | dropping each escaping backslash gives the text back, since the backslash is escaped too |
| MarkdownEscape.UnescapeEscape | telegram/formatters.py:6-18 | unescaping an escaped text of any entity type gives the text back |
| MarkdownEscape.EscapeEachLength | telegram/formatters.py:16-17 | the escaped text is one character longer per special character |
| MarkdownEscape.EscapeLength | telegram/formatters.py:6-18 | the output length is the input length plus the number of special characters, and text without any is unchanged |
| MarkdownEscape.EscapeEachAppend | telegram/formatters.py:16-17 | escaping a concatenation is concatenating the escapes |
| Formatters.IngredientLines | telegram/formatters.py:23 | one line per ingredient, in order, each starting with ` \- ` and unescaping after it to the ingredient itself |
| Formatters.IngredientLinesUnescape | telegram/formatters.py:23 | a ` \- ` line built from an escaped ingredient unescapes back to that ingredient |
| Formatters.IngredientGroupLines | telegram/formatters.py:21-24 | the bold `title:` header appears only for a non-empty title; the body splits into one ` \- ` line per ingredient, each unescaping to the ingredient |
| Formatters.RecipeToMessage | telegram/formatters.py:27-55 | the corrected `recipe_to_message`, with an empty author section for a recipe without authors; stated by `RecipeToMessageWithoutAuthors` |
| Formatters.RecipeToMessageAsWritten | telegram/formatters.py:27-55 | `recipe_to_message` as written, testing the always-true related manager; stated by `AsWrittenKeepsByLine` |
| Formatters.CollapseBlank | telegram/formatters.py:55 | the final replace turns four line breaks into two and six into four |
| Formatters.CollapseOneEmpty | telegram/formatters.py:45-55 | a single empty section collapses to one blank line |
| Formatters.CollapseTwoEmpty | telegram/formatters.py:45-55 | two adjacent empty sections leave four line breaks |
| Formatters.RecipeToMessageWithoutAuthors | telegram/formatters.py:35-55 | with the author line empty for a recipe without authors, that section collapses into one blank line between ingredients and tags |
| Formatters.AsWrittenKeepsByLine | telegram/formatters.py:35-38 | as written, a recipe without authors still gets a `By ` line |
| Formatters.RecipeToSearchResult | telegram/formatters.py:58-63 | `recipe_to_search_result`; stated by `SearchResultParts` |
| Formatters.SearchResultParts | telegram/formatters.py:58-63 | a search result is the linked title, the rating out of 5.0 and the review count in escaped parentheses; title, url and count unescape to the recipe's own |
| Message.EscapeAsKeepsLines | telegram/formatters.py:6-18 | escaping adds no line break to text without one |
| Message.CallbackParts | telegram/message.py:66-69 | `recipe/<id>/<action>` callback data splits back into its three parts when the id has no slash |
| Message.IngredientGroupLines | telegram/message.py:10-13 | the header appears exactly for a non-empty title, capitalised; then one ` \- ` line per ingredient, in order |
| Message.CapitalizeKeepsOut | telegram/message.py:11 | capitalising adds no line break |
| Message.ListItem | telegram/message.py:16-30 | `_recipe_to_list_item_str`; stated by `ListItemAuthors` |
| Message.ListItemAuthors | telegram/message.py:16-30 | the ` by ` part is there exactly when the recipe has authors, and shows each by name or, failing that, by id |
| Message.TagItems | telegram/message.py:49 | as many `\#` items as tags; their contents are stated by `RecipeMsgLines` |
| Message.FormatRecipeMsg | telegram/message.py:33-70 | `format_recipe_msg`; stated by `RecipeMsgButtons`, `RecipeMsgLines` and `RecipeMsgWithoutAuthors` |
| Message.RecipeMsgButtons | telegram/message.py:65-69 | the card has one row of two buttons, like and delete, whose callbacks split into `recipe`, the id and the action |
| Message.RecipeMsgLines | telegram/message.py:41-51 | the author line is empty exactly when there are no authors, and otherwise starts `By `; the tag line is empty without tags and otherwise each tag is `\#` and its escaped name or id |
| Message.RecipeMsgWithoutAuthors | telegram/message.py:53-63 | without authors the empty section collapses into one blank line between the ingredients and the tags |
| Message.ListItems | telegram/message.py:79-83 | as many list items as results; their contents are stated by `RecipesListText` |
| Message.NumberedRows | telegram/message.py:81-83 | as many rows as items; their numbering is stated by `NumberedLines` |
| Message.NumberButtons | telegram/message.py:84-86 | as many number buttons as results; their labels and callbacks are stated by `RecipesListKeyboard` |
| Message.FormatRecipesList | telegram/message.py:73-98 | `format_recipes_list_msg`; stated by `RecipesListText`, `RecipesListKeyboard` and `NavigationCallbacks` |
| Message.NumberedLines | telegram/message.py:80-87 | the rows joined by line breaks split back into the rows, the i-th starting with `i\. ` |
| Message.RecipesListText | telegram/message.py:73-87 | the list text has one line per result, the i-th being the decimal `i` (reading back as `i`), `\. ` and the item |
| Message.KeyboardLayout | telegram/message.py:89-96 | the number buttons fill `ceil(n/5)` rows of one to five, in order, longer rows first and differing by at most one, and the navigation row is last |
| Message.RecipesListKeyboard | telegram/message.py:84-96 | the i-th button is labelled `i` with callback `recipe/<id>/show`, laid out as above under the navigation row |
| Message.NavigationCallbacks | telegram/message.py:92-96 | the last row is `<prefix>/previousPage`, `<prefix>/delete` and `<prefix>/nextPage`, in that order |
| Chunking.EvenChunksShape | telegram/message.py:90-91 | `k` lists of sizes `q + 1` then `q`, together the items in order |
| Chunking.ChunkedEven | telegram/message.py:90-91 | `chunked_even` as `ceil(len/n)` even chunks; stated by `ChunkedEvenShape` |
| Chunking.ChunkedEvenShape | telegram/message.py:90-91 | `chunked_even(xs, n)` gives the items in order in `ceil(len/n)` lists of one to `n`, each at most one longer than any later one |
| TelegramModels.OrNone | telegram/models.py:25-27 | `value or None`: an empty or missing text becomes NULL |
| TelegramModels.UpdateFromMessage | telegram/models.py:22-29 | `Chat.update_from_message`; stated by `UpdateFromMessageEffect` |
| TelegramModels.UpdateFromMessageEffect | telegram/models.py:22-29 | the chat row is fetched or created, each name stored as NULL exactly when the message leaves it out or empty, its likes and blocks kept, no other chat changed, and repeating the update changes nothing |
| TelegramModels.GetPage | telegram/models.py:81-84 | `get_page`: the slice from `size * n` to `size * (n + 1)`; stated by the `Page…` lemmas |
| TelegramModels.PageSlice | telegram/models.py:81-84 | page `n` is the `size` results from `size * n` on, fewer at the end, none past it |
| TelegramModels.PageFails | telegram/models.py:81-84 | a page fails exactly when a slice bound is negative |
| TelegramModels.PageOfIndex | telegram/models.py:81-84 | every result is on page `i / size` at place `i % size` |
| TelegramModels.PageNonEmpty | telegram/models.py:81-84 | a page has results exactly when it starts inside the list |
| TelegramModels.CurrentPage | telegram/models.py:86-87 | `current_page` is the page at the cursor |
| TelegramModels.PreviousPage | telegram/models.py:89-95 | `previous_page`; stated by `PreviousAtFirst`, `MoveSteps` and `MovesStayInRange` |
| TelegramModels.NextPage | telegram/models.py:97-101 | `next_page`; stated by `MoveSteps` and `MovesStayInRange` |
| TelegramModels.PreviousAtFirst | telegram/models.py:89-91 | going back from page 0 returns nothing and stays at page 0 |
| TelegramModels.MoveSteps | telegram/models.py:86-101 | a move goes exactly one page back or forward when the page it returns has results and stays put otherwise; afterwards the current page is the page returned |
| TelegramModels.StayingReturnsNothing | telegram/models.py:89-101 | a move that stays put returned an empty page or an error |
| TelegramModels.MovesStayInRange | telegram/models.py:89-101 | moves keep `page_n` non-negative and on a page that starts inside the list |
| TelegramModels.TotalResultsCount | telegram/models.py:103-104 | `total_results_count`; stated by `PagesCoverTotal` |
| TelegramModels.PagesCoverTotal | telegram/models.py:103-104 | page `n` has results exactly when `n` is below the total count divided by the size, rounded up |
| TelegramModels.SearchOrderIsPreorder | telegram/models.py:79 | the search order is total and transitive |
| TelegramModels.SearchResults | telegram/models.py:73-79 | `SearchListMessage.get_queryset`; stated by `SearchResultsMeaning` |
| TelegramModels.SearchResultsMeaning | telegram/models.py:73-79 | a search holds exactly the recipes matching each non-empty query (all recipes when both are empty), most reviewed first, then best rated, then newest with undated first |
| TelegramModels.TitleOrderIsPreorder | telegram/models.py:116 | ordering by title is total and transitive |
| TelegramModels.LikedResults | telegram/models.py:115-116 | `LikedListMessage.get_queryset`; stated by `LikedResultsMeaning` |
| TelegramModels.LikedResultsMeaning | telegram/models.py:115-116 | the liked list holds the chat's liked recipes, each as often, in title order, and its count is their number |
| Fulfilment.DedupMeaning | telegram/tasks.py:32 | the union holds each recipe once and exactly the recipes of its parts |
| Fulfilment.DateOrderIsPreorder | telegram/tasks.py:38 | ordering by date is total and transitive |
| Fulfilment.ChatSubsMembers | telegram/tasks.py:28-33 | the chat's subscriptions are exactly the rows of that chat |
| Fulfilment.ToSend | telegram/tasks.py:27-38 | the recipes due to one chat; stated by `ToSendMembers` and `ToSendOrder` |
| Fulfilment.ToSendMembers | telegram/tasks.py:27-37 | a recipe is sent to a chat exactly when it is linked to a subscribed tag or author and dated after that subscription's watermark |
| Fulfilment.ToSendOrder | telegram/tasks.py:32-41 | each recipe is sent to a chat at most once per run, all are dated, in ascending date order |
| Fulfilment.NoSubscriptionsNothingToSend | telegram/tasks.py:27-37 | a chat without subscriptions is due nothing |
| Fulfilment.SetChatDate | telegram/tasks.py:53-54 | every subscription of the chat, tag or author, gets the date, and no other row changes |
| Fulfilment.LastDateCons | telegram/tasks.py:49-54 | the last dated recipe of a list is that of its tail, or the head's when the tail has none |
| Fulfilment.SendAll | telegram/tasks.py:41-54 | the send loop for one chat; stated by the `SendAll…` lemmas |
| Fulfilment.SendAllEffect | telegram/tasks.py:41-54 | sends go through up to the first that raises; watermarks change only after a send returns, and end at the last sent dated recipe's date; only the chat's own rows change |
| Fulfilment.SendAllSends | telegram/tasks.py:41-48 | the sends that happen are a prefix of the list, ending at the first one that raises |
| Fulfilment.SendAllDates | telegram/tasks.py:49-54 | only the chat's own watermarks move, to the date of the last dated recipe sent |
| Fulfilment.AscendingWatermark | telegram/tasks.py:38-54 | on a dated list in ascending order, the watermarks end at the date of the last recipe sent, the latest of those sent |
| Fulfilment.SentWatermark | telegram/tasks.py:38-54 | after a chat's sends, all its subscriptions equal the date of the last (largest) sent recipe |
| Fulfilment.WatermarkCanDrop | telegram/tasks.py:53-54 | the update is unconditional: a tag watermark of 100 drops to 10 after a recipe of date 10 is sent for an author subscription |
| Fulfilment.DueFromOwnRows | telegram/tasks.py:28-37 | what a chat is due depends on its own subscriptions only |
| Fulfilment.ChatSubsFrom | telegram/tasks.py:28-33 | two tables agreeing on a chat's rows give it the same subscriptions |
| Fulfilment.SendAllKeepsOthers | telegram/tasks.py:53-54 | sending to one chat leaves every other chat's subscriptions unchanged |
| Fulfilment.Fulfil | telegram/tasks.py:25-55 | the loop over the chats; stated by `FulfilCounts` and `FulfilSubscriptionsCounts` |
| Fulfilment.FulfilCounts | telegram/tasks.py:25-55 | in a run without a failing send, each chat is counted exactly when it was due something, for the number of recipes it was due |
| Fulfilment.FulfilSubscriptionsCounts | telegram/tasks.py:22-57 | the counter of a run without a failing send has, for each chat, the number of recipes sent to it, and no chat that was sent none |
| Fulfilment.UnsubscribedChatUntouched | telegram/tasks.py:27-42 | a chat without subscriptions is sent nothing and no watermark changes |
| Fulfilment.SendToChat | telegram/tasks.py:41-54 | the inner loop computes the deliveries above |
| Fulfilment.FulfilWith | telegram/tasks.py:25-55 | the outer loop computes the run over the chats in turn, ending at the first failing send |
| Fulfilment.FulfilSubscriptions | telegram/tasks.py:22-57 | `fulfill_subscriptions` over the stored chats, subscriptions and recipes |
| SecretKey.CharRun | backend/utils.py:15 | a run of `n` consecutive characters holds exactly the characters in that range |
| SecretKey.AlphabetMembers | backend/utils.py:15 | the alphabet is exactly the 62 ASCII letters and digits |
| SecretKey.Candidate | backend/utils.py:17 | a candidate has the requested length |
| SecretKey.FirstAcceptedGaveUp | backend/utils.py:16-23 | the search gives up exactly when none of the candidates tried passes |
| SecretKey.FirstAcceptedFound | backend/utils.py:16-23 | the first passing candidate is the one returned |
| SecretKey.FirstAcceptedPasses | backend/utils.py:16-23 | a returned key is a candidate that passed |
| SecretKey.GenerateSecretKey | backend/utils.py:12-23 | `generate_secret_key`; stated by `GenerateSecretKeyMeaning` |
| SecretKey.GenerateSecretKeyMeaning | backend/utils.py:12-23 | a length below 16 is refused before anything is drawn; a key has the requested length, only letters and digits, a lower-case and an upper-case letter and at least three digits; it is the first passing candidate |
| SecretKey.Draw | backend/utils.py:17 | the drawing loop builds the candidate |
| SecretKey.CountDigitsSnoc | backend/utils.py:21 | appending a character adds one digit exactly when it is a digit |
| SecretKey.Check | backend/utils.py:18-22 | the one-pass check accepts exactly the candidates with a lower-case letter, an upper-case letter and three digits |
| SecretKey.GenerateSecretKeyLoop | backend/utils.py:12-23 | the loop returns what the search above returns |
| Strings.Lower | recipes/models.py:21 | ASCII `casefold`: upper-case letters become lower-case, all else unchanged |
| Strings.Capitalize | telegram/message.py:11 | `capitalize`: first character upper-cased, the rest lower-cased |
| Strings.Replace | recipes/scrapers.py:26 | `replace` leaves text without the pattern's first character unchanged; that it replaces every non-overlapping match is stated by `ReplaceIsJoinSplit` |
| Strings.ContainsHead | recipes/scrapers.py:26 | text containing a non-empty pattern contains its first character |
| Strings.ReplaceNoMatch | recipes/scrapers.py:26 | text not containing the pattern is left unchanged |
| Strings.ReplaceIsJoinSplit | recipes/scrapers.py:26 | `s.replace(pat, rep)` is `rep.join(s.split(pat))`: every non-overlapping match, left to right, is replaced |
| Strings.ReplaceRemovesChar | recipes/scrapers.py:74 | replacing a character by text without it removes it |
| Strings.ReplaceKeepsAbsent | telegram/formatters.py:55 | replacing introduces no character found in neither text nor replacement |
| Strings.ReplaceAppend | telegram/formatters.py:55 | a replacement pass over a concatenation no match straddles is the passes over its parts |
| Strings.JoinSplit | recipes/scrapers.py:89 | joining the pieces of a split gives back the text |
| Strings.SplitJoin | telegram/message.py:87 | splitting a join on a one-character separator absent from the parts gives back the parts |
| Strings.LeadingSpaces | recipes/scrapers.py:89-90 | the length of the leading whitespace: all of it whitespace and the next character not |
| Strings.Strip | recipes/scrapers.py:89-90 | `strip` gives the piece that starts after the leading whitespace, leaves only whitespace after it, and has neither end whitespace |
| Strings.StripLeftDropsLeading | recipes/scrapers.py:89-90 | stripping the left end drops exactly the leading whitespace |
| Strings.StripPiece | recipes/scrapers.py:89-90 | stripping the left end and then the right end leaves the piece right after the leading whitespace, with only whitespace after it |
| Strings.StripIsPiece | recipes/scrapers.py:89-90 | the stripped text is a piece of the text |
| Strings.StripKeepsNonSpace | recipes/scrapers.py:89-90 | stripping keeps every non-whitespace character |
| Strings.NatToDecimal | telegram/message.py:82 | `str(i)` is digits with no leading zero |
| Strings.DecimalRoundTrip | telegram/message.py:82 | reading back the digits of `str(n)` gives `n` |
| Strings.DecimalInjective | telegram/message.py:85 | different numbers get different labels |
| Seqs.FilterMembership | telegram/models.py:75-78 | filtering keeps exactly the elements that satisfy the predicate |
| Seqs.InFilter | telegram/models.py:75-78 | an element is in the filtered list exactly when it is in the list and satisfies the predicate |
| Seqs.FlatMapMembership | telegram/tasks.py:28-37 | an element of the combined lists is in one of them |
| Seqs.SortBy | telegram/tasks.py:38 | sorting gives the same elements in order |
| Seqs.SortByPreserves | telegram/models.py:79 | sorting keeps the length and exactly the elements |
| Seqs.DistinctPermutation | telegram/tasks.py:32-38 | ordering a list without repeats leaves it without repeats |

## Left out

- Network and timing: the HTTP session, `time.sleep` and the random jitter
  in `recipes/scrapers.py` are not modelled. A fetch is the `faults` oracle
  over a fixed sequence of page bodies, and pages past that sequence are
  empty.
- Date parsing with `dateparser` is not modelled: dates are already-parsed
  `Option<int>` ordinals.
- Transactions, `save()` and many-to-many `.set()` are modelled as map
  updates. The per-page transaction is an all-or-nothing update of the
  store. Each subscription update in `telegram/tasks.py` is applied as one
  step.
- The full-text engine (`SearchVector`, `SearchQuery`) is a `matches`
  predicate.
- TelegramModels.SearchResults: `SearchListMessage.get_queryset`
  (`telegram/models.py:76` and `:78`) calls `Recipe.fts_filter` with
  `Recipe.SearchFieldsets.ESSENTIALS` and `INGREDIENTS`. Neither
  `fts_filter` nor `SearchFieldsets` is defined in `recipes/models.py`,
  which has only `text_search`. So, as that file reads, a non-empty
  `recipe_query` or `ingredients_query` raises `AttributeError`. The
  `matches(fieldset, query, recipe)` parameter stands for the filter they
  are assumed to provide. The model does not express the error.
- EntityStore.Upsert stores no search vectors. At
  `recipes/scrapers.py:159-163` the scraper assigns `recipe.main_tsvector`
  and saves the recipe a second time. `main_tsvector` is not a declared
  field of `Recipe` (`recipes/models.py:58-59`), so `save()` ignores it and
  the second save writes nothing new. Nothing in this code fills the
  declared `full_text_tsvector` and `essentials_tsvector`. This is a second
  use of the field the `text_search` Finding is about.
- Floats: the rating is an ordered `real` key, and its `f"{x:.1f}"`
  rendering is a `rating` parameter.
- Character classes are ASCII only. This covers `\w` and `\d` in the
  regular expressions, `casefold`, `lower`, `capitalize`, `islower`,
  `isupper` and `isdigit`. `str.isspace` is modelled by its full list.
  Titles are compared in code-point order; the database collation is not
  modelled.
- Ordering ties: recipes with equal keys are kept in their stored order.
  The database leaves that order unspecified.
- Message.FormatRecipeMsg, Message.ListItem, Message.TagItems,
  Message.AuthorNames, Formatters.AuthorsLine, Formatters.AuthorsLineAsWritten
  and Formatters.TagsLine: the source renders `recipe.tags.all()` and
  `recipe.authors.all()`, which come in id order (`ordering = ['id']` on `Tag` and `Author`) without repeats,
  because many-to-many links are unique. These members take the `Entry`'s
  sequences as they are and keep their order and repeats. So an `Entry`
  straight from the parser renders with the scraped order, the default tag
  last, and any repeated author. The model does not sort or deduplicate
  the links.
- telegram/utils.py is not part of this model. `Message` takes its escaping
  function as a parameter, and the properties that need it to keep text on
  one line say so.
- `more_itertools.chunked_even` is modelled by its documented result.
- The logging is not modelled, including the per-chat and total counts the
  task only logs.
- Not modelled at all:
  - `pretty_json`;
  - the Celery configuration and task wrappers;
  - both admin modules, the views, URLs and serializers;
  - the migrations;
  - the bot handlers and the polling entry point.
- SecretKey.GenerateSecretKey: the source loops until a candidate passes.
  The model stops after `maxAttempts` candidates and then returns `GaveUp`,
  because the loop's termination depends on the random source.
- CleanText.CodePoint: a decimal reference to a surrogate code point is an
  error in the model. Python would build a lone surrogate, which a Dafny
  `char` cannot hold.
- BaParse.ParseRecipe: missing JSON keys and fields of the wrong type are
  not modelled, because the raw item is already a typed record. Its only
  errors are a text that fails to clean and an empty tout photo list.

Points where the code does something other than one might expect; the
model follows the code:

- Saving a tag or an author replaces the stored name (`save()` is an
  upsert), so a later item can rename an existing tag.
- Ingredient-group titles are not capitalised when scraped. Only
  `telegram/message.py` capitalises them, when rendering.
- A recipe without a publication date is never sent by the fulfilment
  task, because `pub_date__gt` never holds for NULL.
- A send that raises ends the whole task, not just that chat's sends,
  because nothing handles the error.
- Blocked tags and authors are stored on the chat but no result list
  excludes them.

## Findings

| source | as written | input that shows it | evidently intended | confidence | as-written member | corrected member |
|---|---|---|---|---|---|---|
| telegram/formatters.py:35-38 | `if recipe.authors:` tests a related manager, which is always true, so the author line is always `By ` followed by the joined authors | a recipe with ingredients and no authors: the message has a line holding only `By ` between the ingredients and the tags | an empty author section for a recipe without authors, as `telegram/message.py:41-45` does with `tuple(recipe.authors.all())` | not executed | Formatters.AsWrittenKeepsByLine | Formatters.RecipeToMessageWithoutAuthors |
| recipes/models.py:76-77 | the `full_text` branch filters on `main_tsvector`, a field `Recipe` does not declare (it declares `full_text_tsvector` and `essentials_tsvector`, lines 58-59), so Django raises `FieldError` | `Recipe.text_search("pasta", scope="full_text")` | a filter on `full_text_tsvector` | not executed | RecipeModels.TextSearchAsWrittenFails | RecipeModels.TextSearch |

=== FILE: arith.dfy ===
/** Integer helpers shared by the model. */
module Arith {

  function Min(a: int, b: int): int { if a <= b then a else b }
  function Max(a: int, b: int): int { if a >= b then a else b }

  /** Multiplying by a non-negative factor keeps the order. */
  lemma MulLe(x: int, y: int, b: int)
    requires b >= 0
    ensures x <= y ==> x * b <= y * b
  {
  }
}

=== FILE: chunking.dfy ===
/** `more_itertools.chunked_even(xs, n)` by its documented result: the items
    in order, in as few lists of at most `n` items as possible, the list
    lengths differing by at most one and the longer lists first. */
module Chunking {
  import Seqs
  import opened Arith

  function CeilDiv(a: nat, b: nat): nat
    requires b > 0
  {
    (a + b - 1) / b
  }

  lemma DivUnique(a: int, b: int, q: int, r: int)
    requires b > 0 && 0 <= r < b && a == q * b + r
    ensures a / b == q && a % b == r
  {
    var q0, r0 := a / b, a % b;
    assert a == q0 * b + r0;
    MulLe(q + 1, q0, b);
    MulLe(q0 + 1, q, b);
    assert (q + 1) * b == q * b + b;
    assert (q0 + 1) * b == q0 * b + b;
  }

  /** `xs` cut into `k` lists, each as long as the rounded-up share of what
      is left. */
  function EvenChunks<T>(xs: seq<T>, k: nat): seq<seq<T>>
    decreases k
  {
    if k == 0 || xs == [] then []
    else
      var c := CeilDiv(|xs|, k);
      if c <= |xs| then [xs[..c]] + EvenChunks(xs[c..], k - 1) else [xs]
  }

  function ChunkedEven<T>(xs: seq<T>, n: nat): seq<seq<T>>
    requires n > 0
  {
    EvenChunks(xs, CeilDiv(|xs|, n))
  }

  /** The first share when `L == q * k + rem`, and what is left after it. */
  lemma FirstShare(L: nat, k: nat, q: nat, rem: nat)
    requires q >= 1 && rem < k && L == q * k + rem
    ensures CeilDiv(L, k) == (if rem > 0 then q + 1 else q)
    ensures CeilDiv(L, k) <= L
    ensures k > 1 ==> L - CeilDiv(L, k) == q * (k - 1) + (if rem > 0 then rem - 1 else 0)
  {
    if rem > 0 {
      assert L + k - 1 == (q + 1) * k + (rem - 1);
      DivUnique(L + k - 1, k, q + 1, rem - 1);
    } else {
      assert L + k - 1 == q * k + (k - 1);
      DivUnique(L + k - 1, k, q, k - 1);
    }
    MulLe(1, k, q);
    assert q <= L;
    assert q * (k - 1) == q * k - q;
  }

  /** The shares when `|xs| == q * k + rem`: `rem` lists of `q + 1` items,
      then `k - rem` lists of `q`. */
  lemma {:induction false} EvenChunksShape<T>(xs: seq<T>, k: nat, q: nat, rem: nat)
    requires q >= 1 && rem < k && |xs| == q * k + rem
    ensures |EvenChunks(xs, k)| == k
    ensures Seqs.Flatten(EvenChunks(xs, k)) == xs
    ensures forall i :: 0 <= i < k ==> |EvenChunks(xs, k)[i]| == (if i < rem then q + 1 else q)
    decreases k
  {
    FirstShare(|xs|, k, q, rem);
    var c := CeilDiv(|xs|, k);
    var r := EvenChunks(xs, k);
    var rest := xs[c..];
    assert r == [xs[..c]] + EvenChunks(rest, k - 1);
    if k == 1 {
      assert rest == [];
      assert xs[..c] == xs;
    } else {
      var rem' := if rem > 0 then rem - 1 else 0;
      EvenChunksShape(rest, k - 1, q, rem');
      var tail := EvenChunks(rest, k - 1);
      assert r[1..] == tail;
      assert xs[..c] + rest == xs;
      forall i | 0 <= i < k ensures |r[i]| == (if i < rem then q + 1 else q) {
        if i > 0 { assert r[i] == tail[i - 1]; }
      }
    }
  }

  /** The lists keep the items in order, there are `ceil(|xs| / n)` of them,
      each has between one and `n` items, and a list is at most one item
      longer than any later one. */
  lemma ChunkedEvenShape<T>(xs: seq<T>, n: nat)
    requires n > 0
    ensures var r := ChunkedEven(xs, n);
      && Seqs.Flatten(r) == xs
      && |r| == CeilDiv(|xs|, n)
      && (forall i :: 0 <= i < |r| ==> 1 <= |r[i]| <= n)
      && (forall i, j :: 0 <= i < j < |r| ==> |r[j]| <= |r[i]| <= |r[j]| + 1)
  {
    var L := |xs|;
    var k := CeilDiv(L, n);
    if L == 0 {
      DivUnique(n - 1, n, 0, n - 1);
    } else {
      var q, rem := L / k, L % k;
      CeilDivPositive(L, n);
      assert L == q * k + rem;
      CeilDivShare(L, n, k, q, rem);
      EvenChunksShape(xs, k, q, rem);
    }
  }

  lemma CeilDivPositive(L: nat, n: nat)
    requires n > 0 && L > 0
    ensures 1 <= CeilDiv(L, n) <= L
    ensures (CeilDiv(L, n) - 1) * n < L <= CeilDiv(L, n) * n
  {
    var k := (L + n - 1) / n;
    var m := (L + n - 1) % n;
    assert L + n - 1 == k * n + m;
    MulLe(k, 0, n);
    assert (k - 1) * n == k * n - n;
    MulLe(L, k - 1, n);
    MulLe(1, n, L);
  }

  /** With `k = ceil(L / n)` lists, each gets `q` or `q + 1` items, at least
      one and at most `n`. */
  lemma CeilDivShare(L: nat, n: nat, k: nat, q: nat, rem: nat)
    requires n > 0 && L > 0 && k == CeilDiv(L, n)
    requires 1 <= k && rem < k && L == q * k + rem
    requires (k - 1) * n < L <= k * n
    ensures q >= 1
    ensures q + (if rem > 0 then 1 else 0) <= n
  {
    MulLe(1, n, k - 1);
    MulLe(q, 0, k);
    MulLe(n, q, k);
    MulLe(n + 1, q, k);
    assert (n + 1) * k == n * k + k;
  }
}

=== FILE: entity_store.dfy ===
/** The entity store as the crawler writes to it (recipes/scrapers.py,
    the body of the per-item loop): `recipe.save()` inserts or replaces the
    recipe row, `tag.save()`/`author.save()` insert or replace each tag and
    author row, and `recipe.tags.set(...)`/`recipe.authors.set(...)` replace
    the recipe's association sets wholesale. */
module EntityStore {
  import opened RecipeModels

  datatype Store = Store(
    recipes: map<string, Recipe>,
    tags: map<string, Tag>,
    authors: map<string, Author>,
    recipeTags: map<string, set<string>>,
    recipeAuthors: map<string, set<string>>)

  const Empty := Store(map[], map[], map[], map[], map[])

  /** The keys of a sequence of rows. */
  function Keys<T>(xs: seq<T>, key: T -> string): set<string> {
    set i | 0 <= i < |xs| :: key(xs[i])
  }

  /** Saving each row of `xs` in turn. */
  function SaveAll<T>(m: map<string, T>, xs: seq<T>, key: T -> string): map<string, T>
    decreases |xs|
  {
    if xs == [] then m else SaveAll(m, xs[..|xs| - 1], key)[key(xs[|xs| - 1]) := xs[|xs| - 1]]
  }

  lemma KeysSnoc<T>(xs: seq<T>, key: T -> string)
    requires xs != []
    ensures Keys(xs, key) == Keys(xs[..|xs| - 1], key) + {key(xs[|xs| - 1])}
  {
    var init := xs[..|xs| - 1];
    forall k | k in Keys(xs, key) ensures k in Keys(init, key) + {key(xs[|xs| - 1])} {
      var i :| 0 <= i < |xs| && key(xs[i]) == k;
      if i < |xs| - 1 { assert init[i] == xs[i]; }
    }
    forall k | k in Keys(init, key) ensures k in Keys(xs, key) {
      var i :| 0 <= i < |init| && key(init[i]) == k;
      assert xs[i] == init[i];
    }
  }

  /** After saving, the keys are the old keys and the rows' keys, and a key
      no row has keeps its old row. */
  lemma {:induction false} SaveAllKeys<T>(m: map<string, T>, xs: seq<T>, key: T -> string)
    ensures SaveAll(m, xs, key).Keys == m.Keys + Keys(xs, key)
    ensures forall k :: k in m && k !in Keys(xs, key) ==> SaveAll(m, xs, key)[k] == m[k]
    decreases |xs|
  {
    if xs != [] {
      SaveAllKeys(m, xs[..|xs| - 1], key);
      KeysSnoc(xs, key);
    }
  }

  /** A row's key holds a row of `xs` with that key: itself or a later one. */
  lemma {:induction false} SaveAllLastWins<T>(m: map<string, T>, xs: seq<T>, key: T -> string, i: nat)
    requires i < |xs|
    ensures key(xs[i]) in SaveAll(m, xs, key)
    ensures exists j :: i <= j < |xs| && key(xs[j]) == key(xs[i]) && SaveAll(m, xs, key)[key(xs[i])] == xs[j]
    decreases |xs|
  {
    var last := |xs| - 1;
    if key(xs[i]) == key(xs[last]) {
      assert SaveAll(m, xs, key)[key(xs[i])] == xs[last];
    } else {
      var init := xs[..last];
      SaveAllLastWins(m, init, key, i);
      var j :| i <= j < |init| && key(init[j]) == key(init[i]) && SaveAll(m, init, key)[key(init[i])] == init[j];
      assert xs[j] == init[j] && xs[i] == init[i];
    }
  }

  /** Saving rows overrides the old map with the map the rows alone make. */
  lemma {:induction false} SaveAllOverrides<T>(m: map<string, T>, xs: seq<T>, key: T -> string)
    ensures SaveAll(m, xs, key) == m + SaveAll(map[], xs, key)
    decreases |xs|
  {
    if xs != [] {
      var init := xs[..|xs| - 1];
      var last := xs[|xs| - 1];
      SaveAllOverrides(m, init, key);
      UnionUpdate(m, SaveAll(map[], init, key), key(last), last);
    }
  }

  /** Saving the same rows twice is saving them once. */
  lemma SaveAllIdempotent<T>(m: map<string, T>, xs: seq<T>, key: T -> string)
    ensures SaveAll(SaveAll(m, xs, key), xs, key) == SaveAll(m, xs, key)
  {
    var w := SaveAll(map[], xs, key);
    SaveAllOverrides(m, xs, key);
    SaveAllOverrides(m + w, xs, key);
    UnionSelf(m, w);
  }

  function TagId(t: Tag): string { t.id }
  function AuthorId(a: Author): string { a.id }

  /** One scraped item written to the store. */
  function Upsert(st: Store, e: Entry): Store {
    Store(
      st.recipes[e.recipe.id := e.recipe],
      SaveAll(st.tags, e.tags, TagId),
      SaveAll(st.authors, e.authors, AuthorId),
      st.recipeTags[e.recipe.id := Keys(e.tags, TagId)],
      st.recipeAuthors[e.recipe.id := Keys(e.authors, AuthorId)])
  }

  /** An upsert stores the recipe, links it to exactly the item's tags and
      authors, stores every one of them and touches no other row. */
  lemma UpsertWrites(st: Store, e: Entry)
    ensures Upsert(st, e).recipes == st.recipes[e.recipe.id := e.recipe]
    ensures Upsert(st, e).recipeTags == st.recipeTags[e.recipe.id := Keys(e.tags, TagId)]
    ensures Upsert(st, e).recipeAuthors == st.recipeAuthors[e.recipe.id := Keys(e.authors, AuthorId)]
    ensures Upsert(st, e).tags.Keys == st.tags.Keys + Keys(e.tags, TagId)
    ensures Upsert(st, e).authors.Keys == st.authors.Keys + Keys(e.authors, AuthorId)
    ensures forall k :: k in st.tags && k !in Keys(e.tags, TagId) ==> Upsert(st, e).tags[k] == st.tags[k]
    ensures forall k :: k in st.authors && k !in Keys(e.authors, AuthorId) ==> Upsert(st, e).authors[k] == st.authors[k]
    ensures forall i :: 0 <= i < |e.tags| ==> Upsert(st, e).tags[e.tags[i].id] in e.tags
    ensures forall i :: 0 <= i < |e.authors| ==> Upsert(st, e).authors[e.authors[i].id] in e.authors
  {
    SaveAllKeys(st.tags, e.tags, TagId);
    SaveAllKeys(st.authors, e.authors, AuthorId);
    forall i | 0 <= i < |e.tags| ensures Upsert(st, e).tags[e.tags[i].id] in e.tags {
      SaveAllLastWins(st.tags, e.tags, TagId, i);
    }
    forall i | 0 <= i < |e.authors| ensures Upsert(st, e).authors[e.authors[i].id] in e.authors {
      SaveAllLastWins(st.authors, e.authors, AuthorId, i);
    }
  }

  /** The items of `es` written in order. */
  function UpsertAll(st: Store, es: seq<Entry>): Store
    decreases |es|
  {
    if es == [] then st else Upsert(UpsertAll(st, es[..|es| - 1]), es[|es| - 1])
  }

  /** Every table of `a` overridden by the same table of `b`. */
  function Merge(a: Store, b: Store): Store {
    Store(a.recipes + b.recipes, a.tags + b.tags, a.authors + b.authors,
          a.recipeTags + b.recipeTags, a.recipeAuthors + b.recipeAuthors)
  }

  /** Saving rows over a union only overrides its right-hand side. */
  lemma SaveAllMerge<T>(x: map<string, T>, y: map<string, T>, xs: seq<T>, key: T -> string)
    ensures SaveAll(x + y, xs, key) == x + SaveAll(y, xs, key)
  {
    var w := SaveAll(map[], xs, key);
    SaveAllOverrides(x + y, xs, key);
    SaveAllOverrides(y, xs, key);
    MapUnionAssoc(x, y, w);
  }

  lemma UpsertMerge(a: Store, b: Store, e: Entry)
    ensures Upsert(Merge(a, b), e) == Merge(a, Upsert(b, e))
  {
    SaveAllMerge(a.tags, b.tags, e.tags, TagId);
    SaveAllMerge(a.authors, b.authors, e.authors, AuthorId);
    UnionUpdate(a.recipes, b.recipes, e.recipe.id, e.recipe);
    UnionUpdate(a.recipeTags, b.recipeTags, e.recipe.id, Keys(e.tags, TagId));
    UnionUpdate(a.recipeAuthors, b.recipeAuthors, e.recipe.id, Keys(e.authors, AuthorId));
  }

  lemma UnionUpdate<V>(x: map<string, V>, y: map<string, V>, k: string, v: V)
    ensures (x + y)[k := v] == x + y[k := v]
  {
  }

  lemma MapUnionAssoc<V>(x: map<string, V>, y: map<string, V>, z: map<string, V>)
    ensures (x + y) + z == x + (y + z)
  {
  }

  lemma UnionSelf<V>(x: map<string, V>, y: map<string, V>)
    ensures (x + y) + y == x + y
  {
  }

  lemma MergeIdempotent(a: Store, b: Store)
    ensures Merge(Merge(a, b), b) == Merge(a, b)
  {
    UnionSelf(a.recipes, b.recipes);
    UnionSelf(a.tags, b.tags);
    UnionSelf(a.authors, b.authors);
    UnionSelf(a.recipeTags, b.recipeTags);
    UnionSelf(a.recipeAuthors, b.recipeAuthors);
  }

  /** Writing items overrides the old store with what the items alone write. */
  lemma {:induction false} UpsertAllOverrides(st: Store, es: seq<Entry>)
    ensures UpsertAll(st, es) == Merge(st, UpsertAll(Empty, es))
    decreases |es|
  {
    if es == [] {
      assert st.recipes + map[] == st.recipes;
      assert st.tags + map[] == st.tags;
      assert st.authors + map[] == st.authors;
      assert st.recipeTags + map[] == st.recipeTags;
      assert st.recipeAuthors + map[] == st.recipeAuthors;
    } else {
      var init, last := es[..|es| - 1], es[|es| - 1];
      var w := UpsertAll(Empty, init);
      assert UpsertAll(st, es) == Upsert(UpsertAll(st, init), last);
      assert UpsertAll(Empty, es) == Upsert(w, last);
      UpsertAllOverrides(st, init);
      UpsertMerge(st, w, last);
    }
  }

  /** Ingesting the same items twice leaves the store as ingesting them once:
      one row per identifier, with the same fields and the same tag and
      author sets. */
  lemma UpsertAllIdempotent(st: Store, es: seq<Entry>)
    ensures UpsertAll(UpsertAll(st, es), es) == UpsertAll(st, es)
  {
    var w := UpsertAll(Empty, es);
    UpsertAllOverrides(st, es);
    UpsertAllOverrides(Merge(st, w), es);
    MergeIdempotent(st, w);
  }

  lemma {:induction false} UpsertAllAppend(st: Store, a: seq<Entry>, b: seq<Entry>)
    ensures UpsertAll(st, a + b) == UpsertAll(UpsertAll(st, a), b)
    decreases |b|
  {
    if b == [] {
      assert a + b == a;
    } else {
      assert (a + b)[..|a + b| - 1] == a + b[..|b| - 1];
      UpsertAllAppend(st, a, b[..|b| - 1]);
    }
  }
}

=== FILE: recipes_models.dfy ===
/** The recipe entities: Tag and Author (identified by a canonical form of
    their display name), Recipe with its ingredient groups, and the scope
    dispatch of the recipe text search. */
module RecipeModels {
  import opened Wrappers
  import opened Strings
  import Seqs

  /** A character the `\w` class accepts (ASCII letters, digits, underscore). */
  predicate IsWordChar(c: char) {
    IsAsciiLetter(c) || IsAsciiDigit(c) || c == '_'
  }

  /** A canonical identifier: word characters only, none of them upper case. */
  predicate IsCanonicalId(id: string) {
    forall i :: 0 <= i < |id| ==> IsWordChar(id[i]) && !IsAsciiUpper(id[i])
  }

  /** The identifier of a tag or an author with display name `name`: every run
      of non-word characters deleted, the rest case-folded. Tags and authors
      share this one function. */
  function IdFromName(name: string): string
    decreases |name|
  {
    if name == [] then []
    else if IsWordChar(name[0]) then [Lower(name[0])] + IdFromName(name[1..])
    else IdFromName(name[1..])
  }

  /** An identifier holds only lower-case word characters and is no longer than the name. */
  lemma {:induction false} IdFromNameCanonical(name: string)
    ensures |IdFromName(name)| <= |name|
    ensures IsCanonicalId(IdFromName(name))
    decreases |name|
  {
    if name != [] {
      IdFromNameCanonical(name[1..]);
    }
  }

  /** The identifier is the folded word characters of the name, in order:
      deleting the non-word characters first and folding afterwards gives
      the same text. */
  lemma {:induction false} IdFromNameIsFoldedWordChars(name: string)
    ensures IdFromName(name) == LowerAll(Seqs.Filter(name, IsWordChar))
    decreases |name|
  {
    if name != [] {
      IdFromNameIsFoldedWordChars(name[1..]);
      if IsWordChar(name[0]) {
        var f := Seqs.Filter(name[1..], IsWordChar);
        assert Seqs.Filter(name, IsWordChar) == [name[0]] + f;
        assert LowerAll([name[0]] + f) == [Lower(name[0])] + LowerAll(f) by {
          assert ([name[0]] + f)[1..] == f;
        }
      }
    }
  }

  /** Canonical identifiers are their own identifiers. */
  lemma {:induction false} IdFromNameFixesCanonical(id: string)
    requires IsCanonicalId(id)
    ensures IdFromName(id) == id
    decreases |id|
  {
    if id != [] {
      IdFromNameFixesCanonical(id[1..]);
      assert [id[0]] + id[1..] == id;
    }
  }

  /** Canonicalising twice is canonicalising once. */
  lemma IdFromNameIdempotent(name: string)
    ensures IdFromName(IdFromName(name)) == IdFromName(name)
  {
    IdFromNameCanonical(name);
    IdFromNameFixesCanonical(IdFromName(name));
  }

  /** The identifier of a concatenation is the concatenation of the identifiers. */
  lemma {:induction false} IdFromNameAppend(a: string, b: string)
    ensures IdFromName(a + b) == IdFromName(a) + IdFromName(b)
    decreases |a|
  {
    if a == [] {
      assert a + b == b;
    } else {
      assert (a + b)[1..] == a[1..] + b;
      IdFromNameAppend(a[1..], b);
    }
  }

  /** Case is ignored: folding the name first does not change its identifier. */
  lemma {:induction false} IdFromNameIgnoresCase(name: string)
    ensures IdFromName(LowerAll(name)) == IdFromName(name)
    decreases |name|
  {
    if name != [] {
      var l := LowerAll(name);
      assert l[1..] == LowerAll(name[1..]);
      IdFromNameIgnoresCase(name[1..]);
    }
  }

  /** Punctuation and spaces are ignored: a non-word character anywhere in the
      name does not change its identifier. */
  lemma IdFromNameIgnoresNonWord(a: string, c: char, b: string)
    requires !IsWordChar(c)
    ensures IdFromName(a + [c] + b) == IdFromName(a + b)
  {
    IdFromNameAppend(a + [c], b);
    IdFromNameAppend(a, [c]);
    IdFromNameAppend(a, b);
  }

  /** A name with no word characters has the empty identifier. */
  lemma IdFromNameNoWordChars(name: string)
    requires forall i :: 0 <= i < |name| ==> !IsWordChar(name[i])
    ensures IdFromName(name) == ""
  {
    IdFromNameIsFoldedWordChars(name);
  }

  /** `str(self.name or self.id)`: the display name when it is set and
      non-empty, the identifier otherwise. */
  function NameOrId(name: Option<string>, id: string): (r: string)
    ensures name.Some? && name.value != [] ==> r == name.value
    ensures name.None? || name.value == [] ==> r == id
  {
    match name
    case Some(n) => if n != [] then n else id
    case None => id
  }

  datatype Tag = Tag(id: string, name: Option<string>) {
    function Str(): string { NameOrId(name, id) }
  }

  datatype Author = Author(id: string, name: Option<string>) {
    function Str(): string { NameOrId(name, id) }
  }

  datatype IngredientGroup = IngredientGroup(title: string, ingredients: seq<string>)

  /** A recipe row. `pubDate` is the already-parsed publication date (an
      ordinal), `rating` the average rating taken as an ordered key. */
  datatype Recipe = Recipe(
    id: string,
    url: string,
    pubDate: Option<int>,
    name: string,
    title: string,
    description: string,
    shortDescription: string,
    rating: real,
    reviewsCount: int,
    wmaCount: int,
    photoUrl: Option<string>,
    ingredientGroups: seq<IngredientGroup>)
  {
    function Str(): string { title }
  }

  /** A recipe with the tags and authors it is linked to. Read back through
      the related managers these would be in id order without repeats (the
      `ordering = ['id']` of `Tag` and `Author`, and unique many-to-many
      links); an `Entry` holds any sequence, and the renderers keep its
      order. */
  datatype Entry = Entry(recipe: Recipe, tags: seq<Tag>, authors: seq<Author>)

  /** The two search-vector columns `Recipe` declares. */
  datatype SearchVector = FullTextVector | EssentialsVector

  /** The field name of each declared search-vector column. */
  function VectorField(v: SearchVector): string {
    match v
    case FullTextVector => "full_text_tsvector"
    case EssentialsVector => "essentials_tsvector"
  }

  /** The search-vector column with field name `field`, if `Recipe` declares one. */
  function DeclaredVector(field: string): (v: Option<SearchVector>)
    ensures v.Some? ==> VectorField(v.value) == field
    ensures forall w: SearchVector :: VectorField(w) == field ==> v == Some(w)
  {
    if field == "full_text_tsvector" then Some(FullTextVector)
    else if field == "essentials_tsvector" then Some(EssentialsVector)
    else None
  }

  datatype SearchError =
    | UnknownScope(scope: string)   // the ValueError for any other scope
    | UnknownField(field: string)   // the FieldError Django raises for a field the model lacks

  /** The vector column a search scope selects, if the scope is known. */
  function VectorOf(scope: string): (v: Option<SearchVector>)
    ensures v.Some? <==> scope == "full_text" || scope == "essentials"
    ensures v == Some(FullTextVector) <==> scope == "full_text"
    ensures v == Some(EssentialsVector) <==> scope == "essentials"
  {
    if scope == "full_text" then Some(FullTextVector)
    else if scope == "essentials" then Some(EssentialsVector)
    else None
  }

  /** The recipes of `base` whose vector `v` matches `query`, in order. */
  function Matching(base: seq<Recipe>, v: SearchVector, query: string,
                    matches: (SearchVector, string, Recipe) -> bool): (r: seq<Recipe>)
    ensures forall i :: 0 <= i < |r| ==> r[i] in base && matches(v, query, r[i])
    ensures forall i :: 0 <= i < |base| ==> matches(v, query, base[i]) ==> base[i] in r
  {
    Seqs.FilterMembership(base, (x: Recipe) => matches(v, query, x));
    Seqs.Filter(base, (x: Recipe) => matches(v, query, x))
  }

  /** `Recipe.text_search` with the `full_text` scope on the declared
      `full_text_tsvector` column: the recipes of `queryset` (all recipes
      when it is None) whose selected vector matches `query`, in queryset
      order; an unknown scope is an error. `matches` stands for the
      full-text engine. */
  function TextSearch(
    query: string, scope: string, queryset: Option<seq<Recipe>>, all: seq<Recipe>,
    matches: (SearchVector, string, Recipe) -> bool): (r: Result<seq<Recipe>, SearchError>)
    ensures r.Err? <==> VectorOf(scope).None?
    ensures r.Err? ==> r.error == UnknownScope(scope)
    ensures r.Ok? ==> forall i :: 0 <= i < |r.value| ==>
      r.value[i] in queryset.GetOr(all) && matches(VectorOf(scope).value, query, r.value[i])
    ensures r.Ok? ==> forall i :: 0 <= i < |queryset.GetOr(all)| ==>
      matches(VectorOf(scope).value, query, queryset.GetOr(all)[i]) ==> queryset.GetOr(all)[i] in r.value
  {
    match VectorOf(scope)
    case Some(v) => Ok(Matching(queryset.GetOr(all), v, query, matches))
    case None => Err(UnknownScope(scope))
  }

  /** The field each branch of `text_search` filters on, as written. */
  function FilterFieldAsWritten(scope: string): Option<string> {
    if scope == "full_text" then Some("main_tsvector")
    else if scope == "essentials" then Some("essentials_tsvector")
    else None
  }

  /** `Recipe.text_search` as written: `filter(main_tsvector=...)` for the
      `full_text` scope names a field `Recipe` does not declare, which Django
      refuses when the filter is built. */
  function TextSearchAsWritten(
    query: string, scope: string, queryset: Option<seq<Recipe>>, all: seq<Recipe>,
    matches: (SearchVector, string, Recipe) -> bool): Result<seq<Recipe>, SearchError>
  {
    match FilterFieldAsWritten(scope)
    case None => Err(UnknownScope(scope))
    case Some(field) =>
      match DeclaredVector(field)
      case None => Err(UnknownField(field))
      case Some(v) => Ok(Matching(queryset.GetOr(all), v, query, matches))
  }

  /** As written, every `full_text` search fails on the undeclared
      `main_tsvector` field, while the `essentials` scope and unknown scopes
      behave as in the corrected search. */
  lemma TextSearchAsWrittenFails(
    query: string, scope: string, queryset: Option<seq<Recipe>>, all: seq<Recipe>,
    matches: (SearchVector, string, Recipe) -> bool)
    ensures scope == "full_text" ==>
      TextSearchAsWritten(query, scope, queryset, all, matches) == Err(UnknownField("main_tsvector"))
    ensures scope != "full_text" ==>
      TextSearchAsWritten(query, scope, queryset, all, matches) == TextSearch(query, scope, queryset, all, matches)
  {
    assert DeclaredVector("main_tsvector") == None by {
      assert "main_tsvector" != "full_text_tsvector" by { assert "main_tsvector"[0] != "full_text_tsvector"[0]; }
      assert "main_tsvector" != "essentials_tsvector" by { assert "main_tsvector"[0] != "essentials_tsvector"[0]; }
    }
  }

  /** The corrected search filters on a declared column for each known
      scope, so it never fails on a field, and the `full_text` scope filters
      on `full_text_tsvector`. */
  lemma TextSearchUsesDeclaredFields(
    query: string, scope: string, queryset: Option<seq<Recipe>>, all: seq<Recipe>,
    matches: (SearchVector, string, Recipe) -> bool)
    ensures TextSearch(query, scope, queryset, all, matches).Ok? ==>
      DeclaredVector(VectorField(VectorOf(scope).value)) == VectorOf(scope)
    ensures scope == "full_text" ==>
      TextSearch(query, scope, queryset, all, matches).Ok? && VectorField(VectorOf(scope).value) == "full_text_tsvector"
    ensures forall f :: TextSearch(query, scope, queryset, all, matches) != Err(UnknownField(f))
  {
  }
}

=== FILE: scrapers_crawl.dfy ===
/** The Bon Appétit crawl (recipes/scrapers.py `_load_ba_page` and
    `bonappetit`): search pages are fetched in order from a start page, each
    with up to three attempts; the non-sponsored items of a page are parsed
    and written in one transaction; the crawl stops at an empty page or
    after the first page that reaches the target date.

    The network is two parameters: `pages`, the bodies the search API
    returns (page `p` is `pages[p - 1]`, every other page is empty), and
    `faults`, what happens on each attempt to fetch a page. */
module BaCrawl {
  import opened Wrappers
  import opened Strings
  import opened RecipeModels
  import opened BaParse
  import opened EntityStore
  import Seqs
  import opened Arith

  const MaxAttempts: nat := 3

  /** The outcome of one `session.get(...)` followed by `raise_for_status()`. */
  datatype Attempt =
    | Delivered       // a 2xx response
    | HttpError       // raise_for_status raised: retried
    | TransportError  // the request itself raised: not caught

  /** A response body: a JSON object with its `items`; JSON that is not an
      object with an `items` key (`[]`, `null`, `{}`), on which
      `data['items']` raises; or text that is not JSON. */
  datatype Body = Items(items: seq<RawItem>) | NoItems | Malformed

  datatype LoadError =
    | HttpFailed(page: int)       // the third attempt was still an HTTP error
    | TransportFailed(page: int)
    | MalformedBody(page: int)    // `resp.json()` raised, outside the retried block
    | ItemsMissing(page: int)     // `data['items']` raised KeyError or TypeError

  datatype CrawlError =
    | LoadFailed(load: LoadError)
    | ParseFailed(page: int, cause: ParseError)

  function BodyOf(pages: seq<Body>, p: int): Body {
    if 1 <= p <= |pages| then pages[p - 1] else Items([])
  }

  // ---------------------------------------------------------------------
  // Loading one page.

  function LoadFrom(pages: seq<Body>, faults: (int, nat) -> Attempt, p: int, attempt: nat): (r: Result<seq<RawItem>, LoadError>)
    requires 1 <= attempt <= MaxAttempts
    decreases MaxAttempts - attempt
  {
    match faults(p, attempt)
    case HttpError =>
      if attempt >= MaxAttempts then Err(HttpFailed(p)) else LoadFrom(pages, faults, p, attempt + 1)
    case TransportError => Err(TransportFailed(p))
    case Delivered =>
      match BodyOf(pages, p)
      case Items(items) => Ok(items)
      case NoItems => Err(ItemsMissing(p))
      case Malformed => Err(MalformedBody(p))
  }

  /** `_load_ba_page`, followed by the `data['items']` lookup of `bonappetit`. */
  function LoadPage(pages: seq<Body>, faults: (int, nat) -> Attempt, p: int): (r: Result<seq<RawItem>, LoadError>)
    ensures r.Ok? ==> BodyOf(pages, p) == Items(r.value)
    ensures r.Err? ==> r.error.page == p
  {
    LoadFromSound(pages, faults, p, 1);
    LoadFrom(pages, faults, p, 1)
  }

  lemma {:induction false} LoadFromSound(pages: seq<Body>, faults: (int, nat) -> Attempt, p: int, attempt: nat)
    requires 1 <= attempt <= MaxAttempts
    ensures LoadFrom(pages, faults, p, attempt).Ok? ==> BodyOf(pages, p) == Items(LoadFrom(pages, faults, p, attempt).value)
    ensures LoadFrom(pages, faults, p, attempt).Err? ==> LoadFrom(pages, faults, p, attempt).error.page == p
    decreases MaxAttempts - attempt
  {
    if faults(p, attempt) == HttpError && attempt < MaxAttempts {
      LoadFromSound(pages, faults, p, attempt + 1);
    }
  }

  /** The page is given up as an HTTP error exactly when all three attempts
      were HTTP errors. */
  lemma LoadPageGivesUpAfterThree(pages: seq<Body>, faults: (int, nat) -> Attempt, p: int)
    ensures LoadPage(pages, faults, p) == Err(HttpFailed(p)) <==>
      faults(p, 1) == HttpError && faults(p, 2) == HttpError && faults(p, 3) == HttpError
  {
  }

  /** A transport error is not retried: the first one ends the load. */
  lemma LoadPageTransportNotRetried(pages: seq<Body>, faults: (int, nat) -> Attempt, p: int, n: nat)
    requires 1 <= n <= MaxAttempts && faults(p, n) == TransportError
    requires forall k :: 1 <= k < n ==> faults(p, k) == HttpError
    ensures LoadPage(pages, faults, p) == Err(TransportFailed(p))
  {
    assert n == 1 || n == 2 || n == 3;
    if n >= 2 { assert faults(p, 1) == HttpError; }
    if n == 3 { assert faults(p, 2) == HttpError; }
  }

  /** A body that is not JSON fails the load even on the first delivery:
      decoding happens after the retried block. */
  lemma LoadPageMalformedNotRetried(pages: seq<Body>, faults: (int, nat) -> Attempt, p: int)
    requires faults(p, 1) == Delivered && BodyOf(pages, p) == Malformed
    ensures LoadPage(pages, faults, p) == Err(MalformedBody(p))
  {
  }

  /** A JSON body without an `items` list ends the load with an error
      naming the page, also on the first delivery: the lookup of
      `data['items']` comes after the retried block. */
  lemma LoadPageItemsMissingNotRetried(pages: seq<Body>, faults: (int, nat) -> Attempt, p: int)
    requires faults(p, 1) == Delivered && BodyOf(pages, p) == NoItems
    ensures LoadPage(pages, faults, p) == Err(ItemsMissing(p))
  {
  }

  /** No attempt after the third is ever made. */
  lemma LoadPageUsesThreeAttempts(pages: seq<Body>, f: (int, nat) -> Attempt, g: (int, nat) -> Attempt, p: int)
    requires forall n :: 1 <= n <= MaxAttempts ==> f(p, n) == g(p, n)
    ensures LoadPage(pages, f, p) == LoadPage(pages, g, p)
  {
    assert f(p, 1) == g(p, 1) && f(p, 2) == g(p, 2) && f(p, 3) == g(p, 3);
  }

  /** The retry loop of `_load_ba_page`. */
  method LoadPageWithRetry(pages: seq<Body>, faults: (int, nat) -> Attempt, p: int) returns (r: Result<seq<RawItem>, LoadError>)
    ensures r == LoadPage(pages, faults, p)
  {
    var attempt: nat := 1;
    while true
      invariant 1 <= attempt <= MaxAttempts
      invariant LoadFrom(pages, faults, p, attempt) == LoadPage(pages, faults, p)
      decreases MaxAttempts - attempt
    {
      var outcome := faults(p, attempt);
      if outcome == HttpError {
        if attempt >= MaxAttempts {
          return Err(HttpFailed(p));
        }
        attempt := attempt + 1;
      } else if outcome == TransportError {
        return Err(TransportFailed(p));
      } else {
        match BodyOf(pages, p)
        case Items(items) => return Ok(items);
        case NoItems => return Err(ItemsMissing(p));
        case Malformed => return Err(MalformedBody(p));
      }
    }
  }

  // ---------------------------------------------------------------------
  // One page of items.

  /** What the crawl has counted so far: items saved, newest and oldest
      publication date seen. */
  datatype Tally = Tally(saved: nat, latest: Option<int>, oldest: Option<int>)

  predicate Sponsored(row: RawItem) {
    Contains(row.url, "/sponsored/") || row.template == "sponsored"
  }

  /** A dated item published at or before the target date. */
  predicate AtOrBefore(row: RawItem, fromDate: Option<int>) {
    row.pubDate.Some? && fromDate.Some? && row.pubDate.value <= fromDate.value
  }

  /** The items that are saved: not sponsored and not at or before the target date. */
  predicate Wanted(row: RawItem, fromDate: Option<int>) {
    !Sponsored(row) && !AtOrBefore(row, fromDate)
  }

  /** The newest and oldest dates updated with the publication date of a
      non-sponsored item. */
  function Observe(t: Tally, d: Option<int>): (r: Tally)
    ensures r.saved == t.saved
    ensures d.None? ==> r == t
    ensures d.Some? ==> r.latest.Some? && r.oldest.Some?
    ensures d.Some? ==> d.value <= r.latest.value && r.oldest.value <= d.value
    ensures d.Some? && t.latest.Some? ==> t.latest.value <= r.latest.value
    ensures d.Some? && t.oldest.Some? ==> r.oldest.value <= t.oldest.value
    ensures r.latest == t.latest || r.latest == d
    ensures r.oldest == t.oldest || r.oldest == d
  {
    match d
    case None => t
    case Some(v) =>
      Tally(t.saved,
            Some(if t.latest.Some? then Max(t.latest.value, v) else v),
            Some(if t.oldest.Some? then Min(t.oldest.value, v) else v))
  }

  /** A parser for one item; the crawl uses `ParseRecipe`. */
  type Parser = RawItem -> Result<Entry, ParseError>

  /** The entries the items of one page write, and the tally after them. */
  function PlanItems(parse: Parser, items: seq<RawItem>, fromDate: Option<int>, t: Tally): Result<(seq<Entry>, Tally), ParseError>
    decreases |items|
  {
    if items == [] then Ok(([], t))
    else
      var row := items[0];
      if Sponsored(row) then PlanItems(parse, items[1..], fromDate, t)
      else
        var t1 := Observe(t, row.pubDate);
        if AtOrBefore(row, fromDate) then PlanItems(parse, items[1..], fromDate, t1)
        else
          var e :- parse(row);
          var rest :- PlanItems(parse, items[1..], fromDate, t1.(saved := t1.saved + 1));
          Ok(([e] + rest.0, rest.1))
  }

  function NotSponsored(row: RawItem): bool { !Sponsored(row) }

  /** Sponsored items are skipped without a trace. */
  lemma {:induction false} PlanItemsIgnoresSponsored(parse: Parser, items: seq<RawItem>, fromDate: Option<int>, t: Tally)
    ensures PlanItems(parse, items, fromDate, t) == PlanItems(parse, Seqs.Filter(items, NotSponsored), fromDate, t)
    decreases |items|
  {
    if items != [] {
      var row := items[0];
      var t1 := Observe(t, row.pubDate);
      if Sponsored(row) {
        PlanItemsIgnoresSponsored(parse, items[1..], fromDate, t);
      } else {
        var f := Seqs.Filter(items, NotSponsored);
        assert f == [row] + Seqs.Filter(items[1..], NotSponsored);
        assert f[0] == row && f[1..] == Seqs.Filter(items[1..], NotSponsored);
        if AtOrBefore(row, fromDate) {
          PlanItemsIgnoresSponsored(parse, items[1..], fromDate, t1);
        } else {
          PlanItemsIgnoresSponsored(parse, items[1..], fromDate, t1.(saved := t1.saved + 1));
        }
      }
    }
  }

  function WantedOf(items: seq<RawItem>, fromDate: Option<int>): seq<RawItem> {
    Seqs.Filter(items, (row: RawItem) => Wanted(row, fromDate))
  }

  lemma WantedOfCons(items: seq<RawItem>, fromDate: Option<int>)
    requires items != []
    ensures WantedOf(items, fromDate) == (if Wanted(items[0], fromDate) then [items[0]] else []) + WantedOf(items[1..], fromDate)
  {
  }

  /** Every row of `rows` parses. */
  predicate AllParse(parse: Parser, rows: seq<RawItem>) {
    forall i :: 0 <= i < |rows| ==> parse(rows[i]).Ok?
  }

  lemma AllParseCons(parse: Parser, x: RawItem, ys: seq<RawItem>)
    ensures AllParse(parse, [x] + ys) <==> parse(x).Ok? && AllParse(parse, ys)
  {
    var s := [x] + ys;
    assert s[0] == x;
    assert forall j :: 0 <= j < |ys| ==> s[j + 1] == ys[j];
    if parse(x).Ok? && AllParse(parse, ys) {
      forall i | 0 <= i < |s| ensures parse(s[i]).Ok? {
        if i > 0 { assert s[i] == ys[i - 1]; }
      }
    }
  }

  /** A page plans successfully exactly when every wanted item parses. */
  lemma {:induction false} PlanItemsSucceeds(parse: Parser, items: seq<RawItem>, fromDate: Option<int>, t: Tally)
    ensures PlanItems(parse, items, fromDate, t).Ok? <==>
      forall i :: 0 <= i < |WantedOf(items, fromDate)| ==> parse(WantedOf(items, fromDate)[i]).Ok?
    decreases |items|
  {
    if items != [] {
      var row := items[0];
      var t1 := Observe(t, row.pubDate);
      WantedOfCons(items, fromDate);
      var wanted := WantedOf(items, fromDate);
      var rest := WantedOf(items[1..], fromDate);
      if Sponsored(row) {
        PlanItemsSucceeds(parse, items[1..], fromDate, t);
      } else if AtOrBefore(row, fromDate) {
        PlanItemsSucceeds(parse, items[1..], fromDate, t1);
      } else {
        var t2 := t1.(saved := t1.saved + 1);
        PlanItemsSucceeds(parse, items[1..], fromDate, t2);
        assert PlanItems(parse, items, fromDate, t).Ok? <==> parse(row).Ok? && PlanItems(parse, items[1..], fromDate, t2).Ok?;
        assert wanted == [row] + rest;
        AllParseCons(parse, row, rest);
      }
    }
  }

  /** A page that plans successfully writes the parsed wanted items, in
      order, and counts them. */
  lemma {:induction false} PlanItemsWritesWanted(parse: Parser, items: seq<RawItem>, fromDate: Option<int>, t: Tally)
    requires PlanItems(parse, items, fromDate, t).Ok?
    ensures var wanted := WantedOf(items, fromDate);
      var es := PlanItems(parse, items, fromDate, t).value.0;
      && |es| == |wanted|
      && (forall i :: 0 <= i < |es| ==> Ok(es[i]) == parse(wanted[i]))
      && PlanItems(parse, items, fromDate, t).value.1.saved == t.saved + |wanted|
    decreases |items|
  {
    if items != [] {
      var row := items[0];
      var t1 := Observe(t, row.pubDate);
      var t2 := t1.(saved := t1.saved + 1);
      WantedOfCons(items, fromDate);
      var wanted := WantedOf(items, fromDate);
      var rest := WantedOf(items[1..], fromDate);
      if Sponsored(row) {
        PlanItemsWritesWanted(parse, items[1..], fromDate, t);
      } else if AtOrBefore(row, fromDate) {
        PlanItemsWritesWanted(parse, items[1..], fromDate, t1);
      } else {
        PlanItemsWritesWanted(parse, items[1..], fromDate, t2);
        assert wanted == [row] + rest;
        assert forall i :: 1 <= i < |wanted| ==> wanted[i] == rest[i - 1];
        var es := PlanItems(parse, items, fromDate, t).value.0;
        var es1 := PlanItems(parse, items[1..], fromDate, t2).value.0;
        assert es == [parse(row).value] + es1;
        assert forall i :: 1 <= i < |es| ==> es[i] == es1[i - 1];
      }
    }
  }

  /** The tally's newest date bounds every dated non-sponsored item of the
      page and is one of them unless it was already the newest; the oldest
      date likewise from below. */
  lemma {:induction false} PlanItemsTracksDates(parse: Parser, items: seq<RawItem>, fromDate: Option<int>, t: Tally)
    requires PlanItems(parse, items, fromDate, t).Ok?
    ensures var t2 := PlanItems(parse, items, fromDate, t).value.1;
      && (forall i :: 0 <= i < |items| && !Sponsored(items[i]) && items[i].pubDate.Some? ==>
            t2.latest.Some? && items[i].pubDate.value <= t2.latest.value &&
            t2.oldest.Some? && t2.oldest.value <= items[i].pubDate.value)
      && (t.latest.Some? ==> t2.latest.Some? && t.latest.value <= t2.latest.value)
      && (t.oldest.Some? ==> t2.oldest.Some? && t2.oldest.value <= t.oldest.value)
      && (t2.latest == t.latest || exists i :: 0 <= i < |items| && !Sponsored(items[i]) && t2.latest == items[i].pubDate)
      && (t2.oldest == t.oldest || exists i :: 0 <= i < |items| && !Sponsored(items[i]) && t2.oldest == items[i].pubDate)
    decreases |items|
  {
    if items != [] {
      var row := items[0];
      var t1 := Observe(t, row.pubDate);
      var next := if Sponsored(row) then t else if AtOrBefore(row, fromDate) then t1 else t1.(saved := t1.saved + 1);
      assert PlanItems(parse, items, fromDate, t).value.1 == PlanItems(parse, items[1..], fromDate, next).value.1;
      PlanItemsTracksDates(parse, items[1..], fromDate, next);
      assert forall i :: 1 <= i < |items| ==> items[i] == items[1..][i - 1];
    }
  }

  // ---------------------------------------------------------------------
  // The crawl.

  /** The crawl stops after a page once the oldest date seen is at or
      before the target date. */
  predicate ReachedTarget(fromDate: Option<int>, t: Tally) {
    fromDate.Some? && t.oldest.Some? && t.oldest.value <= fromDate.value
  }

  /** The entries written, in order, and how the crawl ended. */
  datatype CrawlRun = CrawlRun(written: seq<Entry>, result: Result<Tally, CrawlError>)

  function PagesLeft(pages: seq<Body>, p: int): nat {
    if 1 <= p <= |pages| then |pages| + 1 - p else 0
  }

  function Crawl(parse: Parser, pages: seq<Body>, faults: (int, nat) -> Attempt, fromDate: Option<int>, p: int, t: Tally): CrawlRun
    decreases PagesLeft(pages, p)
  {
    match LoadPage(pages, faults, p)
    case Err(e) => CrawlRun([], Err(LoadFailed(e)))
    case Ok(items) =>
      if items == [] then CrawlRun([], Ok(t))
      else
        match PlanItems(parse, items, fromDate, t)
        case Err(e) => CrawlRun([], Err(ParseFailed(p, e)))
        case Ok(plan) =>
          if ReachedTarget(fromDate, plan.1) then CrawlRun(plan.0, Ok(plan.1))
          else
            var rest := Crawl(parse, pages, faults, fromDate, p + 1, plan.1);
            CrawlRun(plan.0 + rest.written, rest.result)
  }

  /** `bonappetit(from_date, from_page)` run against `store`: the store
      afterwards, and the number of saved items and newest date seen. */
  function Bonappetit(store: Store, pages: seq<Body>, faults: (int, nat) -> Attempt, fromDate: Option<int>, fromPage: int): (Store, Result<(nat, Option<int>), CrawlError>)
  {
    var run := Crawl(ParseRecipe, pages, faults, fromDate, fromPage, Tally(0, None, None));
    (UpsertAll(store, run.written), Outcome(run.result))
  }

  /** The saved count is the number of entries written. */
  lemma {:induction false} CrawlCountsWrites(parse: Parser, pages: seq<Body>, faults: (int, nat) -> Attempt, fromDate: Option<int>, p: int, t: Tally)
    ensures var run := Crawl(parse, pages, faults, fromDate, p, t);
      run.result.Ok? ==> run.result.value.saved == t.saved + |run.written|
    decreases PagesLeft(pages, p)
  {
    var load := LoadPage(pages, faults, p);
    if load.Ok? && load.value != [] {
      var items := load.value;
      var plan := PlanItems(parse, items, fromDate, t);
      if plan.Ok? {
        PlanItemsWritesWanted(parse, items, fromDate, t);
        if !ReachedTarget(fromDate, plan.value.1) {
          CrawlCountsWrites(parse, pages, faults, fromDate, p + 1, plan.value.1);
        }
      }
    }
  }

  /** The items of each page the crawl plans, from page `p` on, in order. */
  function PagesRead(parse: Parser, pages: seq<Body>, faults: (int, nat) -> Attempt, fromDate: Option<int>, p: int, t: Tally): (r: seq<seq<RawItem>>)
    ensures forall k :: 0 <= k < |r| ==> LoadPage(pages, faults, p + k) == Ok(r[k])
    decreases PagesLeft(pages, p)
  {
    match LoadPage(pages, faults, p)
    case Err(_) => []
    case Ok(items) =>
      if items == [] then []
      else
        match PlanItems(parse, items, fromDate, t)
        case Err(_) => [items]
        case Ok(plan) =>
          if ReachedTarget(fromDate, plan.1) then [items]
          else
            var rest := PagesRead(parse, pages, faults, fromDate, p + 1, plan.1);
            assert forall k :: 1 <= k < |rest| + 1 ==> ([items] + rest)[k] == rest[k - 1];
            [items] + rest
  }

  /** A dated, non-sponsored item on one of the pages read. */
  predicate DatedItemAt(read: seq<seq<RawItem>>, k: int, i: int) {
    0 <= k < |read| && 0 <= i < |read[k]| && !Sponsored(read[k][i]) && read[k][i].pubDate.Some?
  }

  /** `latest` is a date no earlier than that of any dated item read. */
  ghost predicate BoundsDated(read: seq<seq<RawItem>>, latest: Option<int>) {
    forall k, i :: DatedItemAt(read, k, i) ==> latest.Some? && read[k][i].pubDate.value <= latest.value
  }

  /** `latest` is `start` or the date of a dated item read. */
  ghost predicate LatestFrom(read: seq<seq<RawItem>>, latest: Option<int>, start: Option<int>) {
    latest == start || exists k, i :: DatedItemAt(read, k, i) && latest == read[k][i].pubDate
  }

  predicate NotBelow(start: Option<int>, latest: Option<int>) {
    start.Some? ==> latest.Some? && start.value <= latest.value
  }

  /** The page-level facts about the newest date, for the one page read. */
  lemma PageTracksLatest(parse: Parser, items: seq<RawItem>, fromDate: Option<int>, t: Tally)
    requires PlanItems(parse, items, fromDate, t).Ok?
    ensures var t2 := PlanItems(parse, items, fromDate, t).value.1;
      BoundsDated([items], t2.latest) && NotBelow(t.latest, t2.latest) && LatestFrom([items], t2.latest, t.latest)
  {
    PlanItemsTracksDates(parse, items, fromDate, t);
    var t2 := PlanItems(parse, items, fromDate, t).value.1;
    var read := [items];
    forall k, i | DatedItemAt(read, k, i) ensures t2.latest.Some? && read[k][i].pubDate.value <= t2.latest.value {
      assert k == 0 && read[k][i] == items[i];
    }
    if t2.latest != t.latest {
      var i :| 0 <= i < |items| && !Sponsored(items[i]) && t2.latest == items[i].pubDate;
      assert read[0][i] == items[i];
      assert DatedItemAt(read, 0, i);
    }
  }

  /** The facts for one page followed by the facts for the rest. */
  lemma TracksLatestCons(items: seq<RawItem>, rest: seq<seq<RawItem>>, start: Option<int>, mid: Option<int>, latest: Option<int>)
    requires BoundsDated([items], mid) && NotBelow(start, mid) && LatestFrom([items], mid, start)
    requires BoundsDated(rest, latest) && NotBelow(mid, latest) && LatestFrom(rest, latest, mid)
    ensures BoundsDated([items] + rest, latest) && NotBelow(start, latest) && LatestFrom([items] + rest, latest, start)
  {
    var read := [items] + rest;
    forall k, i | DatedItemAt(read, k, i) ensures latest.Some? && read[k][i].pubDate.value <= latest.value {
      if k == 0 {
        assert read[0] == [items][0];
        assert DatedItemAt([items], 0, i);
      } else {
        assert read[k] == rest[k - 1];
        assert DatedItemAt(rest, k - 1, i);
      }
    }
    if latest != start {
      if latest == mid {
        var k, i :| DatedItemAt([items], k, i) && mid == [items][k][i].pubDate;
        assert read[k] == [items][k];
        assert DatedItemAt(read, k, i);
      } else {
        var k, i :| DatedItemAt(rest, k, i) && latest == rest[k][i].pubDate;
        assert read[k + 1] == rest[k];
        assert DatedItemAt(read, k + 1, i);
      }
    }
  }

  /** The newest date a crawl reports bounds the date of every dated
      non-sponsored item on the pages it read, never falls below the newest
      date it started with, and is either that date or one of the items'. */
  lemma {:induction false} CrawlTracksLatest(parse: Parser, pages: seq<Body>, faults: (int, nat) -> Attempt, fromDate: Option<int>, p: int, t: Tally)
    ensures var run := Crawl(parse, pages, faults, fromDate, p, t);
      var read := PagesRead(parse, pages, faults, fromDate, p, t);
      run.result.Ok? ==>
        BoundsDated(read, run.result.value.latest) && NotBelow(t.latest, run.result.value.latest)
        && LatestFrom(read, run.result.value.latest, t.latest)
    decreases PagesLeft(pages, p)
  {
    var load := LoadPage(pages, faults, p);
    if load.Ok? && load.value != [] {
      var items := load.value;
      var plan := PlanItems(parse, items, fromDate, t);
      if plan.Ok? {
        var t2 := plan.value.1;
        PageTracksLatest(parse, items, fromDate, t);
        if !ReachedTarget(fromDate, t2) {
          CrawlTracksLatest(parse, pages, faults, fromDate, p + 1, t2);
          var run := Crawl(parse, pages, faults, fromDate, p + 1, t2);
          if run.result.Ok? {
            TracksLatestCons(items, PagesRead(parse, pages, faults, fromDate, p + 1, t2), t.latest, t2.latest, run.result.value.latest);
          }
        }
      }
    }
  }

  /** `bonappetit` reports as newest date the latest publication date of
      the dated non-sponsored items on the pages it read, and no date when
      there were none. */
  lemma BonappetitReportsLatest(store: Store, pages: seq<Body>, faults: (int, nat) -> Attempt, fromDate: Option<int>, fromPage: int)
    ensures var r := Bonappetit(store, pages, faults, fromDate, fromPage).1;
      var read := PagesRead(ParseRecipe, pages, faults, fromDate, fromPage, Tally(0, None, None));
      r.Ok? ==>
        && (forall k, i :: DatedItemAt(read, k, i) ==> r.value.1.Some? && read[k][i].pubDate.value <= r.value.1.value)
        && (r.value.1.None? || exists k, i :: DatedItemAt(read, k, i) && r.value.1 == read[k][i].pubDate)
  {
    CrawlTracksLatest(ParseRecipe, pages, faults, fromDate, fromPage, Tally(0, None, None));
  }

  predicate NewerThan(e: Entry, fromDate: Option<int>) {
    e.recipe.pubDate.None? || fromDate.None? || fromDate.value < e.recipe.pubDate.value
  }

  /** The parser gives each recipe the item's own publication date. */
  ghost predicate KeepsDate(parse: Parser) {
    forall row :: parse(row).Ok? ==> parse(row).value.recipe.pubDate == row.pubDate
  }

  lemma ParseRecipeKeepsDate()
    ensures KeepsDate(ParseRecipe)
  {
  }

  lemma PlanItemsWritesNew(parse: Parser, items: seq<RawItem>, fromDate: Option<int>, t: Tally)
    requires KeepsDate(parse)
    requires PlanItems(parse, items, fromDate, t).Ok?
    ensures AllNewer(PlanItems(parse, items, fromDate, t).value.0, fromDate)
  {
    PlanItemsWritesWanted(parse, items, fromDate, t);
    var wanted := WantedOf(items, fromDate);
    Seqs.FilterMembership(items, (row: RawItem) => Wanted(row, fromDate));
    var es := PlanItems(parse, items, fromDate, t).value.0;
    forall i | 0 <= i < |es| ensures NewerThan(es[i], fromDate) {
      assert Wanted(wanted[i], fromDate);
      assert Ok(es[i]) == parse(wanted[i]);
    }
  }

  predicate AllNewer(es: seq<Entry>, fromDate: Option<int>) {
    forall i :: 0 <= i < |es| ==> NewerThan(es[i], fromDate)
  }

  /** Nothing published at or before the target date is ever written. */
  lemma {:induction false} CrawlWritesOnlyNew(parse: Parser, pages: seq<Body>, faults: (int, nat) -> Attempt, fromDate: Option<int>, p: int, t: Tally)
    requires KeepsDate(parse)
    ensures AllNewer(Crawl(parse, pages, faults, fromDate, p, t).written, fromDate)
    decreases PagesLeft(pages, p)
  {
    var load := LoadPage(pages, faults, p);
    if load.Ok? && load.value != [] {
      var plan := PlanItems(parse, load.value, fromDate, t);
      if plan.Ok? {
        PlanItemsWritesNew(parse, load.value, fromDate, t);
        if !ReachedTarget(fromDate, plan.value.1) {
          CrawlWritesOnlyNew(parse, pages, faults, fromDate, p + 1, plan.value.1);
          var rest := Crawl(parse, pages, faults, fromDate, p + 1, plan.value.1).written;
          var w := plan.value.0 + rest;
          assert Crawl(parse, pages, faults, fromDate, p, t).written == w;
          forall i | 0 <= i < |w| ensures NewerThan(w[i], fromDate) {
            if i < |plan.value.0| {
              assert w[i] == plan.value.0[i];
            } else {
              assert w[i] == rest[i - |plan.value.0|];
            }
          }
        }
      }
    }
  }

  /** The crawl reads no page after the one that reached the target date:
      changing the later pages changes nothing. */
  lemma CrawlStopsAtTarget(parse: Parser, pages: seq<Body>, other: seq<Body>, faults: (int, nat) -> Attempt, fromDate: Option<int>, p: int, t: Tally)
    requires BodyOf(pages, p) == BodyOf(other, p)
    requires LoadPage(pages, faults, p).Ok?
    requires PlanItems(parse, LoadPage(pages, faults, p).value, fromDate, t).Ok?
    requires ReachedTarget(fromDate, PlanItems(parse, LoadPage(pages, faults, p).value, fromDate, t).value.1)
    ensures Crawl(parse, pages, faults, fromDate, p, t) == Crawl(parse, other, faults, fromDate, p, t)
  {
    LoadFromSame(pages, other, faults, p, 1);
  }

  lemma {:induction false} LoadFromSame(pages: seq<Body>, other: seq<Body>, faults: (int, nat) -> Attempt, p: int, attempt: nat)
    requires 1 <= attempt <= MaxAttempts
    requires BodyOf(pages, p) == BodyOf(other, p)
    ensures LoadFrom(pages, faults, p, attempt) == LoadFrom(other, faults, p, attempt)
    decreases MaxAttempts - attempt
  {
    if attempt < MaxAttempts {
      LoadFromSame(pages, other, faults, p, attempt + 1);
    }
  }

  /** Running the crawl again over the same pages leaves the store as the
      first run left it. */
  lemma BonappetitIdempotent(store: Store, pages: seq<Body>, faults: (int, nat) -> Attempt, fromDate: Option<int>, fromPage: int)
    ensures Bonappetit(Bonappetit(store, pages, faults, fromDate, fromPage).0, pages, faults, fromDate, fromPage).0
         == Bonappetit(store, pages, faults, fromDate, fromPage).0
  {
    var run := Crawl(ParseRecipe, pages, faults, fromDate, fromPage, Tally(0, None, None));
    UpsertAllIdempotent(store, run.written);
  }

  // ---------------------------------------------------------------------
  // The crawl as the source runs it: a page loop, and an item loop that
  // writes as it goes inside a transaction rolled back on a parse error.

  function Prepend(es: seq<Entry>, r: Result<(seq<Entry>, Tally), ParseError>): Result<(seq<Entry>, Tally), ParseError> {
    match r
    case Ok(plan) => Ok((es + plan.0, plan.1))
    case Err(e) => Err(e)
  }

  lemma PrependPrepend(a: seq<Entry>, b: seq<Entry>, r: Result<(seq<Entry>, Tally), ParseError>)
    ensures Prepend(a, Prepend(b, r)) == Prepend(a + b, r)
  {
    if r.Ok? {
      assert a + (b + r.value.0) == (a + b) + r.value.0;
    }
  }

  /** What one item contributes: the entries it writes and the tally after it. */
  function ItemPlan(parse: Parser, row: RawItem, fromDate: Option<int>, t: Tally): Result<(seq<Entry>, Tally), ParseError> {
    if Sponsored(row) then Ok(([], t))
    else
      var t1 := Observe(t, row.pubDate);
      if AtOrBefore(row, fromDate) then Ok(([], t1))
      else
        var e :- parse(row);
        Ok(([e], t1.(saved := t1.saved + 1)))
  }

  /** `PlanItems` is the first item's plan followed by the plan of the rest. */
  lemma PlanItemsCons(parse: Parser, items: seq<RawItem>, fromDate: Option<int>, t: Tally)
    requires items != []
    ensures var step := ItemPlan(parse, items[0], fromDate, t);
      && (step.Err? ==> PlanItems(parse, items, fromDate, t) == Err(step.error))
      && (step.Ok? ==> PlanItems(parse, items, fromDate, t) == Prepend(step.value.0, PlanItems(parse, items[1..], fromDate, step.value.1)))
  {
    var step := ItemPlan(parse, items[0], fromDate, t);
    if step.Ok? && step.value.0 == [] {
      var rest := PlanItems(parse, items[1..], fromDate, step.value.1);
      if rest.Ok? { assert [] + rest.value.0 == rest.value.0; }
    }
  }

  /** The loop body for one item: skip it, count it, or parse and save it. */
  method VisitItem(parse: Parser, st: Store, row: RawItem, fromDate: Option<int>, t: Tally)
    returns (st2: Store, t2: Tally, failed: Option<ParseError>, ghost w: seq<Entry>)
    ensures ItemPlan(parse, row, fromDate, t).Err? <==> failed.Some?
    ensures failed.Some? ==> failed.value == ItemPlan(parse, row, fromDate, t).error
    ensures failed.None? ==> ItemPlan(parse, row, fromDate, t) == Ok((w, t2)) && st2 == UpsertAll(st, w)
  {
    st2, t2, failed, w := st, t, None, [];
    if !Sponsored(row) {
      t2 := Observe(t2, row.pubDate);
      if !AtOrBefore(row, fromDate) {
        t2 := t2.(saved := t2.saved + 1);
        var parsed := parse(row);
        if parsed.Err? {
          return st, t2, Some(parsed.error), w;
        }
        var e := parsed.value;
        w := [e];
        assert UpsertAll(st, w) == Upsert(UpsertAll(st, []), e);
        st2 := Upsert(st, e);
      }
    }
  }

  /** The item loop of one page inside `transaction.atomic()`: on a parse
      error the page's writes are rolled back. */
  method ProcessPage(parse: Parser, store: Store, items: seq<RawItem>, fromDate: Option<int>, t0: Tally)
    returns (st: Store, r: Result<Tally, ParseError>)
    ensures PlanItems(parse, items, fromDate, t0).Err? ==> st == store && r == Err(PlanItems(parse, items, fromDate, t0).error)
    ensures PlanItems(parse, items, fromDate, t0).Ok? ==>
      r == Ok(PlanItems(parse, items, fromDate, t0).value.1) && st == UpsertAll(store, PlanItems(parse, items, fromDate, t0).value.0)
  {
    st := store;
    var t := t0;
    ghost var done: seq<Entry> := [];
    ghost var whole := PlanItems(parse, items, fromDate, t0);
    var k := 0;
    assert items[0..] == items;
    assert whole == Prepend([], whole) by {
      if whole.Ok? { assert [] + whole.value.0 == whole.value.0; }
    }
    while k < |items|
      invariant 0 <= k <= |items|
      invariant st == UpsertAll(store, done)
      invariant whole == Prepend(done, PlanItems(parse, items[k..], fromDate, t))
      decreases |items| - k
    {
      assert items[k..][0] == items[k] && items[k..][1..] == items[k + 1..];
      PlanItemsCons(parse, items[k..], fromDate, t);
      var st2, t2, failed, w := VisitItem(parse, st, items[k], fromDate, t);
      if failed.Some? {
        return store, Err(failed.value);
      }
      PrependPrepend(done, w, PlanItems(parse, items[k + 1..], fromDate, t2));
      UpsertAllAppend(store, done, w);
      st, t, done, k := st2, t2, done + w, k + 1;
    }
    assert items[k..] == [];
    assert done + [] == done;
    return st, Ok(t);
  }

  /** How the crawl's outcome is reported. */
  function Outcome(r: Result<Tally, CrawlError>): Result<(nat, Option<int>), CrawlError> {
    match r
    case Ok(t) => Ok((t.saved, t.latest))
    case Err(e) => Err(e)
  }

  /** One page of the crawl that neither fails nor stops it. */
  lemma CrawlStep(parse: Parser, pages: seq<Body>, faults: (int, nat) -> Attempt, fromDate: Option<int>, p: int, t: Tally, items: seq<RawItem>)
    requires LoadPage(pages, faults, p) == Ok(items) && items != []
    requires PlanItems(parse, items, fromDate, t).Ok?
    requires !ReachedTarget(fromDate, PlanItems(parse, items, fromDate, t).value.1)
    ensures 1 <= p <= |pages|
    ensures var plan := PlanItems(parse, items, fromDate, t).value;
      var rest := Crawl(parse, pages, faults, fromDate, p + 1, plan.1);
      Crawl(parse, pages, faults, fromDate, p, t) == CrawlRun(plan.0 + rest.written, rest.result)
  {
  }

  /** One iteration of the page loop: load page `p`, write its items, and
      say whether the crawl stops here. When it goes on, `w` is what the page
      wrote and the rest of the run starts at the next page. */
  method VisitPage(parse: Parser, st: Store, pages: seq<Body>, faults: (int, nat) -> Attempt, fromDate: Option<int>, p: int, t: Tally)
    returns (st2: Store, t2: Tally, stop: bool, r: Result<(nat, Option<int>), CrawlError>, ghost w: seq<Entry>)
    ensures var run := Crawl(parse, pages, faults, fromDate, p, t);
      stop ==> st2 == UpsertAll(st, run.written) && r == Outcome(run.result)
    ensures var run := Crawl(parse, pages, faults, fromDate, p, t);
      !stop ==> (1 <= p <= |pages| && st2 == UpsertAll(st, w) &&
                 run == CrawlRun(w + Crawl(parse, pages, faults, fromDate, p + 1, t2).written,
                                 Crawl(parse, pages, faults, fromDate, p + 1, t2).result))
  {
    w := [];
    t2 := t;
    var load := LoadPageWithRetry(pages, faults, p);
    if load.Err? {
      return st, t, true, Err(LoadFailed(load.error)), w;
    }
    var items := load.value;
    if items == [] {
      return st, t, true, Ok((t.saved, t.latest)), w;
    }
    var pageStore, pageResult := ProcessPage(parse, st, items, fromDate, t);
    if pageResult.Err? {
      return st, t, true, Err(ParseFailed(p, pageResult.error)), w;
    }
    w := PlanItems(parse, items, fromDate, t).value.0;
    t2 := pageResult.value;
    if ReachedTarget(fromDate, t2) {
      return pageStore, t2, true, Ok((t2.saved, t2.latest)), w;
    }
    CrawlStep(parse, pages, faults, fromDate, p, t, items);
    r := Ok((t2.saved, t2.latest));
    return pageStore, t2, false, r, w;
  }

  /** The page loop of `bonappetit`, for any item parser. */
  method RunCrawl(parse: Parser, store: Store, pages: seq<Body>, faults: (int, nat) -> Attempt, fromDate: Option<int>, fromPage: int)
    returns (st: Store, r: Result<(nat, Option<int>), CrawlError>)
    ensures var run := Crawl(parse, pages, faults, fromDate, fromPage, Tally(0, None, None));
      st == UpsertAll(store, run.written) && r == Outcome(run.result)
  {
    st := store;
    var t := Tally(0, None, None);
    var p := fromPage;
    ghost var done: seq<Entry> := [];
    ghost var whole := Crawl(parse, pages, faults, fromDate, fromPage, t);
    assert [] + whole.written == whole.written;
    while true
      invariant st == UpsertAll(store, done)
      invariant whole.written == done + Crawl(parse, pages, faults, fromDate, p, t).written
      invariant whole.result == Crawl(parse, pages, faults, fromDate, p, t).result
      decreases PagesLeft(pages, p)
    {
      var st2, t2, stop, r2, w := VisitPage(parse, st, pages, faults, fromDate, p, t);
      UpsertAllAppend(store, done, if stop then Crawl(parse, pages, faults, fromDate, p, t).written else w);
      if stop {
        return st2, r2;
      }
      Seqs.AppendAssoc(done, w, Crawl(parse, pages, faults, fromDate, p + 1, t2).written);
      st, t, p, done := st2, t2, p + 1, done + w;
    }
  }

  /** `bonappetit` as the source runs it. */
  method RunBonappetit(store: Store, pages: seq<Body>, faults: (int, nat) -> Attempt, fromDate: Option<int>, fromPage: int)
    returns (st: Store, r: Result<(nat, Option<int>), CrawlError>)
    ensures (st, r) == Bonappetit(store, pages, faults, fromDate, fromPage)
  {
    st, r := RunCrawl(ParseRecipe, store, pages, faults, fromDate, fromPage);
  }
}

=== FILE: scrapers_parse.dfy ===
/** One search-result item of the Bon Appétit API turned into a recipe, its
    tags and its authors (recipes/scrapers.py `_parse_ba_recipe`). */
module BaParse {
  import opened Wrappers
  import opened Strings
  import opened CleanText
  import opened RecipeModels
  import Seqs

  const ApiBaseUrl := "https://www.bonappetit.com"
  const AssetsBaseUrl := "https://assets.bonappetit.com"

  // ---------------------------------------------------------------------
  // The item as the API returns it. Keys read with `.get(k, 0)` are
  // Options; `photos` is None when it is null or empty, otherwise its
  // `tout` list; `contributors` is None when it is null or empty, with a missing or null `author`
  // or `chef` list as the empty list. `pubDate` is the date the date
  // parser made of the field, None when it could not read one.

  datatype RawIngredientGroup = RawIngredientGroup(hed: string, ingredients: seq<string>)

  datatype Photo = Photo(id: string, filename: string)

  /** The `name` of each contributor row. */
  datatype Contributors = Contributors(author: seq<string>, chef: seq<string>)

  datatype RawItem = RawItem(
    id: string,
    url: string,
    template: string,
    pubDate: Option<int>,
    hed: string,
    socialTitle: string,
    dek: string,
    socialDescription: string,
    aggregateRating: real,
    reviewsCount: Option<int>,
    willMakeAgainPct: Option<int>,
    photos: Option<seq<Photo>>,
    ingredientGroups: seq<RawIngredientGroup>,
    cneTags: seq<string>,
    contributors: Option<Contributors>)

  datatype ParseError =
    | CleanFailed(cause: CleanError)
    | NoToutPhoto   // `photos['tout'][0]` on an empty list

  function Cleaned(s: string): (r: Result<string, ParseError>)
    ensures r.Ok? <==> Clean(s).Ok?
    ensures r.Ok? ==> r.value == Clean(s).value
  {
    match Clean(s)
    case Ok(t) => Ok(t)
    case Err(e) => Err(CleanFailed(e))
  }

  // ---------------------------------------------------------------------
  // Ingredient groups.

  /** `f` applied to each item, stopping at the first error. */
  function MapAll<E>(xs: seq<string>, f: string -> Result<string, E>): (r: Result<seq<string>, E>)
    ensures r.Ok? <==> forall i :: 0 <= i < |xs| ==> f(xs[i]).Ok?
    ensures r.Ok? ==> |r.value| == |xs| && forall i :: 0 <= i < |xs| ==> r.value[i] == f(xs[i]).value
    decreases |xs|
  {
    if xs == [] then Ok([])
    else
      var rest := MapAll(xs[1..], f);
      assert forall i :: 1 <= i < |xs| ==> xs[i] == xs[1..][i - 1];
      match f(xs[0])
      case Err(e) => Err(e)
      case Ok(c) =>
        if rest.Ok? then Ok([c] + rest.value) else Err(rest.error)
  }

  function CleanAll(xs: seq<string>): (r: Result<seq<string>, ParseError>)
    ensures r.Ok? <==> forall i :: 0 <= i < |xs| ==> Clean(xs[i]).Ok?
    ensures r.Ok? ==> |r.value| == |xs| && forall i :: 0 <= i < |xs| ==> r.value[i] == Clean(xs[i]).value
  {
    MapAll(xs, Cleaned)
  }

  /** `s.rstrip('.')`. */
  function RStripDots(s: string): (r: string)
    ensures |r| <= |s| && r == s[..|r|]
    ensures r == [] || r[|r| - 1] != '.'
    ensures forall i :: |r| <= i < |s| ==> s[i] == '.'
    decreases |s|
  {
    if s != [] && s[|s| - 1] == '.' then RStripDots(s[..|s| - 1]) else s
  }

  /** Every text of the group cleans without error. */
  predicate GroupCleanable(g: RawIngredientGroup) {
    Clean(g.hed).Ok? && forall j :: 0 <= j < |g.ingredients| ==> Clean(g.ingredients[j]).Ok?
  }

  predicate GroupsCleanable(groups: seq<RawIngredientGroup>) {
    forall i :: 0 <= i < |groups| ==> GroupCleanable(groups[i])
  }

  function ParseGroup(g: RawIngredientGroup): (r: Result<IngredientGroup, ParseError>)
    ensures r.Ok? <==> GroupCleanable(g)
    ensures r.Ok? ==> Clean(g.hed).Ok? && r.value.title == RStripDots(Clean(g.hed).value)
    ensures r.Ok? ==> |r.value.ingredients| == |g.ingredients|
    ensures r.Ok? ==> forall j :: 0 <= j < |g.ingredients| ==> r.value.ingredients[j] == Clean(g.ingredients[j]).value
  {
    var title :- Cleaned(g.hed);
    var ingredients :- CleanAll(g.ingredients);
    Ok(IngredientGroup(RStripDots(title), ingredients))
  }

  function ParseGroups(groups: seq<RawIngredientGroup>): (r: Result<seq<IngredientGroup>, ParseError>)
    ensures r.Ok? <==> GroupsCleanable(groups)
    ensures r.Ok? ==> |r.value| == |groups|
    ensures r.Ok? ==> forall i :: 0 <= i < |groups| ==> Ok(r.value[i]) == ParseGroup(groups[i])
    decreases |groups|
  {
    if groups == [] then Ok([])
    else
      var rest := ParseGroups(groups[1..]);
      GroupsCleanableCons(groups);
      match ParseGroup(groups[0])
      case Err(e) => Err(e)
      case Ok(g) =>
        if rest.Ok? then Ok([g] + rest.value) else Err(rest.error)
  }

  lemma GroupsCleanableCons(groups: seq<RawIngredientGroup>)
    requires groups != []
    ensures GroupsCleanable(groups) <==> GroupCleanable(groups[0]) && GroupsCleanable(groups[1..])
    ensures forall i :: 1 <= i < |groups| ==> groups[i] == groups[1..][i - 1]
  {
    assert forall i :: 1 <= i < |groups| ==> groups[i] == groups[1..][i - 1];
  }

  /** The title of a parsed group never ends with a full stop. */
  lemma GroupTitleHasNoFullStop(g: RawIngredientGroup)
    requires ParseGroup(g).Ok?
    ensures var t := ParseGroup(g).value.title; t == [] || t[|t| - 1] != '.'
    ensures DashesSpaced(Clean(g.hed).value)
  {
  }

  // ---------------------------------------------------------------------
  // The photo URL: the first `tout` photo under the assets host.

  function PhotoUrl(photos: Option<seq<Photo>>): (r: Result<Option<string>, ParseError>)
    ensures r.Err? <==> photos == Some([])
    ensures r.Err? ==> r.error == NoToutPhoto
    ensures photos.None? ==> r == Ok(None)
    ensures r.Ok? && photos.Some? ==>
      r.value.Some? && r.value.value == AssetsBaseUrl + "/photos/" + photos.value[0].id + "/" + photos.value[0].filename
  {
    match photos
    case None => Ok(None)
    case Some(tout) =>
      if tout == [] then Err(NoToutPhoto)
      else Ok(Some(AssetsBaseUrl + "/photos/" + tout[0].id + "/" + tout[0].filename))
  }

  // ---------------------------------------------------------------------
  // Tags: every `cneTags` name not starting with `_`, named with its spaces
  // and hyphens removed, then the default tag.

  const DefaultTag := Tag("bonappetit", Some("BonAppetit"))

  predicate Visible(name: string) { !StartsWith(name, "_") }

  function TagName(name: string): string {
    Replace(Replace(name, " ", ""), "-", "")
  }

  function TagFor(name: string): Tag {
    Tag(IdFromName(name), Some(TagName(name)))
  }

  /** Deleting a non-word character does not change the identifier. */
  lemma {:induction false} IdFromNameDropsNonWord(s: string, c: char)
    requires !IsWordChar(c)
    ensures IdFromName(Replace(s, [c], "")) == IdFromName(s)
    decreases |s|
  {
    if |s| >= 1 {
      IdFromNameDropsNonWord(s[1..], c);
      assert s == [s[0]] + s[1..];
      IdFromNameAppend([s[0]], s[1..]);
      if s[..1] == [c] {
        assert s[0] == c;
        assert "" + Replace(s[1..], [c], "") == Replace(s[1..], [c], "");
      } else {
        IdFromNameAppend([s[0]], Replace(s[1..], [c], ""));
      }
    }
  }

  /** A tag and an author built from the same name get the same identifier,
      and the tag's display name, with its spaces and hyphens removed, still
      canonicalises to that identifier. */
  lemma TagAndAuthorShareIds(name: string)
    ensures TagFor(name).id == AuthorsNamed([name])[0].id
    ensures IdFromName(TagFor(name).name.value) == TagFor(name).id
  {
    IdFromNameDropsNonWord(name, ' ');
    IdFromNameDropsNonWord(Replace(name, " ", ""), '-');
  }

  /** A tag made from a name has a canonical identifier and a display name
      with no space and no hyphen. */
  lemma TagForWellFormed(name: string)
    ensures IsCanonicalId(TagFor(name).id)
    ensures ' ' !in TagFor(name).name.value && '-' !in TagFor(name).name.value
  {
    IdFromNameCanonical(name);
    ReplaceRemovesChar(name, ' ', "");
    ReplaceKeepsAbsent(Replace(name, " ", ""), "-", "", ' ');
    ReplaceRemovesChar(Replace(name, " ", ""), '-', "");
  }

  function NamedTags(names: seq<string>): (r: seq<Tag>)
    ensures |r| <= |names|
    ensures forall i :: 0 <= i < |r| ==> exists j :: 0 <= j < |names| && Visible(names[j]) && r[i] == TagFor(names[j])
    ensures forall j :: 0 <= j < |names| && Visible(names[j]) ==> TagFor(names[j]) in r
    decreases |names|
  {
    if names == [] then []
    else
      var rest := NamedTags(names[1..]);
      assert forall j :: 1 <= j < |names| ==> names[j] == names[1..][j - 1];
      if Visible(names[0]) then [TagFor(names[0])] + rest else rest
  }

  lemma DefaultTagWellFormed()
    ensures IsCanonicalId(DefaultTag.id) && DefaultTag.name.Some?
    ensures ' ' !in DefaultTag.name.value && '-' !in DefaultTag.name.value
  {
    assert IsCanonicalId("bonappetit");
  }

  /** The names that give tags, in order. */
  function VisibleNames(names: seq<string>): seq<string> {
    Seqs.Filter(names, Visible)
  }

  /** The named tags are the visible names' tags, one each, in order. */
  lemma {:induction false} NamedTagsIsFilterMap(names: seq<string>)
    ensures |NamedTags(names)| == |VisibleNames(names)|
    ensures forall i :: 0 <= i < |NamedTags(names)| ==> NamedTags(names)[i] == TagFor(VisibleNames(names)[i])
    decreases |names|
  {
    if names != [] {
      NamedTagsIsFilterMap(names[1..]);
      var rest := NamedTags(names[1..]);
      var vis := VisibleNames(names[1..]);
      if Visible(names[0]) {
        TagsOfVisibleHead(names[0], rest, vis);
      }
    }
  }

  /** One more visible name puts its tag in front. */
  lemma TagsOfVisibleHead(name: string, rest: seq<Tag>, vis: seq<string>)
    requires |rest| == |vis| && forall i :: 0 <= i < |rest| ==> rest[i] == TagFor(vis[i])
    ensures forall i :: 0 <= i < |rest| + 1 ==> ([TagFor(name)] + rest)[i] == TagFor(([name] + vis)[i])
  {
  }

  /** The tags of an item: one per visible name, in order, then the default tag. */
  function ParseTags(names: seq<string>): (r: seq<Tag>)
    ensures |r| == |VisibleNames(names)| + 1 && r[|r| - 1] == DefaultTag
    ensures forall i :: 0 <= i < |r| - 1 ==> r[i] == TagFor(VisibleNames(names)[i])
    ensures forall i :: 0 <= i < |r| - 1 ==> exists j :: 0 <= j < |names| && Visible(names[j]) && r[i] == TagFor(names[j])
    ensures forall j :: 0 <= j < |names| && Visible(names[j]) ==> TagFor(names[j]) in r
  {
    NamedTagsIsFilterMap(names);
    var named := NamedTags(names);
    var r := named + [DefaultTag];
    assert forall i :: 0 <= i < |named| ==> r[i] == named[i];
    assert forall t :: t in named ==> t in r;
    r
  }

  /** Every tag of an item has a canonical identifier and a display name
      with no space and no hyphen. */
  lemma ParseTagsWellFormed(names: seq<string>)
    ensures forall i :: 0 <= i < |ParseTags(names)| ==>
      IsCanonicalId(ParseTags(names)[i].id) && ParseTags(names)[i].name.Some?
    ensures forall i :: 0 <= i < |ParseTags(names)| ==>
      ' ' !in ParseTags(names)[i].name.value && '-' !in ParseTags(names)[i].name.value
  {
    var r := ParseTags(names);
    forall i | 0 <= i < |r|
      ensures IsCanonicalId(r[i].id) && r[i].name.Some?
      ensures ' ' !in r[i].name.value && '-' !in r[i].name.value
    {
      if i == |r| - 1 {
        DefaultTagWellFormed();
      } else {
        var t := r[i];
        var j :| 0 <= j < |names| && Visible(names[j]) && t == TagFor(names[j]);
        TagForWellFormed(names[j]);
      }
    }
  }

  /** A name starting with `_` contributes no tag of its own. */
  lemma HiddenNamesIgnored(names: seq<string>, hidden: string)
    requires !Visible(hidden)
    ensures ParseTags(names + [hidden]) == ParseTags(names)
  {
    assert NamedTags(names + [hidden]) == NamedTags(names) by {
      NamedTagsAppend(names, [hidden]);
    }
  }

  lemma {:induction false} NamedTagsAppend(a: seq<string>, b: seq<string>)
    ensures NamedTags(a + b) == NamedTags(a) + NamedTags(b)
    decreases |a|
  {
    if a == [] {
      assert a + b == b;
    } else {
      assert (a + b)[1..] == a[1..] + b;
      NamedTagsAppend(a[1..], b);
    }
  }

  // ---------------------------------------------------------------------
  // Authors: every contributor row's name split on ` & `, each part
  // stripped and kept when it is non-empty, has no comma and has at most
  // three words. Duplicates are kept.

  predicate Acceptable(name: string) {
    name != [] && ',' !in name && WordCount(name) <= 3
  }

  function Pieces(row: string): seq<string> {
    Split(Strip(row), " & ")
  }

  /** The stripped pieces that are acceptable, in order. */
  function KeptNames(pieces: seq<string>): seq<string>
    decreases |pieces|
  {
    if pieces == [] then []
    else (if Acceptable(Strip(pieces[0])) then [Strip(pieces[0])] else []) + KeptNames(pieces[1..])
  }

  predicate StripsTo(pieces: seq<string>, name: string) {
    exists j :: 0 <= j < |pieces| && name == Strip(pieces[j])
  }

  lemma StripsToCons(pieces: seq<string>, name: string)
    requires pieces != []
    ensures StripsTo(pieces, name) <==> name == Strip(pieces[0]) || StripsTo(pieces[1..], name)
  {
    if StripsTo(pieces, name) {
      var j :| 0 <= j < |pieces| && name == Strip(pieces[j]);
      if j > 0 { assert pieces[j] == pieces[1..][j - 1]; }
    }
    if StripsTo(pieces[1..], name) {
      var j :| 0 <= j < |pieces[1..]| && name == Strip(pieces[1..][j]);
      assert pieces[1..][j] == pieces[j + 1];
    }
  }

  lemma {:induction false} KeptNamesMembership(pieces: seq<string>, name: string)
    ensures name in KeptNames(pieces) <==> Acceptable(name) && StripsTo(pieces, name)
    decreases |pieces|
  {
    if pieces != [] {
      KeptNamesMembership(pieces[1..], name);
      StripsToCons(pieces, name);
      var head := if Acceptable(Strip(pieces[0])) then [Strip(pieces[0])] else [];
      assert KeptNames(pieces) == head + KeptNames(pieces[1..]);
      assert name in KeptNames(pieces) <==> name in head || name in KeptNames(pieces[1..]);
    }
  }

  /** The names one contributor row contributes. */
  function RowNames(row: string): seq<string> {
    KeptNames(Pieces(row))
  }

  /** The author names of the contributor rows, row by row. */
  function AuthorNames(rows: seq<string>): seq<string> {
    Seqs.FlatMap(rows, RowNames)
  }

  /** A name is kept exactly when it is an acceptable stripped part of some row. */
  lemma AuthorNamesMembership(rows: seq<string>, name: string)
    ensures name in AuthorNames(rows) <==>
      Acceptable(name) && exists k, j :: 0 <= k < |rows| && 0 <= j < |Pieces(rows[k])| && name == Strip(Pieces(rows[k])[j])
  {
    Seqs.FlatMapMembership(rows, RowNames, name);
    if exists k :: 0 <= k < |rows| && name in RowNames(rows[k]) {
      var k :| 0 <= k < |rows| && name in RowNames(rows[k]);
      KeptNamesMembership(Pieces(rows[k]), name);
    }
    if exists k, j :: 0 <= k < |rows| && 0 <= j < |Pieces(rows[k])| && name == Strip(Pieces(rows[k])[j]) {
      var k, j :| 0 <= k < |rows| && 0 <= j < |Pieces(rows[k])| && name == Strip(Pieces(rows[k])[j]);
      KeptNamesMembership(Pieces(rows[k]), name);
    }
  }

  /** Every kept name is acceptable and has no surrounding whitespace. */
  lemma AuthorNameTrimmed(rows: seq<string>, name: string)
    requires name in AuthorNames(rows)
    ensures Acceptable(name) && !IsSpace(name[0]) && !IsSpace(name[|name| - 1])
  {
    AuthorNamesMembership(rows, name);
    var k, j :| 0 <= k < |rows| && 0 <= j < |Pieces(rows[k])| && name == Strip(Pieces(rows[k])[j]);
    StrippedTrimmed(Pieces(rows[k])[j], name);
  }

  lemma StrippedTrimmed(p: string, name: string)
    requires name == Strip(p) && name != []
    ensures !IsSpace(name[0]) && !IsSpace(name[|name| - 1])
  {
  }

  lemma AuthorNamesTrimmed(rows: seq<string>)
    ensures forall i :: 0 <= i < |AuthorNames(rows)| ==> Acceptable(AuthorNames(rows)[i])
  {
    forall i | 0 <= i < |AuthorNames(rows)| ensures Acceptable(AuthorNames(rows)[i]) {
      AuthorNameTrimmed(rows, AuthorNames(rows)[i]);
    }
  }

  /** Rows are read in order and nothing is deduplicated: the names of two
      lists of rows are the names of the first followed by those of the second. */
  lemma AuthorNamesAppend(a: seq<string>, b: seq<string>)
    ensures AuthorNames(a + b) == AuthorNames(a) + AuthorNames(b)
  {
    Seqs.FlatMapAppend(a, b, RowNames);
  }

  function AuthorsNamed(names: seq<string>): (r: seq<Author>)
    ensures |r| == |names|
    ensures forall i :: 0 <= i < |r| ==> r[i].name == Some(names[i])
    ensures forall i :: 0 <= i < |r| ==> r[i].id == IdFromName(names[i])
    decreases |names|
  {
    if names == [] then [] else [Author(IdFromName(names[0]), Some(names[0]))] + AuthorsNamed(names[1..])
  }

  /** The authors of an item: none without contributors, otherwise the
      `author` rows' names followed by the `chef` rows'. */
  function ParseAuthors(contributors: Option<Contributors>): (r: seq<Author>)
    ensures contributors.None? ==> r == []
    ensures forall i :: 0 <= i < |r| ==> r[i].name.Some? && Acceptable(r[i].name.value)
    ensures forall i :: 0 <= i < |r| ==> r[i].id == IdFromName(r[i].name.value)
    ensures contributors.Some? ==>
      var names := AuthorNames(contributors.value.author + contributors.value.chef);
      |r| == |names| && forall i :: 0 <= i < |r| ==> r[i].name == Some(names[i])
  {
    match contributors
    case None => []
    case Some(c) =>
      AuthorNamesTrimmed(c.author + c.chef);
      AuthorsNamed(AuthorNames(c.author + c.chef))
  }

  // ---------------------------------------------------------------------

  /** Every text field of the item cleans without error and, when it has
      photos, it has a `tout` photo: the items the parser accepts. */
  predicate Parseable(item: RawItem) {
    && GroupsCleanable(item.ingredientGroups)
    && item.photos != Some([])
    && Clean(item.hed).Ok? && Clean(item.socialTitle).Ok?
    && Clean(item.dek).Ok? && Clean(item.socialDescription).Ok?
  }

  /** `_parse_ba_recipe`: the recipe, its tags and its authors. */
  function ParseRecipe(item: RawItem): (r: Result<Entry, ParseError>)
    ensures r.Ok? <==> Parseable(item)
    ensures r.Err? && item.photos == Some([]) && GroupsCleanable(item.ingredientGroups) ==> r.error == NoToutPhoto
    ensures r.Ok? ==> r.value.recipe.id == item.id && r.value.recipe.url == ApiBaseUrl + item.url
    ensures r.Ok? ==> r.value.recipe.pubDate == item.pubDate
    ensures r.Ok? ==> r.value.recipe.name == Clean(item.hed).value && r.value.recipe.title == Clean(item.socialTitle).value
    ensures r.Ok? ==> r.value.recipe.description == Clean(item.dek).value
    ensures r.Ok? ==> r.value.recipe.shortDescription == Clean(item.socialDescription).value
    ensures r.Ok? ==> r.value.recipe.reviewsCount == item.reviewsCount.GetOr(0)
    ensures r.Ok? ==> r.value.recipe.wmaCount == item.willMakeAgainPct.GetOr(0)
    ensures r.Ok? ==> r.value.recipe.rating == item.aggregateRating
    ensures r.Ok? ==> r.value.recipe.photoUrl == PhotoUrl(item.photos).value
    ensures r.Ok? ==> ParseGroups(item.ingredientGroups).Ok? && r.value.recipe.ingredientGroups == ParseGroups(item.ingredientGroups).value
    ensures r.Ok? ==> r.value.tags == ParseTags(item.cneTags)
    ensures r.Ok? ==> r.value.authors == ParseAuthors(item.contributors)
  {
    var groups :- ParseGroups(item.ingredientGroups);
    var photoUrl :- PhotoUrl(item.photos);
    var name :- Cleaned(item.hed);
    var title :- Cleaned(item.socialTitle);
    var description :- Cleaned(item.dek);
    var shortDescription :- Cleaned(item.socialDescription);
    var recipe := Recipe(
      item.id, ApiBaseUrl + item.url, item.pubDate, name, title, description, shortDescription,
      item.aggregateRating, item.reviewsCount.GetOr(0), item.willMakeAgainPct.GetOr(0),
      photoUrl, groups);
    Ok(Entry(recipe, ParseTags(item.cneTags), ParseAuthors(item.contributors)))
  }
}

=== FILE: scrapers_text.dfy ===
/** Free-text clean-up applied to every text field of a scraped recipe
    (recipes/scrapers.py `_clean_text`): `&amp;` decoded, HTML tags
    removed, decimal character references decoded, em dashes spaced. */
module CleanText {
  import opened Wrappers
  import opened Strings

  const EmDash: char := '\U{2014}'

  // ---------------------------------------------------------------------
  // Tag stripping: the regular expression `<.*?>` replaced by nothing.
  // `.` does not match a newline, so a tag is a `<`, then the shortest run
  // of non-newline characters reaching a `>`.

  /** Where the first `>` of `s` is, provided no newline comes before it. */
  function CloseAt(s: string): (r: Option<nat>)
    ensures r.Some? ==> r.value < |s| && s[r.value] == '>'
    ensures r.Some? ==> forall k :: 0 <= k < r.value ==> s[k] != '>' && s[k] != '\n'
    decreases |s|
  {
    if s == [] then None
    else if s[0] == '>' then Some(0)
    else if s[0] == '\n' then None
    else match CloseAt(s[1..])
      case Some(j) => Some(j + 1)
      case None => None
  }

  lemma {:induction false} CloseAtNoneNoClose(s: string)
    requires CloseAt(s).None?
    ensures forall k :: 0 <= k < |s| && s[k] == '>' ==> exists m :: 0 <= m < k && s[m] == '\n'
    decreases |s|
  {
    if s != [] && s[0] != '\n' {
      CloseAtNoneNoClose(s[1..]);
      forall k | 0 <= k < |s| && s[k] == '>' ensures exists m :: 0 <= m < k && s[m] == '\n' {
        assert s[1..][k - 1] == '>';
        var m :| 0 <= m < k - 1 && s[1..][m] == '\n';
        assert s[m + 1] == '\n';
      }
    }
  }

  /** `<.*?>` removed, scanning left to right. */
  function StripTags(s: string): string
    decreases |s|
  {
    if s == [] then []
    else if s[0] == '<' && CloseAt(s[1..]).Some? then StripTags(s[CloseAt(s[1..]).value + 2..])
    else [s[0]] + StripTags(s[1..])
  }

  /** No `<` of `s` opens a tag: each is followed by a newline, or by nothing,
      before any `>`. */
  predicate NoTag(s: string)
    decreases |s|
  {
    s == [] || ((s[0] == '<' ==> CloseAt(s[1..]).None?) && NoTag(s[1..]))
  }

  lemma {:induction false} StripTagsKeepsNoClose(t: string)
    requires CloseAt(t).None?
    ensures CloseAt(StripTags(t)).None?
    decreases |t|
  {
    if t != [] && t[0] != '\n' {
      StripTagsKeepsNoClose(t[1..]);
      assert StripTags(t) == [t[0]] + StripTags(t[1..]);
      assert ([t[0]] + StripTags(t[1..]))[1..] == StripTags(t[1..]);
    }
  }

  /** Stripping leaves no tag behind. */
  lemma {:induction false} StripTagsLeavesNoTag(s: string)
    ensures NoTag(StripTags(s))
    decreases |s|
  {
    if s != [] {
      if s[0] == '<' && CloseAt(s[1..]).Some? {
        StripTagsLeavesNoTag(s[CloseAt(s[1..]).value + 2..]);
      } else {
        StripTagsLeavesNoTag(s[1..]);
        var r := [s[0]] + StripTags(s[1..]);
        assert r[1..] == StripTags(s[1..]);
        if s[0] == '<' {
          StripTagsKeepsNoClose(s[1..]);
        }
      }
    }
  }

  /** Text with no tag is left as it is. */
  lemma {:induction false} StripTagsFixesNoTag(s: string)
    requires NoTag(s)
    ensures StripTags(s) == s
    decreases |s|
  {
    if s != [] {
      StripTagsFixesNoTag(s[1..]);
      assert [s[0]] + s[1..] == s;
    }
  }

  /** Stripping tags twice is stripping them once. */
  lemma StripTagsIdempotent(s: string)
    ensures StripTags(StripTags(s)) == StripTags(s)
  {
    StripTagsLeavesNoTag(s);
    StripTagsFixesNoTag(StripTags(s));
  }

  lemma {:induction false} StripTagsWithoutOpen(s: string)
    requires '<' !in s
    ensures StripTags(s) == s
    decreases |s|
  {
    if s != [] {
      StripTagsWithoutOpen(s[1..]);
      assert [s[0]] + s[1..] == s;
    }
  }

  // ---------------------------------------------------------------------
  // Decimal character references: `&#(\d+);` replaced by `chr(int(digits))`.

  datatype CleanError =
    | CodePointTooLarge(codePoint: nat)   // chr() rejects it
    | SurrogateCodePoint(codePoint: nat)  // not a character a Dafny string can hold

  /** The length of the leading run of ASCII digits. */
  function DigitRun(s: string): (n: nat)
    ensures n <= |s| && AllDigits(s[..n])
    ensures n < |s| ==> !IsAsciiDigit(s[n])
    decreases |s|
  {
    if s != [] && IsAsciiDigit(s[0]) then
      var n := 1 + DigitRun(s[1..]);
      assert s[..n] == [s[0]] + s[1..][..n - 1];
      n
    else 0
  }

  /** The number of digits of a reference `&#digits;` at the start of `s`. */
  function RefAt(s: string): (r: Option<nat>)
    ensures r.Some? ==> 0 < r.value && 3 + r.value <= |s|
    ensures r.Some? ==> s[..2] == "&#" && AllDigits(s[2..2 + r.value]) && s[2 + r.value] == ';'
    ensures r.Some? ==> s[0] == '&'
  {
    if |s| >= 2 && s[0] == '&' && s[1] == '#' then
      var d := DigitRun(s[2..]);
      assert s[2..][..d] == s[2..2 + d];
      if d > 0 && 2 + d < |s| && s[2 + d] == ';' then Some(d) else None
    else None
  }

  /** `chr(n)`, failing where Python raises and where the result would be a
      lone surrogate. */
  function CodePoint(n: nat): (r: Result<char, CleanError>)
    ensures r.Ok? ==> r.value as int == n
    ensures n > 0x10FFFF ==> r == Err(CodePointTooLarge(n))
    ensures 0xD800 <= n <= 0xDFFF ==> r == Err(SurrogateCodePoint(n))
  {
    if n > 0x10FFFF then Err(CodePointTooLarge(n))
    else if 0xD800 <= n <= 0xDFFF then Err(SurrogateCodePoint(n))
    else Ok(n as char)
  }

  function DecodeRefs(s: string): (r: Result<string, CleanError>)
    ensures r.Ok? ==> |r.value| <= |s|
    ensures '&' !in s ==> r == Ok(s)
    decreases |s|
  {
    if s == [] then Ok([])
    else match RefAt(s)
      case Some(d) =>
        var c :- CodePoint(DigitsValue(s[2..2 + d]));
        var rest :- DecodeRefs(s[3 + d..]);
        Ok([c] + rest)
      case None =>
        var rest :- DecodeRefs(s[1..]);
        assert [s[0]] + s[1..] == s;
        Ok([s[0]] + rest)
  }

  // ---------------------------------------------------------------------
  // Em dashes: every `—` replaced by ` — `.

  /** Every em dash has a space on each side. */
  predicate DashesSpaced(s: string) {
    forall i :: 0 <= i < |s| && s[i] == EmDash ==> 0 < i < |s| - 1 && s[i - 1] == ' ' && s[i + 1] == ' '
  }

  function SpaceDashes(s: string): string {
    Replace(s, [EmDash], [' ', EmDash, ' '])
  }

  lemma {:induction false} SpaceDashesSpaced(s: string)
    ensures DashesSpaced(SpaceDashes(s))
    decreases |s|
  {
    if s != [] {
      SpaceDashesSpaced(s[1..]);
      var t := SpaceDashes(s[1..]);
      var r := SpaceDashes(s);
      if s[..1] == [EmDash] {
        assert r == [' ', EmDash, ' '] + t;
        forall i | 0 <= i < |r| && r[i] == EmDash
          ensures 0 < i < |r| - 1 && r[i - 1] == ' ' && r[i + 1] == ' '
        {
          if i >= 3 { assert r[i] == t[i - 3]; }
        }
      } else {
        assert s[0] != EmDash by { assert s[..1] == [s[0]]; }
        assert r == [s[0]] + t;
        forall i | 0 <= i < |r| && r[i] == EmDash
          ensures 0 < i < |r| - 1 && r[i - 1] == ' ' && r[i + 1] == ' '
        {
          assert r[i] == t[i - 1];
        }
      }
    }
  }

  // ---------------------------------------------------------------------

  /** `_clean_text`: the four passes in source order. */
  function Clean(text: string): (r: Result<string, CleanError>)
    ensures r.Ok? ==> DashesSpaced(r.value)
  {
    var t := StripTags(Replace(text, "&amp;", "&"));
    var u :- DecodeRefs(t);
    SpaceDashesSpaced(u);
    Ok(SpaceDashes(u))
  }

  /** Tags are removed before references are decoded: the text handed to
      the decoding pass has no tag left, and only that pass can fail. */
  lemma CleanStripsTagsBeforeDecoding(text: string)
    ensures NoTag(StripTags(Replace(text, "&amp;", "&")))
    ensures Clean(text).Ok? <==> DecodeRefs(StripTags(Replace(text, "&amp;", "&"))).Ok?
  {
    StripTagsLeavesNoTag(Replace(text, "&amp;", "&"));
  }

  /** So the cleaned text itself can hold a tag: a decoded `&#60;` is a `<`
      that the tag pass never saw. */
  lemma CleanCanOutputTag()
    ensures Clean("&#60;b>") == Ok("<b>")
    ensures !NoTag("<b>")
  {
    var t := "&#60;b>";
    assert Replace(t, "&amp;", "&") == t by {
      assert t[..5] != "&amp;" by { assert t[..5][1] == '#'; }
      assert Replace(t[1..], "&amp;", "&") == t[1..];
    }
    StripTagsWithoutOpen(t);
    LessThanDecoded();
    assert SpaceDashes("<b>") == "<b>";
    TagInOutput();
  }

  lemma LessThanDecoded()
    ensures DecodeRefs("&#60;b>") == Ok("<b>")
  {
    var t := "&#60;b>";
    assert RefAt(t) == Some(2);
    assert t[2..4] == "60";
    assert DigitsValue("60") == 60 by {
      assert "60"[..1] == "6";
      assert DigitsValue("6") == 6 by { assert "6"[..0] == []; }
    }
    assert CodePoint(60) == Ok('<');
    assert t[5..] == "b>";
    assert DecodeRefs("b>") == Ok("b>");
    assert ['<'] + "b>" == "<b>";
  }

  lemma TagInOutput()
    ensures !NoTag("<b>")
  {
    assert "<b>"[1..] == "b>";
    assert "b>"[1..] == ">";
    assert CloseAt("b>") == Some(1);
  }

  /** Text without `&`, `<` or `—` comes out unchanged. */
  lemma CleanWithoutSpecials(text: string)
    requires '&' !in text && '<' !in text && EmDash !in text
    ensures Clean(text) == Ok(text)
  {
    StripTagsWithoutOpen(text);
  }

  /** No `&` of `s` starts a decimal reference: none is followed by `#` and
      an ASCII digit. */
  predicate NoDecimalRef(s: string) {
    forall i :: 0 <= i < |s| - 2 && s[i] == '&' && s[i + 1] == '#' ==> !IsAsciiDigit(s[i + 2])
  }

  /** Text without a decimal reference is left as it is by the decoding pass. */
  lemma {:induction false} DecodeRefsWithoutRefs(s: string)
    requires NoDecimalRef(s)
    ensures DecodeRefs(s) == Ok(s)
    decreases |s|
  {
    if s != [] {
      forall i | 0 <= i < |s[1..]| - 2 && s[1..][i] == '&' && s[1..][i + 1] == '#'
        ensures !IsAsciiDigit(s[1..][i + 2])
      {
        assert s[i + 1] == '&' && s[i + 2] == '#' && s[1..][i + 2] == s[i + 3];
      }
      DecodeRefsWithoutRefs(s[1..]);
      assert [s[0]] + s[1..] == s;
    }
  }

  lemma {:induction false} DigitRunOf(ds: string, t: string)
    requires AllDigits(ds)
    requires t == [] || !IsAsciiDigit(t[0])
    ensures DigitRun(ds + t) == |ds|
    decreases |ds|
  {
    if ds == [] {
      assert ds + t == t;
    } else {
      assert (ds + t)[0] == ds[0];
      assert (ds + t)[1..] == ds[1..] + t;
      DigitRunOf(ds[1..], t);
    }
  }

  /** A reference `&#digits;` at the start is replaced by `chr(int(digits))`,
      and decoding goes on after the `;`: it fails where `chr` fails, and
      otherwise gives that character followed by the decoded rest. */
  lemma DecodeRefsReference(ds: string, s: string)
    requires ds != [] && AllDigits(ds)
    ensures var n := DigitsValue(ds);
      var x := "&#" + ds + ";" + s;
      && (CodePoint(n).Err? ==> DecodeRefs(x) == Err(CodePoint(n).error))
      && (CodePoint(n).Ok? ==> (DecodeRefs(x).Ok? <==> DecodeRefs(s).Ok?))
      && (CodePoint(n).Ok? && DecodeRefs(s).Ok? ==> DecodeRefs(x).value == [CodePoint(n).value] + DecodeRefs(s).value)
  {
    var x := "&#" + ds + ";" + s;
    var d := |ds|;
    assert x[2..] == ds + (";" + s);
    DigitRunOf(ds, ";" + s);
    assert x[2..2 + d] == ds;
    assert x[2 + d] == ';';
    assert RefAt(x) == Some(d);
    assert x[3 + d..] == s;
  }

  /** `&#N;` with `N` the code of `c` written in decimal. */
  function DecimalRef(c: char): string {
    "&#" + NatToDecimal(c as int) + ";"
  }

  /** Writing a character as a decimal reference and decoding gives it back. */
  lemma DecodeRefsDecimalRef(c: char, s: string)
    ensures DecodeRefs(DecimalRef(c) + s).Ok? <==> DecodeRefs(s).Ok?
    ensures DecodeRefs(s).Ok? ==> DecodeRefs(DecimalRef(c) + s).value == [c] + DecodeRefs(s).value
  {
    DecodeRefsReference(NatToDecimal(c as int), s);
    DecimalRoundTrip(c as int);
    assert CodePoint(c as int) == Ok(c);
  }

  /** Text with no `&amp;`, no `<`, no em dash and no decimal reference comes
      out unchanged. */
  lemma CleanWithoutRefs(text: string)
    requires !Contains(text, "&amp;") && '<' !in text && EmDash !in text && NoDecimalRef(text)
    ensures Clean(text) == Ok(text)
  {
    ReplaceNoMatch(text, "&amp;", "&");
    StripTagsWithoutOpen(text);
    DecodeRefsWithoutRefs(text);
  }

  /** `&amp;` is decoded first, so an encoded reference `&amp;#...` is
      cleaned exactly like the reference `&#...` itself. */
  lemma CleanDecodesAmpFirst(s: string)
    ensures Clean("&amp;#" + s) == Clean("&#" + s)
  {
    var a := "&amp;#" + s;
    var b := "&#" + s;
    var rest := "#" + s;
    assert a[..5] == "&amp;" && a[5..] == rest;
    assert b[1..] == rest;
    if |b| >= 5 {
      assert b[..5] != "&amp;" by { assert b[..5][1] == '#'; }
      assert Replace(b, "&amp;", "&") == "&" + Replace(rest, "&amp;", "&");
    } else {
      assert Replace(rest, "&amp;", "&") == rest;
      assert "&" + rest == b;
    }
    assert Replace(a, "&amp;", "&") == Replace(b, "&amp;", "&");
  }

  /** For example, `&amp;#39;` becomes an apostrophe. */
  lemma CleanDecodesEncodedApostrophe()
    ensures Clean("&amp;#39;") == Ok("'")
  {
    CleanDecodesAmpFirst("39;");
    assert "&amp;#" + "39;" == "&amp;#39;";
    assert "&#" + "39;" == "&#39;";
    CleanApostropheRef();
  }

  lemma CleanApostropheRef()
    ensures Clean("&#39;") == Ok("'")
  {
    var t := "&#39;";
    assert Replace(t, "&amp;", "&") == t by {
      assert t[..5] != "&amp;" by { assert t[..5][1] == '#'; }
      assert Replace(t[1..], "&amp;", "&") == t[1..];
    }
    StripTagsWithoutOpen(t);
    ApostropheDecoded();
    assert SpaceDashes("'") == "'";
  }

  lemma ApostropheDecoded()
    ensures DecodeRefs("&#39;") == Ok("'")
  {
    var t := "&#39;";
    assert RefAt(t) == Some(2);
    assert t[2..4] == "39";
    assert DigitsValue("39") == 39 by {
      assert "39"[..1] == "3";
      assert DigitsValue("3") == 3 by { assert "3"[..0] == []; }
    }
    assert CodePoint(39) == Ok('\'');
    assert t[5..] == [];
    assert DecodeRefs(t[5..]) == Ok([]);
    assert ['\''] + [] == "'";
  }

  predicate IsHexDigit(c: char) {
    IsAsciiDigit(c) || 'a' <= c <= 'f' || 'A' <= c <= 'F'
  }

  /** Hexadecimal references `&#x...;` are not decoded. */
  lemma CleanKeepsHexRefs(hex: string)
    requires forall i :: 0 <= i < |hex| ==> IsHexDigit(hex[i])
    ensures Clean("&#x" + hex + ";") == Ok("&#x" + hex + ";")
  {
    var text := "&#x" + hex + ";";
    assert forall i :: 3 <= i < |text| - 1 ==> text[i] == hex[i - 3];
    assert forall i :: 0 <= i < |text| ==> IsHexDigit(text[i]) || text[i] in "&#x;";
    assert forall i :: 0 < i < |text| ==> text[i] != '&';
    assert '&' !in text[1..];
    assert '<' !in text && EmDash !in text;
    assert NoDecimalRef(text) by {
      forall i | 0 <= i < |text| - 2 && text[i] == '&' && text[i + 1] == '#' ensures !IsAsciiDigit(text[i + 2]) {
        assert i == 0;
      }
    }
    if Contains(text, "&amp;") {
      assert !StartsWith(text, "&amp;") by { assert |text| >= 5 ==> text[..5][1] == '#'; }
      ContainsHead(text[1..], "&amp;");
      assert false;
    }
    CleanWithoutRefs(text);
  }
}

=== FILE: secret_key.dfy ===
/** `generate_secret_key` (backend/utils.py): candidates of the requested
    length are drawn from the ASCII letters and digits until one has a
    lower-case letter, an upper-case letter and at least three digits.
    `secrets.choice` is an oracle: `pick(attempt, i)` chooses the `i`-th
    character of the `attempt`-th candidate. The source loops until it
    succeeds; the model stops after `maxAttempts` candidates. */
module SecretKey {
  import opened Wrappers
  import opened Strings

  /** `n` consecutive characters from `first` on. */
  function CharRun(first: char, n: nat): (r: string)
    requires first as int + n <= 0xD800
    ensures |r| == n
    ensures forall c :: c in r <==> first <= c && (c as int) < first as int + n
  {
    var r := seq(n, i requires 0 <= i < n => (first as int + i) as char);
    forall c | first <= c && (c as int) < first as int + n ensures c in r {
      assert r[c as int - first as int] == c;
    }
    r
  }

  /** `string.ascii_letters + string.digits`: lower-case, upper-case, digits. */
  const Alphabet: string := CharRun('a', 26) + CharRun('A', 26) + CharRun('0', 10)

  const MinLength := 16

  datatype KeyError = TooShort | GaveUp

  /** The alphabet is exactly the 62 ASCII letters and digits. */
  lemma AlphabetMembers()
    ensures |Alphabet| == 62
    ensures forall c :: c in Alphabet <==> IsAsciiLetter(c) || IsAsciiDigit(c)
  {
  }

  /** The `attempt`-th candidate. */
  function Candidate(pick: (nat, nat) -> nat, attempt: nat, length: nat): (r: string)
    ensures |r| == length
  {
    seq(length, i requires 0 <= i < length => Alphabet[pick(attempt, i) % |Alphabet|])
  }

  function CountDigits(s: string): nat
    decreases |s|
  {
    if s == [] then 0 else (if IsAsciiDigit(s[0]) then 1 else 0) + CountDigits(s[1..])
  }

  predicate HasLower(s: string) { exists i :: 0 <= i < |s| && IsAsciiLower(s[i]) }
  predicate HasUpper(s: string) { exists i :: 0 <= i < |s| && IsAsciiUpper(s[i]) }

  /** The acceptance test: a lower-case letter, an upper-case letter and at
      least three digits. */
  predicate Acceptable(s: string) {
    HasLower(s) && HasUpper(s) && CountDigits(s) >= 3
  }

  /** The first acceptable candidate from `attempt` on, within `fuel` tries. */
  function FirstAccepted(pick: (nat, nat) -> nat, length: nat, attempt: nat, fuel: nat): Result<string, KeyError>
    decreases fuel
  {
    if fuel == 0 then Err(GaveUp)
    else if Acceptable(Candidate(pick, attempt, length)) then Ok(Candidate(pick, attempt, length))
    else FirstAccepted(pick, length, attempt + 1, fuel - 1)
  }

  /** `generate_secret_key(length)`. */
  function GenerateSecretKey(length: int, pick: (nat, nat) -> nat, maxAttempts: nat): Result<string, KeyError> {
    if length < MinLength then Err(TooShort) else FirstAccepted(pick, length, 0, maxAttempts)
  }

  /** Giving up means none of the `fuel` candidates passed. */
  lemma {:induction false} FirstAcceptedGaveUp(pick: (nat, nat) -> nat, length: nat, attempt: nat, fuel: nat)
    ensures FirstAccepted(pick, length, attempt, fuel).Err? <==>
      forall a :: attempt <= a < attempt + fuel ==> !Acceptable(Candidate(pick, a, length))
    ensures FirstAccepted(pick, length, attempt, fuel).Err? ==> FirstAccepted(pick, length, attempt, fuel).error == GaveUp
    decreases fuel
  {
    if fuel > 0 && !Acceptable(Candidate(pick, attempt, length)) {
      FirstAcceptedGaveUp(pick, length, attempt + 1, fuel - 1);
    }
  }

  /** The first acceptable candidate at or after `attempt`, given one exists
      before `attempt + fuel`. */
  lemma {:induction false} FirstAcceptedFound(pick: (nat, nat) -> nat, length: nat, attempt: nat, fuel: nat, a: nat)
    requires attempt <= a < attempt + fuel && Acceptable(Candidate(pick, a, length))
    requires forall b :: attempt <= b < a ==> !Acceptable(Candidate(pick, b, length))
    ensures FirstAccepted(pick, length, attempt, fuel) == Ok(Candidate(pick, a, length))
    decreases fuel
  {
    if a > attempt {
      FirstAcceptedFound(pick, length, attempt + 1, fuel - 1, a);
    }
  }

  /** A found key is a passing candidate within the budget. */
  lemma {:induction false} FirstAcceptedPasses(pick: (nat, nat) -> nat, length: nat, attempt: nat, fuel: nat)
    ensures FirstAccepted(pick, length, attempt, fuel).Ok? ==>
      exists a :: attempt <= a < attempt + fuel && FirstAccepted(pick, length, attempt, fuel).value == Candidate(pick, a, length)
    ensures FirstAccepted(pick, length, attempt, fuel).Ok? ==> Acceptable(FirstAccepted(pick, length, attempt, fuel).value)
    decreases fuel
  {
    if fuel > 0 && !Acceptable(Candidate(pick, attempt, length)) {
      FirstAcceptedPasses(pick, length, attempt + 1, fuel - 1);
    }
  }

  /** A short length is refused before anything is drawn; a returned key
      has the requested length, only letters and digits, a lower-case and an
      upper-case letter and three digits or more; it is the first candidate
      that passes, and the search gives up only when none of the allowed
      candidates passes. */
  lemma GenerateSecretKeyMeaning(length: int, pick: (nat, nat) -> nat, maxAttempts: nat)
    ensures GenerateSecretKey(length, pick, maxAttempts) == Err(TooShort) <==> length < 16
    ensures var r := GenerateSecretKey(length, pick, maxAttempts);
      r.Ok? ==>
        && |r.value| == length
        && (forall i :: 0 <= i < |r.value| ==> IsAsciiLetter(r.value[i]) || IsAsciiDigit(r.value[i]))
        && HasLower(r.value) && HasUpper(r.value) && CountDigits(r.value) >= 3
        && (exists a :: 0 <= a < maxAttempts && r.value == Candidate(pick, a, length))
    ensures length >= 16 ==>
      (GenerateSecretKey(length, pick, maxAttempts) == Err(GaveUp) <==>
        forall a :: 0 <= a < maxAttempts ==> !Acceptable(Candidate(pick, a, length)))
    ensures length >= 16 ==>
      forall a :: (0 <= a < maxAttempts && Acceptable(Candidate(pick, a, length))
                  && forall b :: 0 <= b < a ==> !Acceptable(Candidate(pick, b, length)))
                ==> GenerateSecretKey(length, pick, maxAttempts) == Ok(Candidate(pick, a, length))
  {
    if length >= MinLength {
      FirstAcceptedPasses(pick, length, 0, maxAttempts);
      FirstAcceptedGaveUp(pick, length, 0, maxAttempts);
      var r := FirstAccepted(pick, length, 0, maxAttempts);
      forall a | 0 <= a < maxAttempts && Acceptable(Candidate(pick, a, length))
        && (forall b :: 0 <= b < a ==> !Acceptable(Candidate(pick, b, length)))
        ensures r == Ok(Candidate(pick, a, length))
      {
        FirstAcceptedFound(pick, length, 0, maxAttempts, a);
      }
      AlphabetMembers();
      if r.Ok? {
        forall i | 0 <= i < |r.value| ensures IsAsciiLetter(r.value[i]) || IsAsciiDigit(r.value[i]) {
          assert r.value[i] in Alphabet;
        }
      }
    }
  }

  // ---------------------------------------------------------------------
  // The loops.

  /** One candidate, a character at a time. */
  method Draw(pick: (nat, nat) -> nat, attempt: nat, length: nat) returns (password: string)
    ensures password == Candidate(pick, attempt, length)
  {
    password := [];
    var i := 0;
    while i < length
      invariant i <= length
      invariant password == Candidate(pick, attempt, length)[..i]
    {
      password := password + [Alphabet[pick(attempt, i) % |Alphabet|]];
      i := i + 1;
    }
  }

  lemma CountDigitsSnoc(s: string, c: char)
    ensures CountDigits(s + [c]) == CountDigits(s) + (if IsAsciiDigit(c) then 1 else 0)
    decreases |s|
  {
    if s == [] {
      assert [c][1..] == [];
    } else {
      assert (s + [c])[1..] == s[1..] + [c];
      CountDigitsSnoc(s[1..], c);
    }
  }

  /** The acceptance test, one pass over the characters. */
  method Check(password: string) returns (ok: bool)
    ensures ok == Acceptable(password)
  {
    var lower, upper, digits := false, false, 0;
    var i := 0;
    while i < |password|
      invariant i <= |password|
      invariant lower == HasLower(password[..i])
      invariant upper == HasUpper(password[..i])
      invariant digits == CountDigits(password[..i])
    {
      var c := password[i];
      assert password[..i + 1] == password[..i] + [c];
      CountDigitsSnoc(password[..i], c);
      lower := lower || IsAsciiLower(c);
      upper := upper || IsAsciiUpper(c);
      if IsAsciiDigit(c) {
        digits := digits + 1;
      }
      i := i + 1;
    }
    assert password[..i] == password;
    ok := lower && upper && digits >= 3;
  }

  /** `generate_secret_key`: draws candidates until one passes, giving up
      after `maxAttempts`. */
  method GenerateSecretKeyLoop(length: int, pick: (nat, nat) -> nat, maxAttempts: nat) returns (r: Result<string, KeyError>)
    ensures r == GenerateSecretKey(length, pick, maxAttempts)
  {
    if length < MinLength {
      return Err(TooShort);
    }
    var attempt := 0;
    while attempt < maxAttempts
      invariant attempt <= maxAttempts
      invariant FirstAccepted(pick, length, 0, maxAttempts) == FirstAccepted(pick, length, attempt, maxAttempts - attempt)
    {
      var password := Draw(pick, attempt, length);
      var ok := Check(password);
      if ok {
        return Ok(password);
      }
      attempt := attempt + 1;
    }
    r := Err(GaveUp);
  }
}

=== FILE: seqs.dfy ===
/** Sequence helpers shared by the model: filtering (a queryset `.filter`),
    flattening, and a stable insertion sort (a queryset `.order_by`). */
module Seqs {

  /** The elements of `s` that satisfy `p`, in their original order. */
  function Filter<T>(s: seq<T>, p: T -> bool): seq<T>
    decreases |s|
  {
    if s == [] then []
    else if p(s[0]) then [s[0]] + Filter(s[1..], p)
    else Filter(s[1..], p)
  }

  /** Filtering keeps exactly the elements that satisfy the predicate. */
  lemma {:induction false} FilterMembership<T>(s: seq<T>, p: T -> bool)
    ensures |Filter(s, p)| <= |s|
    ensures forall i :: 0 <= i < |Filter(s, p)| ==> Filter(s, p)[i] in s && p(Filter(s, p)[i])
    ensures forall i :: 0 <= i < |s| && p(s[i]) ==> s[i] in Filter(s, p)
    decreases |s|
  {
    if s != [] {
      FilterMembership(s[1..], p);
      assert s == [s[0]] + s[1..];
    }
  }

  /** Membership in a filtered list, for every value. */
  lemma InFilter<T>(s: seq<T>, p: T -> bool)
    ensures forall x :: x in Filter(s, p) <==> x in s && p(x)
  {
    FilterMembership(s, p);
    forall x | x in Filter(s, p) ensures x in s && p(x) {
      var i :| 0 <= i < |Filter(s, p)| && Filter(s, p)[i] == x;
    }
    forall x | x in s && p(x) ensures x in Filter(s, p) {
      var i :| 0 <= i < |s| && s[i] == x;
    }
  }

  /** Filtering takes each element at most as often as it occurs. */
  lemma {:induction false} FilterSubMultiset<T>(s: seq<T>, p: T -> bool)
    ensures multiset(Filter(s, p)) <= multiset(s)
    decreases |s|
  {
    if s != [] {
      FilterSubMultiset(s[1..], p);
      assert s == [s[0]] + s[1..];
    }
  }

  lemma {:induction false} FilterAppend<T>(a: seq<T>, b: seq<T>, p: T -> bool)
    ensures Filter(a + b, p) == Filter(a, p) + Filter(b, p)
    decreases |a|
  {
    if a != [] {
      assert (a + b)[1..] == a[1..] + b;
      FilterAppend(a[1..], b, p);
    } else {
      assert a + b == b;
    }
  }

  /** Filtering with a predicate every element satisfies changes nothing. */
  lemma {:induction false} FilterAll<T>(s: seq<T>, p: T -> bool)
    requires forall i :: 0 <= i < |s| ==> p(s[i])
    ensures Filter(s, p) == s
    decreases |s|
  {
    if s != [] {
      FilterAll(s[1..], p);
    }
  }

  /** No element occurs twice. */
  predicate Distinct<T(==)>(s: seq<T>) {
    forall i, j :: 0 <= i < j < |s| ==> s[i] != s[j]
  }

  lemma {:induction false} FilterDistinct<T>(s: seq<T>, p: T -> bool)
    requires Distinct(s)
    ensures Distinct(Filter(s, p))
    decreases |s|
  {
    if s != [] {
      FilterDistinct(s[1..], p);
      FilterMembership(s[1..], p);
      assert s[0] !in s[1..];
    }
  }

  lemma AppendAssoc<T>(a: seq<T>, b: seq<T>, c: seq<T>)
    ensures (a + b) + c == a + (b + c)
  {
  }

  function Flatten<T>(ss: seq<seq<T>>): seq<T>
    decreases |ss|
  {
    if ss == [] then [] else ss[0] + Flatten(ss[1..])
  }

  lemma {:induction false} FlattenAppend<T>(a: seq<seq<T>>, b: seq<seq<T>>)
    ensures Flatten(a + b) == Flatten(a) + Flatten(b)
    decreases |a|
  {
    if a == [] {
      assert a + b == b;
    } else {
      assert (a + b)[1..] == a[1..] + b;
      FlattenAppend(a[1..], b);
    }
  }

  /** `f` applied to each element, the results concatenated in order. */
  function FlatMap<T, U>(xs: seq<T>, f: T -> seq<U>): seq<U>
    decreases |xs|
  {
    if xs == [] then [] else f(xs[0]) + FlatMap(xs[1..], f)
  }

  lemma {:induction false} FlatMapAppend<T, U>(a: seq<T>, b: seq<T>, f: T -> seq<U>)
    ensures FlatMap(a + b, f) == FlatMap(a, f) + FlatMap(b, f)
    decreases |a|
  {
    if a == [] {
      assert a + b == b;
    } else {
      assert (a + b)[1..] == a[1..] + b;
      FlatMapAppend(a[1..], b, f);
    }
  }

  lemma {:induction false} FlatMapMembership<T, U>(xs: seq<T>, f: T -> seq<U>, y: U)
    ensures y in FlatMap(xs, f) <==> exists k :: 0 <= k < |xs| && y in f(xs[k])
    decreases |xs|
  {
    if xs != [] {
      FlatMapMembership(xs[1..], f, y);
      if exists k :: 0 <= k < |xs| && y in f(xs[k]) {
        var k :| 0 <= k < |xs| && y in f(xs[k]);
        if k > 0 { assert xs[k] == xs[1..][k - 1]; }
      }
      if exists k :: 0 <= k < |xs[1..]| && y in f(xs[1..][k]) {
        var k :| 0 <= k < |xs[1..]| && y in f(xs[1..][k]);
        assert xs[1..][k] == xs[k + 1];
      }
    }
  }

  ghost predicate TotalPreorder<T(!new)>(leq: (T, T) -> bool) {
    && (forall a, b :: leq(a, b) || leq(b, a))
    && (forall a, b, c :: leq(a, b) && leq(b, c) ==> leq(a, c))
  }

  ghost predicate SortedBy<T>(s: seq<T>, leq: (T, T) -> bool) {
    forall i, j :: 0 <= i < j < |s| ==> leq(s[i], s[j])
  }

  /** `x` placed before the first element of the sorted `s` that it does not follow. */
  function Insert<T(!new)>(x: T, s: seq<T>, leq: (T, T) -> bool): (r: seq<T>)
    requires TotalPreorder(leq) && SortedBy(s, leq)
    ensures SortedBy(r, leq)
    ensures multiset(r) == multiset(s) + multiset{x}
    decreases |s|
  {
    if s == [] then [x]
    else if leq(x, s[0]) then [x] + s
    else
      var t := Insert(x, s[1..], leq);
      assert s == [s[0]] + s[1..];
      ConsSorted(s, x, t, leq);
      [s[0]] + t
  }

  lemma ConsSorted<T(!new)>(s: seq<T>, x: T, t: seq<T>, leq: (T, T) -> bool)
    requires TotalPreorder(leq) && SortedBy(s, leq) && SortedBy(t, leq)
    requires s != [] && !leq(x, s[0])
    requires multiset(t) == multiset(s[1..]) + multiset{x}
    ensures SortedBy([s[0]] + t, leq)
  {
    forall j | 0 <= j < |t| ensures leq(s[0], t[j]) {
      assert t[j] in multiset(t);
      if t[j] != x {
        assert t[j] in multiset(s[1..]);
        var k :| 1 <= k < |s| && s[k] == t[j];
      }
    }
    var u := [s[0]] + t;
    forall i, j | 0 <= i < j < |u| ensures leq(u[i], u[j]) {
      if i == 0 {
        assert u[j] == t[j - 1];
      } else {
        assert u[i] == t[i - 1] && u[j] == t[j - 1];
      }
    }
  }

  /** A stable sort of `s` by `leq`: the same elements, in `leq` order. */
  function SortBy<T(!new)>(s: seq<T>, leq: (T, T) -> bool): (r: seq<T>)
    requires TotalPreorder(leq)
    ensures SortedBy(r, leq)
    ensures multiset(r) == multiset(s)
    decreases |s|
  {
    if s == [] then []
    else
      assert s == [s[0]] + s[1..];
      Insert(s[0], SortBy(s[1..], leq), leq)
  }

  lemma SortByPreserves<T(!new)>(s: seq<T>, leq: (T, T) -> bool)
    requires TotalPreorder(leq)
    ensures |SortBy(s, leq)| == |s|
    ensures forall x :: x in SortBy(s, leq) <==> x in s
  {
    var r := SortBy(s, leq);
    assert |r| == |multiset(r)| == |multiset(s)| == |s|;
    forall x ensures x in r <==> x in s {
      assert x in r <==> x in multiset(r);
      assert x in s <==> x in multiset(s);
    }
  }

  /** A sequence with the same multiset as a distinct one is distinct. */
  lemma {:induction false} DistinctPermutation<T>(s: seq<T>, t: seq<T>)
    requires Distinct(s) && multiset(s) == multiset(t)
    ensures Distinct(t)
  {
    forall i, j | 0 <= i < j < |t| ensures t[i] != t[j] {
      if t[i] == t[j] {
        assert multiset{t[i], t[j]} <= multiset(t) by {
          var u := t[..i] + t[i + 1..];
          assert t == t[..i] + [t[i]] + t[i + 1..];
          assert t[j] in u by { assert u[j - 1] == t[j]; }
          assert multiset(t) == multiset(u) + multiset{t[i]};
        }
        MultiplicityAtMostOne(s, t[i]);
        assert false;
      }
    }
  }

  lemma {:induction false} MultiplicityAtMostOne<T>(s: seq<T>, x: T)
    requires Distinct(s)
    ensures multiset(s)[x] <= 1
    decreases |s|
  {
    if s != [] {
      assert s == [s[0]] + s[1..];
      MultiplicityAtMostOne(s[1..], x);
      if s[0] == x {
        assert x !in s[1..];
      }
    }
  }
}

=== FILE: strings.dfy ===
/** The parts of Python's `str` that the recipe code relies on: `replace`,
    `split`, `join`, `strip`, whitespace `split()`, `startswith`, `in`, and
    the decimal conversions behind `str(int)` and `int(digits)`.
    Character classes are the ASCII ones; `IsSpace` is the whole set
    Python's `str.isspace` accepts. */
module Strings {

  predicate IsAsciiLower(c: char) { 'a' <= c <= 'z' }
  predicate IsAsciiUpper(c: char) { 'A' <= c <= 'Z' }
  predicate IsAsciiLetter(c: char) { IsAsciiLower(c) || IsAsciiUpper(c) }
  predicate IsAsciiDigit(c: char) { '0' <= c <= '9' }

  /** ASCII lower-casing: what `casefold`/`lower` do to an ASCII character. */
  function Lower(c: char): (r: char)
    ensures IsAsciiUpper(c) ==> IsAsciiLower(r) && r as int == c as int + 32
    ensures !IsAsciiUpper(c) ==> r == c
  {
    if IsAsciiUpper(c) then (c as int + 32) as char else c
  }

  /** ASCII upper-casing. */
  function Upper(c: char): (r: char)
    ensures IsAsciiLower(c) ==> IsAsciiUpper(r) && r as int == c as int - 32
    ensures !IsAsciiLower(c) ==> r == c
  {
    if IsAsciiLower(c) then (c as int - 32) as char else c
  }

  function LowerAll(s: string): (r: string)
    ensures |r| == |s|
    ensures forall i :: 0 <= i < |s| ==> r[i] == Lower(s[i])
  {
    if s == [] then [] else [Lower(s[0])] + LowerAll(s[1..])
  }

  /** `s.capitalize()` on ASCII text: first character upper-cased, the rest lower-cased. */
  function Capitalize(s: string): (r: string)
    ensures |r| == |s|
    ensures |s| > 0 ==> r[0] == Upper(s[0])
    ensures forall i :: 0 < i < |s| ==> r[i] == Lower(s[i])
  {
    if s == [] then [] else [Upper(s[0])] + LowerAll(s[1..])
  }

  /** Every character Python's `str.isspace` accepts. */
  predicate IsSpace(c: char) {
    || '\t' <= c <= '\r'
    || '\U{1c}' <= c <= '\U{1f}'
    || c == ' ' || c == '\U{85}' || c == '\U{a0}' || c == '\U{1680}'
    || '\U{2000}' <= c <= '\U{200a}'
    || c == '\U{2028}' || c == '\U{2029}' || c == '\U{202f}' || c == '\U{205f}' || c == '\U{3000}'
  }

  predicate StartsWith(s: string, prefix: string) {
    |prefix| <= |s| && s[..|prefix|] == prefix
  }

  /** `sub in s`. */
  predicate Contains(s: string, sub: string)
    decreases |s|
  {
    StartsWith(s, sub) || (|s| > 0 && Contains(s[1..], sub))
  }

  lemma {:induction false} ContainsAt(s: string, sub: string, i: nat)
    requires i + |sub| <= |s| && s[i..i + |sub|] == sub
    ensures Contains(s, sub)
    decreases i
  {
    if i > 0 {
      assert s[1..][i - 1..i - 1 + |sub|] == sub;
      ContainsAt(s[1..], sub, i - 1);
    }
  }

  /** An occurrence of `sub` contains its first character. */
  lemma {:induction false} ContainsHead(s: string, sub: string)
    requires sub != [] && Contains(s, sub)
    ensures sub[0] in s
    decreases |s|
  {
    if StartsWith(s, sub) {
      assert s[0] == sub[0];
    } else {
      ContainsHead(s[1..], sub);
      assert sub[0] in s[1..];
    }
  }

  /** `s.replace(pat, rep)`: one left-to-right pass replacing non-overlapping
      occurrences; replaced text is never scanned again. */
  function Replace(s: string, pat: string, rep: string): (r: string)
    requires |pat| > 0
    ensures pat[0] !in s ==> r == s
    decreases |s|
  {
    if |s| < |pat| then s
    else if s[..|pat|] == pat then rep + Replace(s[|pat|..], pat, rep)
    else [s[0]] + Replace(s[1..], pat, rep)
  }

  /** Text with no occurrence of the pattern is left unchanged. */
  lemma {:induction false} ReplaceNoMatch(s: string, pat: string, rep: string)
    requires |pat| > 0 && !Contains(s, pat)
    ensures Replace(s, pat, rep) == s
    decreases |s|
  {
    if |s| >= |pat| {
      assert !StartsWith(s, pat);
      ReplaceNoMatch(s[1..], pat, rep);
      assert [s[0]] + s[1..] == s;
    }
  }

  /** Replacing a character by text that does not contain it removes it. */
  lemma {:induction false} ReplaceRemovesChar(s: string, c: char, rep: string)
    requires c !in rep
    ensures c !in Replace(s, [c], rep)
    decreases |s|
  {
    if |s| >= 1 {
      ReplaceRemovesChar(s[1..], c, rep);
      if s[..1] != [c] {
        assert s[0] != c by { assert s[..1] == [s[0]]; }
      }
    }
  }

  /** Replacing never introduces a character found in neither the text nor
      the replacement. */
  lemma {:induction false} ReplaceKeepsAbsent(s: string, pat: string, rep: string, c: char)
    requires |pat| > 0 && c !in s && c !in rep
    ensures c !in Replace(s, pat, rep)
    decreases |s|
  {
    if |s| >= |pat| {
      if s[..|pat|] == pat {
        assert c !in s[|pat|..];
        ReplaceKeepsAbsent(s[|pat|..], pat, rep, c);
      } else {
        assert c !in s[1..];
        ReplaceKeepsAbsent(s[1..], pat, rep, c);
      }
    }
  }

  /** An occurrence of `pat` in `s` starts at position `i`. */
  ghost predicate MatchAt(s: string, pat: string, i: int) {
    0 <= i && i + |pat| <= |s| && s[i..i + |pat|] == pat
  }

  lemma MatchShift(s: string, k: nat, pat: string, i: int)
    requires k <= |s| && 0 <= i
    ensures MatchAt(s[k..], pat, i) <==> MatchAt(s, pat, i + k)
  {
    if i + |pat| <= |s| - k {
      assert s[k..][i..i + |pat|] == s[i + k..i + k + |pat|];
    }
  }

  /** No occurrence of `pat` in `a + b` starts inside `a` and ends inside `b`. */
  ghost predicate NoMatchAcross(a: string, b: string, pat: string) {
    forall i :: 0 <= i < |a| < i + |pat| ==> !MatchAt(a + b, pat, i)
  }

  lemma NoMatchAcrossShift(a: string, b: string, pat: string, k: nat)
    requires k <= |a| && NoMatchAcross(a, b, pat)
    ensures NoMatchAcross(a[k..], b, pat)
  {
    assert (a + b)[k..] == a[k..] + b;
    forall i | 0 <= i < |a[k..]| < i + |pat|
      ensures !MatchAt(a[k..] + b, pat, i)
    {
      MatchShift(a + b, k, pat, i);
    }
  }

  /** A pass of `Replace` over `a + b` is a pass over `a` followed by a pass
      over `b` when no occurrence straddles the boundary. */
  lemma {:induction false} ReplaceAppend(a: string, b: string, pat: string, rep: string)
    requires |pat| > 0
    requires NoMatchAcross(a, b, pat)
    ensures Replace(a + b, pat, rep) == Replace(a, pat, rep) + Replace(b, pat, rep)
    decreases |a|
  {
    var s := a + b;
    if a == [] {
      assert s == b;
    } else if |s| < |pat| {
      assert Replace(b, pat, rep) == b;
    } else if s[..|pat|] == pat {
      assert MatchAt(s, pat, 0);
      assert |pat| <= |a|;
      assert a[..|pat|] == pat;
      assert s[|pat|..] == a[|pat|..] + b;
      NoMatchAcrossShift(a, b, pat, |pat|);
      ReplaceAppend(a[|pat|..], b, pat, rep);
      assert Replace(a, pat, rep) == rep + Replace(a[|pat|..], pat, rep);
    } else {
      assert s[1..] == a[1..] + b;
      NoMatchAcrossShift(a, b, pat, 1);
      ReplaceAppend(a[1..], b, pat, rep);
      if |a| >= |pat| {
        assert a[..|pat|] == s[..|pat|];
      }
      assert Replace(a, pat, rep) == [a[0]] + Replace(a[1..], pat, rep);
    }
  }

  /** `sep.join(parts)`. */
  function Join(parts: seq<string>, sep: string): string
    decreases |parts|
  {
    if |parts| == 0 then []
    else if |parts| == 1 then parts[0]
    else parts[0] + sep + Join(parts[1..], sep)
  }

  /** `s.split(sep)` for a non-empty separator: the pieces between the
      non-overlapping occurrences of `sep`, found left to right. */
  function Split(s: string, sep: string): (r: seq<string>)
    requires |sep| > 0
    ensures |r| >= 1
    decreases |s|
  {
    if |s| < |sep| then [s]
    else if s[..|sep|] == sep then [[]] + Split(s[|sep|..], sep)
    else
      var rest := Split(s[1..], sep);
      [[s[0]] + rest[0]] + rest[1..]
  }

  /** Joining the pieces of a split with the same separator gives back the text. */
  lemma {:induction false} JoinSplit(s: string, sep: string)
    requires |sep| > 0
    ensures Join(Split(s, sep), sep) == s
    decreases |s|
  {
    if |s| < |sep| {
    } else if s[..|sep|] == sep {
      JoinSplit(s[|sep|..], sep);
      var rest := Split(s[|sep|..], sep);
      assert Split(s, sep) == [[]] + rest;
      assert ([[]] + rest)[1..] == rest;
      assert s == s[..|sep|] + s[|sep|..];
    } else {
      JoinSplit(s[1..], sep);
      var rest := Split(s[1..], sep);
      var parts := [[s[0]] + rest[0]] + rest[1..];
      assert Split(s, sep) == parts;
      if |rest| == 1 {
        assert Join(parts, sep) == [s[0]] + rest[0];
      } else {
        assert parts[1..] == rest[1..];
        assert Join(parts, sep) == [s[0]] + (rest[0] + sep + Join(rest[1..], sep));
      }
      assert s == [s[0]] + s[1..];
    }
  }

  /** `replace` is `rep.join(s.split(pat))`: every non-overlapping
      occurrence found left to right is replaced, and nothing else changes. */
  lemma {:induction false} ReplaceIsJoinSplit(s: string, pat: string, rep: string)
    requires |pat| > 0
    ensures Replace(s, pat, rep) == Join(Split(s, pat), rep)
    decreases |s|
  {
    if |s| < |pat| {
    } else if s[..|pat|] == pat {
      ReplaceIsJoinSplit(s[|pat|..], pat, rep);
      var rest := Split(s[|pat|..], pat);
      assert Split(s, pat) == [[]] + rest;
      assert ([[]] + rest)[1..] == rest;
      assert Join([[]] + rest, rep) == [] + rep + Join(rest, rep);
    } else {
      ReplaceIsJoinSplit(s[1..], pat, rep);
      var rest := Split(s[1..], pat);
      var parts := [[s[0]] + rest[0]] + rest[1..];
      assert Split(s, pat) == parts;
      if |rest| == 1 {
        assert Join(parts, rep) == [s[0]] + rest[0];
      } else {
        assert parts[1..] == rest[1..];
        assert Join(parts, rep) == [s[0]] + (rest[0] + rep + Join(rest[1..], rep));
      }
    }
  }

  lemma {:induction false} SplitNoSep(p: string, c: char)
    requires c !in p
    ensures Split(p, [c]) == [p]
    decreases |p|
  {
    if p != [] {
      assert p[..1] != [c] by { assert p[..1][0] == p[0]; }
      SplitNoSep(p[1..], c);
      assert [p[0]] + p[1..] == p;
    }
  }

  lemma {:induction false} SplitPrefix(p: string, c: char, t: string)
    requires c !in p
    ensures Split(p + [c] + t, [c]) == [p] + Split(t, [c])
    decreases |p|
  {
    var s := p + [c] + t;
    if p == [] {
      assert s[..1] == [c];
      assert s[1..] == t;
    } else {
      assert s[..1] != [c] by { assert s[..1][0] == p[0]; }
      assert s[1..] == p[1..] + [c] + t;
      SplitPrefix(p[1..], c, t);
      assert [p[0]] + p[1..] == p;
    }
  }

  /** Splitting a join on a one-character separator gives back the parts,
      when no part contains the separator. */
  lemma {:induction false} SplitJoin(parts: seq<string>, c: char)
    requires |parts| >= 1
    requires forall i :: 0 <= i < |parts| ==> c !in parts[i]
    ensures Split(Join(parts, [c]), [c]) == parts
    decreases |parts|
  {
    if |parts| == 1 {
      SplitNoSep(parts[0], c);
    } else {
      SplitJoin(parts[1..], c);
      SplitPrefix(parts[0], c, Join(parts[1..], [c]));
      assert [parts[0]] + parts[1..] == parts;
    }
  }

  function StripLeft(s: string): (r: string)
    ensures |r| <= |s| && r == s[|s| - |r|..]
    ensures r == [] || !IsSpace(r[0])
    ensures forall i :: 0 <= i < |s| - |r| ==> IsSpace(s[i])
    decreases |s|
  {
    if s != [] && IsSpace(s[0]) then StripLeft(s[1..]) else s
  }

  function StripRight(s: string): (r: string)
    ensures |r| <= |s| && r == s[..|r|]
    ensures r == [] || !IsSpace(r[|r| - 1])
    ensures forall i :: |r| <= i < |s| ==> IsSpace(s[i])
    decreases |s|
  {
    if s != [] && IsSpace(s[|s| - 1]) then StripRight(s[..|s| - 1]) else s
  }

  /** The number of whitespace characters `s` starts with. */
  function LeadingSpaces(s: string): (k: nat)
    ensures k <= |s|
    ensures forall i :: 0 <= i < k ==> IsSpace(s[i])
    ensures k < |s| ==> !IsSpace(s[k])
    decreases |s|
  {
    if s != [] && IsSpace(s[0]) then 1 + LeadingSpaces(s[1..]) else 0
  }

  /** `s.strip()`: leading and trailing whitespace removed. The result is
      the piece of `s` after its leading whitespace, everything after the
      piece is whitespace, and the piece neither starts nor ends with
      whitespace. */
  function Strip(s: string): (r: string)
    ensures r == [] || (!IsSpace(r[0]) && !IsSpace(r[|r| - 1]))
    ensures LeadingSpaces(s) + |r| <= |s| && r == s[LeadingSpaces(s)..LeadingSpaces(s) + |r|]
    ensures forall i :: LeadingSpaces(s) + |r| <= i < |s| ==> IsSpace(s[i])
  {
    StripPiece(s, LeadingSpaces(s), StripLeft(s), StripRight(StripLeft(s)));
    StripRight(StripLeft(s))
  }

  lemma StripPiece(s: string, k: nat, l: string, r: string)
    requires k == LeadingSpaces(s) && l == StripLeft(s) && r == StripRight(l)
    ensures k + |r| <= |s| && r == s[k..k + |r|]
    ensures forall i :: k + |r| <= i < |s| ==> IsSpace(s[i])
  {
    StripLeftDropsLeading(s);
    assert l == s[k..];
    assert r == l[..|r|];
    assert s[k..][..|r|] == s[k..k + |r|];
    forall i | k + |r| <= i < |s| ensures IsSpace(s[i]) {
      assert s[i] == l[i - k];
      assert IsSpace(l[i - k]);
    }
  }

  lemma {:induction false} StripLeftDropsLeading(s: string)
    ensures StripLeft(s) == s[LeadingSpaces(s)..]
    decreases |s|
  {
    if s != [] && IsSpace(s[0]) {
      StripLeftDropsLeading(s[1..]);
    }
  }

  /** Stripping removes whitespace only: the result is a piece of `s` ... */
  lemma StripIsPiece(s: string)
    ensures Contains(s, Strip(s))
  {
    var l := StripLeft(s);
    var r := StripRight(l);
    var k := |s| - |l|;
    assert r == s[k..k + |r|];
    ContainsAt(s, r, k);
  }

  /** ... that keeps every other character of it. */
  lemma StripKeepsNonSpace(s: string)
    ensures forall i :: 0 <= i < |s| && !IsSpace(s[i]) ==> s[i] in Strip(s)
  {
    var l := StripLeft(s);
    var r := StripRight(l);
    var k := |s| - |l|;
    forall i | 0 <= i < |s| && !IsSpace(s[i]) ensures s[i] in r {
      assert k <= i < k + |r|;
      assert s[i] == r[i - k];
    }
  }

  /** The rest of `s` after its leading run of non-whitespace characters. */
  function SkipWord(s: string): (r: string)
    ensures |r| <= |s|
    ensures r == [] || IsSpace(r[0])
    decreases |s|
  {
    if s == [] || IsSpace(s[0]) then s else SkipWord(s[1..])
  }

  /** `len(s.split())`: the number of maximal runs of non-whitespace characters. */
  function WordCount(s: string): nat
    decreases |s|
  {
    if s == [] then 0
    else if IsSpace(s[0]) then WordCount(s[1..])
    else 1 + WordCount(SkipWord(s[1..]))
  }

  function DigitChar(d: nat): (c: char)
    requires d < 10
    ensures IsAsciiDigit(c) && c as int - '0' as int == d
  {
    ('0' as int + d) as char
  }

  function DigitValue(c: char): (d: nat)
    requires IsAsciiDigit(c)
    ensures d < 10 && DigitChar(d) == c
  {
    c as int - '0' as int
  }

  predicate AllDigits(s: string) {
    forall i :: 0 <= i < |s| ==> IsAsciiDigit(s[i])
  }

  /** `int(s)` for a string of ASCII digits (leading zeros allowed). */
  function DigitsValue(s: string): nat
    requires AllDigits(s)
    decreases |s|
  {
    if s == [] then 0 else DigitsValue(s[..|s| - 1]) * 10 + DigitValue(s[|s| - 1])
  }

  /** `str(n)` for a natural number: decimal digits, no leading zeros. */
  function NatToDecimal(n: nat): (r: string)
    ensures |r| >= 1 && AllDigits(r)
    ensures |r| > 1 ==> r[0] != '0'
    decreases n
  {
    if n < 10 then [DigitChar(n)] else NatToDecimal(n / 10) + [DigitChar(n % 10)]
  }

  /** Reading back the digits `str(n)` writes gives `n`. */
  lemma {:induction false} DecimalRoundTrip(n: nat)
    ensures DigitsValue(NatToDecimal(n)) == n
    decreases n
  {
    var r := NatToDecimal(n);
    if n >= 10 {
      DecimalRoundTrip(n / 10);
      assert r[..|r| - 1] == NatToDecimal(n / 10);
    }
  }

  /** Different numbers are written differently. */
  lemma DecimalInjective(m: nat, n: nat)
    requires NatToDecimal(m) == NatToDecimal(n)
    ensures m == n
  {
    DecimalRoundTrip(m);
    DecimalRoundTrip(n);
  }

  /** `str(i)` for any integer. */
  function IntToDecimal(i: int): string {
    if i < 0 then "-" + NatToDecimal(-i) else NatToDecimal(i)
  }
}

=== FILE: telegram_escape.dfy ===
/** Escaping for the "MarkdownV2" formatting option of the Telegram Bot API
    (telegram/formatters.py `escape`): every special character of the
    entity type is preceded by a backslash, one `str.replace` pass per
    special character, the backslash itself first. */
module MarkdownEscape {
  import opened Wrappers
  import opened Strings

  const Backslash: char := '\\'

  /** The three entity types the function accepts. */
  datatype Mode = Link | Code | Text

  datatype EscapeError = UnknownEntityType(entityType: string)

  function ModeOf(entityType: string): (r: Result<Mode, EscapeError>)
    ensures entityType == "link" <==> r == Ok(Link)
    ensures entityType == "code" <==> r == Ok(Code)
    ensures entityType == "text" <==> r == Ok(Text)
    ensures r.Err? ==> r.error == UnknownEntityType(entityType)
  {
    if entityType == "link" then Ok(Link)
    else if entityType == "code" then Ok(Code)
    else if entityType == "text" then Ok(Text)
    else Err(UnknownEntityType(entityType))
  }

  /** The special characters, in the order the source replaces them. */
  function Symbols(m: Mode): string {
    match m
    case Link => "\\)"
    case Code => "\\`"
    case Text => "\\_*[]()~`>#+-=|{}.!"
  }

  /** The same characters as a set. */
  function Special(m: Mode): set<char> {
    match m
    case Link => {'\\', ')'}
    case Code => {'\\', '`'}
    case Text => {'\\', '_', '*', '[', ']', '(', ')', '~', '`', '>', '#', '+', '-', '=', '|', '{', '}', '.', '!'}
  }

  /** The source's loop: each symbol in turn replaced by a backslash and itself. */
  function ReplaceEach(text: string, symbols: string): string
    decreases |symbols|
  {
    if symbols == [] then text
    else ReplaceEach(Replace(text, [symbols[0]], [Backslash, symbols[0]]), symbols[1..])
  }

  /** Escaping for an entity type known to be valid. */
  function EscapeAs(text: string, m: Mode): string {
    ReplaceEach(text, Symbols(m))
  }

  /** `escape(text, entity_type)`. */
  function Escape(text: string, entityType: string): Result<string, EscapeError> {
    var m :- ModeOf(entityType);
    Ok(EscapeAs(text, m))
  }

  // ---------------------------------------------------------------------
  // The character-wise reading of the replacement passes.

  /** One character, preceded by a backslash when it is special. */
  function EscapeChar(c: char, special: set<char>): string {
    if c in special then [Backslash, c] else [c]
  }

  /** Every character of `text` escaped on its own. */
  function EscapeEach(text: string, special: set<char>): string
    decreases |text|
  {
    if text == [] then [] else EscapeChar(text[0], special) + EscapeEach(text[1..], special)
  }

  function SetOf(s: string): set<char> {
    set c | c in s
  }

  predicate DistinctChars(s: string) {
    forall i, j :: 0 <= i < j < |s| ==> s[i] != s[j]
  }

  lemma {:induction false} EscapeEachNothing(text: string)
    ensures EscapeEach(text, {}) == text
    decreases |text|
  {
    if text != [] {
      EscapeEachNothing(text[1..]);
      assert [text[0]] + text[1..] == text;
    }
  }

  /** A one-character pattern never straddles two pieces of text. */
  lemma ReplaceCharAppend(a: string, b: string, c: char, rep: string)
    ensures Replace(a + b, [c], rep) == Replace(a, [c], rep) + Replace(b, [c], rep)
  {
    ReplaceAppend(a, b, [c], rep);
  }

  lemma ReplaceOne(x: char, c: char, rep: string)
    ensures Replace([x], [c], rep) == if x == c then rep else [x]
  {
    assert [x][1..] == [];
  }

  lemma ReplaceTwo(x: char, y: char, c: char, rep: string)
    requires x != c && y != c
    ensures Replace([x, y], [c], rep) == [x, y]
  {
  }

  /** One more replacement pass escapes one more character. */
  lemma {:induction false} ReplaceEscapesOneMore(text: string, special: set<char>, c: char)
    requires c !in special
    requires special == {} || Backslash in special
    ensures Replace(EscapeEach(text, special), [c], [Backslash, c]) == EscapeEach(text, special + {c})
    decreases |text|
  {
    if text == [] {
    } else {
      var x := text[0];
      ReplaceEscapesOneMore(text[1..], special, c);
      ReplaceCharAppend(EscapeChar(x, special), EscapeEach(text[1..], special), c, [Backslash, c]);
      if x in special {
        ReplaceTwo(Backslash, x, c, [Backslash, c]);
      } else {
        ReplaceOne(x, c, [Backslash, c]);
      }
    }
  }

  /** The passes over distinct symbols, the backslash first, escape exactly
      the symbols, each character independently. */
  lemma {:induction false} ReplaceEachEscapes(text: string, special: set<char>, symbols: string)
    requires DistinctChars(symbols)
    requires forall i :: 0 <= i < |symbols| ==> symbols[i] !in special
    requires Backslash in special || (special == {} && (symbols != [] ==> symbols[0] == Backslash))
    ensures ReplaceEach(EscapeEach(text, special), symbols) == EscapeEach(text, special + SetOf(symbols))
    decreases |symbols|
  {
    if symbols == [] {
      assert SetOf(symbols) == {};
      assert special + {} == special;
    } else {
      var c := symbols[0];
      ReplaceEscapesOneMore(text, special, c);
      var rest := symbols[1..];
      assert forall i :: 0 <= i < |rest| ==> rest[i] == symbols[i + 1];
      ReplaceEachEscapes(text, special + {c}, rest);
      assert SetOf(symbols) == {c} + SetOf(rest) by {
        forall x | x in SetOf(symbols) ensures x in {c} + SetOf(rest) {
          var i :| 0 <= i < |symbols| && symbols[i] == x;
          if i > 0 { assert rest[i - 1] == x; }
        }
        forall x | x in SetOf(rest) ensures x in SetOf(symbols) {
          var i :| 0 <= i < |rest| && rest[i] == x;
          assert symbols[i + 1] == x;
        }
      }
      assert special + {c} + SetOf(rest) == special + SetOf(symbols);
    }
  }

  lemma SymbolsNoRepeat(m: Mode)
    ensures DistinctChars(Symbols(m))
  {
    var s := Symbols(m);
    forall i, j | 0 <= i < j < |s| ensures s[i] != s[j] {
      assert s[i] as int != s[j] as int;
    }
  }

  lemma SymbolsSet(m: Mode)
    ensures SetOf(Symbols(m)) == Special(m)
  {
    var s := Symbols(m);
    forall i | 0 <= i < |s| ensures s[i] in Special(m) {
    }
    assert forall x :: x in Special(m) ==> x in s;
  }

  lemma SymbolsDistinct(m: Mode)
    ensures DistinctChars(Symbols(m))
    ensures Symbols(m)[0] == Backslash
    ensures SetOf(Symbols(m)) == Special(m)
  {
    SymbolsNoRepeat(m);
    SymbolsSet(m);
  }

  /** `escape` with a valid entity type puts a backslash before every special
      character of that type and leaves every other character as it is; any
      other entity type is an error. */
  lemma EscapeMeaning(text: string, entityType: string)
    ensures Escape(text, entityType).Ok? <==> entityType in ["link", "code", "text"]
    ensures Escape(text, entityType).Err? ==> Escape(text, entityType).error == UnknownEntityType(entityType)
    ensures Escape(text, entityType).Ok? ==>
      Escape(text, entityType).value == EscapeEach(text, Special(ModeOf(entityType).value))
  {
    if ModeOf(entityType).Ok? {
      EscapeAsEscapesEach(text, ModeOf(entityType).value);
    }
  }

  /** The passes over distinct symbols, the backslash first, applied to
      plain text escape exactly those symbols. */
  lemma ReplaceEachFromPlain(text: string, symbols: string)
    requires DistinctChars(symbols)
    requires symbols != [] ==> symbols[0] == Backslash
    ensures ReplaceEach(text, symbols) == EscapeEach(text, SetOf(symbols))
  {
    EscapeEachNothing(text);
    ReplaceEachEscapes(text, {}, symbols);
    assert {} + SetOf(symbols) == SetOf(symbols);
  }

  lemma EscapeAsEscapesEach(text: string, m: Mode)
    ensures EscapeAs(text, m) == EscapeEach(text, Special(m))
  {
    var symbols := Symbols(m);
    SymbolsDistinct(m);
    ReplaceEachFromPlain(text, symbols);
  }

  // ---------------------------------------------------------------------
  // Consequences.

  /** Drops each escaping backslash. */
  function Unescape(s: string): string
    decreases |s|
  {
    if s == [] then []
    else if s[0] == Backslash && |s| >= 2 then [s[1]] + Unescape(s[2..])
    else [s[0]] + Unescape(s[1..])
  }

  /** Since the backslash is itself escaped, dropping the escaping
      backslashes gives the text back. */
  lemma {:induction false} UnescapeEscapeEach(text: string, special: set<char>)
    requires Backslash in special
    ensures Unescape(EscapeEach(text, special)) == text
    decreases |text|
  {
    if text != [] {
      var x := text[0];
      var rest := EscapeEach(text[1..], special);
      UnescapeEscapeEach(text[1..], special);
      if x in special {
        var s := [Backslash, x] + rest;
        assert s[2..] == rest;
      } else {
        var s := [x] + rest;
        assert s[1..] == rest;
      }
      assert [x] + text[1..] == text;
    }
  }

  lemma UnescapeEscape(text: string, m: Mode)
    ensures Unescape(EscapeAs(text, m)) == text
  {
    EscapeAsEscapesEach(text, m);
    UnescapeEscapeEach(text, Special(m));
  }

  /** How many characters of `text` are in `special`. */
  function CountIn(text: string, special: set<char>): nat
    decreases |text|
  {
    if text == [] then 0 else (if text[0] in special then 1 else 0) + CountIn(text[1..], special)
  }

  lemma {:induction false} EscapeEachLength(text: string, special: set<char>)
    ensures |EscapeEach(text, special)| == |text| + CountIn(text, special)
    decreases |text|
  {
    if text != [] {
      EscapeEachLength(text[1..], special);
    }
  }

  /** The escaped text is one character longer per special character, and
      text without special characters is returned as it is. */
  lemma EscapeLength(text: string, m: Mode)
    ensures |EscapeAs(text, m)| == |text| + CountIn(text, Special(m))
    ensures (forall i :: 0 <= i < |text| ==> text[i] !in Special(m)) ==> EscapeAs(text, m) == text
  {
    EscapeAsEscapesEach(text, m);
    EscapeEachLength(text, Special(m));
    if forall i :: 0 <= i < |text| ==> text[i] !in Special(m) {
      EscapeEachPlain(text, Special(m));
    }
  }

  lemma {:induction false} EscapeEachPlain(text: string, special: set<char>)
    requires forall i :: 0 <= i < |text| ==> text[i] !in special
    ensures EscapeEach(text, special) == text
    decreases |text|
  {
    if text != [] {
      assert forall i :: 0 <= i < |text[1..]| ==> text[1..][i] == text[i + 1];
      EscapeEachPlain(text[1..], special);
      assert [text[0]] + text[1..] == text;
    }
  }

  lemma {:induction false} EscapeEachAppend(a: string, b: string, special: set<char>)
    ensures EscapeEach(a + b, special) == EscapeEach(a, special) + EscapeEach(b, special)
    decreases |a|
  {
    if a != [] {
      assert (a + b)[1..] == a[1..] + b;
      EscapeEachAppend(a[1..], b, special);
    } else {
      assert a + b == b;
    }
  }
}

=== FILE: telegram_formatters.dfy ===
/** Message text for a recipe (telegram/formatters.py): an ingredient group
    as a header and a list of ` \- ` lines, the full recipe message of five
    sections separated by blank lines, and the one-line search result. */
module Formatters {
  import opened Strings
  import opened RecipeModels
  import opened MarkdownEscape
  import Seqs

  const BlankLine := "\n\n"
  const DoubleBlank := "\n\n\n\n"

  function Esc(text: string): string { EscapeAs(text, Text) }

  function IngredientLine(ingredient: string): string {
    " \\- " + Esc(ingredient)
  }

  /** One ` \- ` line per ingredient, in order, from which unescaping gives
      the ingredient back. */
  function IngredientLines(ingredients: seq<string>): (r: seq<string>)
    ensures |r| == |ingredients|
    ensures forall k :: 0 <= k < |r| ==> StartsWith(r[k], " \\- ") && Unescape(r[k][4..]) == ingredients[k]
  {
    var r := seq(|ingredients|, k requires 0 <= k < |ingredients| => IngredientLine(ingredients[k]));
    IngredientLinesUnescape(ingredients, r);
    r
  }

  lemma IngredientLinesUnescape(ingredients: seq<string>, r: seq<string>)
    requires |r| == |ingredients|
    requires forall k :: 0 <= k < |r| ==> r[k] == IngredientLine(ingredients[k])
    ensures forall k :: 0 <= k < |r| ==> StartsWith(r[k], " \\- ") && Unescape(r[k][4..]) == ingredients[k]
  {
    forall k | 0 <= k < |r| ensures StartsWith(r[k], " \\- ") && Unescape(r[k][4..]) == ingredients[k] {
      assert r[k][4..] == Esc(ingredients[k]);
      UnescapeEscape(ingredients[k], Text);
    }
  }

  /** `_format_ingredient_group`: a bold `title:` line when there is a title,
      then one line per ingredient. */
  function FormatIngredientGroup(g: IngredientGroup): string {
    var header := if g.title != [] then "*" + Esc(g.title) + ":*\n" else "";
    header + Join(IngredientLines(g.ingredients), "\n")
  }

  /** Escaping adds no character outside the text and the special set. */
  lemma {:induction false} EscapeEachKeepsAbsent(text: string, special: set<char>, c: char)
    requires c !in text && c != Backslash
    ensures c !in EscapeEach(text, special)
    decreases |text|
  {
    if text != [] {
      assert c !in text[1..];
      EscapeEachKeepsAbsent(text[1..], special, c);
    }
  }

  lemma EscKeepsNewlineOut(text: string)
    requires '\n' !in text
    ensures '\n' !in Esc(text)
  {
    EscapeAsEscapesEach(text, Text);
    EscapeEachKeepsAbsent(text, Special(Text), '\n');
  }

  /** When no ingredient has a line break of its own, splitting the group's
      text at line breaks gives, after the header when the title is
      non-empty, one ` \- ` line per ingredient, in order, from which
      unescaping gives the ingredient back. */
  lemma IngredientGroupLines(g: IngredientGroup)
    requires g.ingredients != []
    requires forall k :: 0 <= k < |g.ingredients| ==> '\n' !in g.ingredients[k]
    ensures var body := Join(IngredientLines(g.ingredients), "\n");
      && FormatIngredientGroup(g) == (if g.title != [] then "*" + Esc(g.title) + ":*\n" else "") + body
      && Split(body, "\n") == IngredientLines(g.ingredients)
      && forall k :: 0 <= k < |g.ingredients| ==>
           StartsWith(Split(body, "\n")[k], " \\- ") && Unescape(Split(body, "\n")[k][4..]) == g.ingredients[k]
  {
    var lines := IngredientLines(g.ingredients);
    forall k | 0 <= k < |lines| ensures '\n' !in lines[k] {
      EscKeepsNewlineOut(g.ingredients[k]);
    }
    SplitJoin(lines, '\n');
  }

  // ---------------------------------------------------------------------
  // The recipe message.

  /** The final pass of `recipe_to_message`: one left-to-right replacement
      of four line breaks by two. */
  function Collapse(s: string): string {
    Replace(s, DoubleBlank, BlankLine)
  }

  function HeaderLine(r: Recipe): string {
    "*[" + Esc(r.title) + "](" + EscapeAs(r.url, Link) + ")*"
  }

  function DescriptionText(r: Recipe): string {
    Esc(Replace(r.description, "\n", BlankLine))
  }

  function IngredientsText(r: Recipe): string {
    Join(seq(|r.ingredientGroups|, k requires 0 <= k < |r.ingredientGroups| => FormatIngredientGroup(r.ingredientGroups[k])), BlankLine)
  }

  function AuthorItems(authors: seq<Author>): seq<string> {
    seq(|authors|, k requires 0 <= k < |authors| => "_" + Esc(authors[k].Str()) + "_")
  }

  /** The author line as the source computes it: `recipe.authors` is a
      related manager, which is always true, so the `By ` prefix is added
      even when the recipe has no authors. */
  function AuthorsLineAsWritten(authors: seq<Author>): string {
    "By " + Join(AuthorItems(authors), ", ")
  }

  /** The author line as intended: empty when there are no authors. */
  function AuthorsLine(authors: seq<Author>): string {
    if authors != [] then "By " + Join(AuthorItems(authors), ", ") else ""
  }

  /** The tag line: each tag as an escaped `#` and its name or id. The
      source's test of `recipe.tags` is always true too, but joining no tags
      gives the empty line either way. */
  function TagsLine(tags: seq<Tag>): string {
    Join(seq(|tags|, k requires 0 <= k < |tags| => "\\#" + Esc(tags[k].Str())), " ")
  }

  function Sections(e: Entry, authorsLine: string): seq<string> {
    [HeaderLine(e.recipe), DescriptionText(e.recipe), IngredientsText(e.recipe), authorsLine, TagsLine(e.tags)]
  }

  /** `recipe_to_message` as written. */
  function RecipeToMessageAsWritten(e: Entry): string {
    Collapse(Join(Sections(e, AuthorsLineAsWritten(e.authors)), BlankLine))
  }

  /** `recipe_to_message` with the author line left empty for a recipe
      without authors, as telegram/message.py does it. */
  function RecipeToMessage(e: Entry): string {
    Collapse(Join(Sections(e, AuthorsLine(e.authors)), BlankLine))
  }

  lemma JoinFive(a: string, b: string, c: string, d: string, f: string)
    ensures Join([a, b, c, d, f], BlankLine) == a + BlankLine + b + BlankLine + c + BlankLine + d + BlankLine + f
  {
    var s := [a, b, c, d, f];
    assert s[1..] == [b, c, d, f];
    assert s[1..][1..] == [c, d, f];
    assert s[1..][1..][1..] == [d, f];
    assert s[1..][1..][1..][1..] == [f];
    var j4 := d + BlankLine + f;
    var j3 := c + BlankLine + j4;
    var j2 := b + BlankLine + j3;
    assert Join([f], BlankLine) == f;
    assert Join([d, f], BlankLine) == j4;
    assert Join([c, d, f], BlankLine) == j3;
    assert Join([b, c, d, f], BlankLine) == j2;
    assert Join(s, BlankLine) == a + BlankLine + j2;
    Seqs.AppendAssoc(a + BlankLine, b + BlankLine, j3);
    Seqs.AppendAssoc(a + BlankLine + b + BlankLine, c + BlankLine, j4);
    Seqs.AppendAssoc(a + BlankLine + b + BlankLine + c + BlankLine, d + BlankLine, f);
  }

  predicate EndsOutsideLine(a: string) { a == [] || a[|a| - 1] != '\n' }
  predicate StartsOutsideLine(b: string) { b == [] || b[0] != '\n' }

  /** A match of the four line breaks cannot start in `a` and reach past it
      when `a` does not end with a line break. */
  lemma NoMatchAfterText(a: string, b: string)
    requires EndsOutsideLine(a)
    ensures NoMatchAcross(a, b, DoubleBlank)
  {
    forall i | 0 <= i < |a| < i + |DoubleBlank| ensures !MatchAt(a + b, DoubleBlank, i) {
      if i + 4 <= |a + b| {
        assert (a + b)[i..i + 4][|a| - 1 - i] == a[|a| - 1];
        assert DoubleBlank[|a| - 1 - i] == '\n';
      }
    }
  }

  /** Nor can it start in a run of line breaks and reach text that does
      not start with one. */
  lemma NoMatchBeforeText(x: string, b: string)
    requires forall k :: 0 <= k < |x| ==> x[k] == '\n'
    requires StartsOutsideLine(b)
    ensures NoMatchAcross(x, b, DoubleBlank)
  {
    forall i | 0 <= i < |x| < i + |DoubleBlank| ensures !MatchAt(x + b, DoubleBlank, i) {
      if i + 4 <= |x + b| {
        assert (x + b)[i..i + 4][|x| - i] == b[0];
        assert DoubleBlank[|x| - i] == '\n';
      }
    }
  }

  lemma CollapseBlank()
    ensures Collapse(BlankLine) == BlankLine
    ensures Collapse(DoubleBlank) == BlankLine
    ensures Collapse(DoubleBlank + BlankLine) == DoubleBlank
  {
    assert DoubleBlank[4..] == [];
    var x := DoubleBlank + BlankLine;
    assert x[..4] == DoubleBlank && x[4..] == BlankLine;
  }

  /** An empty section between two others, which leaves four line breaks
      in a row, collapses into one blank line. */
  lemma CollapseOneEmpty(a: string, b: string)
    requires EndsOutsideLine(a) && StartsOutsideLine(b)
    ensures Collapse(a + DoubleBlank + b) == Collapse(a) + BlankLine + Collapse(b)
  {
    var x := DoubleBlank;
    Seqs.AppendAssoc(a, x, b);
    NoMatchAfterText(a, x + b);
    NoMatchBeforeText(x, b);
    calc {
      Collapse(a + x + b);
      Collapse(a + (x + b));
      { ReplaceAppend(a, x + b, DoubleBlank, BlankLine); }
      Collapse(a) + Collapse(x + b);
      { ReplaceAppend(x, b, DoubleBlank, BlankLine); }
      Collapse(a) + (Collapse(x) + Collapse(b));
      { CollapseBlank(); }
      Collapse(a) + BlankLine + Collapse(b);
    }
  }

  /** Two adjacent empty sections, six line breaks in a row, leave two blank
      lines: the single pass does not look at its own output again. */
  lemma CollapseTwoEmpty(a: string, b: string)
    requires EndsOutsideLine(a) && StartsOutsideLine(b)
    ensures Collapse(a + (DoubleBlank + BlankLine) + b) == Collapse(a) + DoubleBlank + Collapse(b)
  {
    var x := DoubleBlank + BlankLine;
    Seqs.AppendAssoc(a, x, b);
    NoMatchAfterText(a, x + b);
    assert forall k :: 0 <= k < |x| ==> x[k] == '\n';
    NoMatchBeforeText(x, b);
    calc {
      Collapse(a + x + b);
      Collapse(a + (x + b));
      { ReplaceAppend(a, x + b, DoubleBlank, BlankLine); }
      Collapse(a) + Collapse(x + b);
      { ReplaceAppend(x, b, DoubleBlank, BlankLine); }
      Collapse(a) + (Collapse(x) + Collapse(b));
      { CollapseBlank(); }
      Collapse(a) + DoubleBlank + Collapse(b);
    }
  }

  /** The first three sections and their separators. */
  function Opening(r: Recipe): string {
    HeaderLine(r) + BlankLine + DescriptionText(r) + BlankLine + IngredientsText(r)
  }

  lemma OpeningText(h: string, d: string, g: string)
    requires g != [] && EndsOutsideLine(g)
    ensures EndsOutsideLine(h + BlankLine + d + BlankLine + g)
  {
    var a := h + BlankLine + d + BlankLine + g;
    assert a[|a| - 1] == g[|g| - 1];
  }

  lemma JoinWithEmptyFourth(h: string, d: string, g: string, t: string)
    requires g != [] && EndsOutsideLine(g) && StartsOutsideLine(t)
    ensures Collapse(Join([h, d, g, "", t], BlankLine)) == Collapse(h + BlankLine + d + BlankLine + g) + BlankLine + Collapse(t)
  {
    var a := h + BlankLine + d + BlankLine + g;
    JoinFive(h, d, g, "", t);
    assert a + BlankLine + "" + BlankLine + t == a + DoubleBlank + t;
    OpeningText(h, d, g);
    CollapseOneEmpty(a, t);
  }

  lemma ReplaceByLine()
    ensures Replace("\n\nBy ", DoubleBlank, BlankLine) == "\n\nBy "
  {
    var s := "\n\nBy ";
    assert s[..4] != DoubleBlank by { assert s[..4][2] == 'B'; }
    assert s[1..] == "\nBy ";
    assert s[1..][..4] != DoubleBlank by { assert s[1..][..4][1] == 'B'; }
    assert s[1..][1..] == "By ";
  }

  lemma JoinWithByFourth(h: string, d: string, g: string, t: string)
    requires g != [] && EndsOutsideLine(g)
    ensures Collapse(Join([h, d, g, "By ", t], BlankLine)) == Collapse(h + BlankLine + d + BlankLine + g) + "\n\nBy " + Collapse(BlankLine + t)
  {
    var a := h + BlankLine + d + BlankLine + g;
    var y := "\n\nBy ";
    JoinFive(h, d, g, "By ", t);
    assert a + BlankLine + "By " + BlankLine + t == a + (y + (BlankLine + t));
    OpeningText(h, d, g);
    NoMatchAfterText(a, y + (BlankLine + t));
    ReplaceAppend(a, y + (BlankLine + t), DoubleBlank, BlankLine);
    NoMatchAfterText(y, BlankLine + t);
    ReplaceAppend(y, BlankLine + t, DoubleBlank, BlankLine);
    ReplaceByLine();
  }

  /** A recipe without authors and with ingredients: the message as
      intended has a single blank line where the author line would be. */
  lemma RecipeToMessageWithoutAuthors(e: Entry)
    requires e.authors == []
    requires IngredientsText(e.recipe) != [] && EndsOutsideLine(IngredientsText(e.recipe))
    requires StartsOutsideLine(TagsLine(e.tags))
    ensures RecipeToMessage(e) == Collapse(Opening(e.recipe)) + BlankLine + Collapse(TagsLine(e.tags))
  {
    var r := e.recipe;
    assert Sections(e, AuthorsLine(e.authors)) == [HeaderLine(r), DescriptionText(r), IngredientsText(r), "", TagsLine(e.tags)];
    JoinWithEmptyFourth(HeaderLine(r), DescriptionText(r), IngredientsText(r), TagsLine(e.tags));
  }

  /** The source as written: a recipe without authors still gets a `By `
      line of its own between the ingredients and the tags. */
  lemma AsWrittenKeepsByLine(e: Entry)
    requires e.authors == []
    requires IngredientsText(e.recipe) != [] && EndsOutsideLine(IngredientsText(e.recipe))
    ensures RecipeToMessageAsWritten(e) == Collapse(Opening(e.recipe)) + "\n\nBy " + Collapse(BlankLine + TagsLine(e.tags))
  {
    var r := e.recipe;
    assert AuthorItems([]) == [];
    assert AuthorsLineAsWritten(e.authors) == "By ";
    assert Sections(e, AuthorsLineAsWritten(e.authors)) == [HeaderLine(r), DescriptionText(r), IngredientsText(r), "By ", TagsLine(e.tags)];
    JoinWithByFourth(HeaderLine(r), DescriptionText(r), IngredientsText(r), TagsLine(e.tags));
  }

  /** `recipe_to_search_result`: the linked title, then the rating out of
      5.0 and the review count in escaped parentheses. `rating` stands for
      the one-decimal rendering `f"{x:.1f}"` of a float. */
  function RecipeToSearchResult(r: Recipe, rating: real -> string): string {
    "[" + Esc(r.title) + "](" + EscapeAs(r.url, Link) + ") \\(" + Esc(rating(r.rating) + "/5.0")
      + ", " + Esc(IntToDecimal(r.reviewsCount)) + " reviews\\)"
  }

  /** The pieces of a search result unescape to the title, the url and the
      review count. */
  lemma SearchResultParts(r: Recipe, rating: real -> string)
    ensures var t := Esc(r.title);
      var u := EscapeAs(r.url, Link);
      var n := Esc(IntToDecimal(r.reviewsCount));
      && RecipeToSearchResult(r, rating) == "[" + t + "](" + u + ") \\(" + Esc(rating(r.rating) + "/5.0") + ", " + n + " reviews\\)"
      && Unescape(t) == r.title && Unescape(u) == r.url && Unescape(n) == IntToDecimal(r.reviewsCount)
  {
    UnescapeEscape(r.title, Text);
    UnescapeEscape(r.url, Link);
    UnescapeEscape(IntToDecimal(r.reviewsCount), Text);
  }
}

=== FILE: telegram_message.dfy ===
/** The bot's messages (telegram/message.py): a recipe card with a like and
    a delete button, and a numbered result list with one button per result,
    laid out in rows of at most five, and a navigation row.
    The escaping function comes from telegram/utils.py, which is not part of
    this model: it is a parameter, and the properties that need it to keep
    text on one line say so. */
module Message {
  import opened Strings
  import opened RecipeModels
  import opened MarkdownEscape
  import Chunking
  import Seqs
  import Formatters

  /** `escape(text, entity_type)` with the entity type already checked. */
  type Escaper = (string, Mode) -> string

  /** An inline button: its label and its callback data. */
  datatype Button = Button(text: string, callback: string)

  /** The rows of an inline keyboard. */
  type Keyboard = seq<seq<Button>>

  const Heart := "\U{2764}"
  const Cross := "\U{274C}"
  const LeftArrow := "\U{2B05}"
  const RightArrow := "\U{27A1}"

  /** The escaper never produces a line break from text without one. */
  ghost predicate KeepsLines(esc: Escaper) {
    forall s, m :: '\n' !in s ==> '\n' !in esc(s, m)
  }

  /** The escaping of telegram/formatters.py keeps text on one line. */
  lemma EscapeAsKeepsLines()
    ensures KeepsLines((s, m) => EscapeAs(s, m))
  {
    forall s, m | '\n' !in s ensures '\n' !in EscapeAs(s, m) {
      EscapeAsEscapesEach(s, m);
      EscapeEachNotNewline(s, Special(m));
    }
  }

  lemma {:induction false} EscapeEachNotNewline(text: string, special: set<char>)
    requires '\n' !in text
    ensures '\n' !in EscapeEach(text, special)
    decreases |text|
  {
    if text != [] {
      assert '\n' !in text[1..];
      EscapeEachNotNewline(text[1..], special);
    }
  }

  /** `namespace/item/action` callback data. */
  function Callback(namespace: string, item: string, action: string): string {
    namespace + "/" + item + "/" + action
  }

  /** `prefix/action` callback data. */
  function ActionOf(prefix: string, action: string): string {
    prefix + "/" + action
  }

  /** Callback data splits back into its three parts when none holds a slash. */
  lemma CallbackParts(namespace: string, item: string, action: string)
    requires '/' !in namespace && '/' !in item && '/' !in action
    ensures Split(Callback(namespace, item, action), "/") == [namespace, item, action]
  {
    var s := Callback(namespace, item, action);
    assert s == namespace + ['/'] + (item + ['/'] + action);
    SplitPrefix(namespace, '/', item + ['/'] + action);
    SplitPrefix(item, '/', action);
    SplitNoSep(action, '/');
  }

  // ---------------------------------------------------------------------
  // Ingredient groups.

  function IngredientLines(ingredients: seq<string>, esc: Escaper): (r: seq<string>)
    ensures |r| == |ingredients|
  {
    seq(|ingredients|, k requires 0 <= k < |ingredients| => " \\- " + esc(ingredients[k], Text))
  }

  function GroupHeader(title: string, esc: Escaper): string {
    "*" + esc(Capitalize(title), Text) + ":*"
  }

  /** `_format_ingredient_group`: a bold, capitalised `title:` line when the
      title is non-empty, then one ` \- ` line per ingredient. */
  function FormatIngredientGroup(g: IngredientGroup, esc: Escaper): string {
    var header := if g.title != [] then GroupHeader(g.title, esc) + "\n" else "";
    header + Join(IngredientLines(g.ingredients, esc), "\n")
  }

  /** When the escaper keeps text on one line and no ingredient holds a line
      break, the group's lines are the header, present exactly when the title
      is non-empty, then one line per ingredient in order, each ` \- ` and
      the escaped ingredient. */
  lemma IngredientGroupLines(g: IngredientGroup, esc: Escaper)
    requires KeepsLines(esc)
    requires g.ingredients != []
    requires '\n' !in g.title
    requires forall k :: 0 <= k < |g.ingredients| ==> '\n' !in g.ingredients[k]
    ensures var lines := Split(FormatIngredientGroup(g, esc), "\n");
      var h := if g.title != [] then 1 else 0;
      && |lines| == h + |g.ingredients|
      && (g.title != [] ==> lines[0] == "*" + esc(Capitalize(g.title), Text) + ":*")
      && forall k :: 0 <= k < |g.ingredients| ==> lines[h + k] == " \\- " + esc(g.ingredients[k], Text)
  {
    var lines := IngredientLines(g.ingredients, esc);
    forall k | 0 <= k < |lines| ensures '\n' !in lines[k] {
      assert '\n' !in esc(g.ingredients[k], Text);
    }
    var body := Join(lines, "\n");
    SplitJoin(lines, '\n');
    if g.title != [] {
      var header := GroupHeader(g.title, esc);
      CapitalizeKeepsOut(g.title, '\n');
      assert '\n' !in esc(Capitalize(g.title), Text);
      assert '\n' !in header;
      assert FormatIngredientGroup(g, esc) == header + ['\n'] + body;
      SplitPrefix(header, '\n', body);
    } else {
      assert FormatIngredientGroup(g, esc) == body;
    }
  }

  lemma CapitalizeKeepsOut(s: string, c: char)
    requires c !in s && (c == Upper(c)) && (c == Lower(c))
    ensures c !in Capitalize(s)
  {
    var r := Capitalize(s);
    forall i | 0 <= i < |r| ensures r[i] != c {
      if i == 0 {
        assert r[0] == Upper(s[0]);
      } else {
        assert r[i] == Lower(s[i]);
      }
    }
  }

  // ---------------------------------------------------------------------
  // One result of a list.

  function AuthorNames(authors: seq<Author>, esc: Escaper): string {
    Join(seq(|authors|, k requires 0 <= k < |authors| => "_" + esc(authors[k].Str(), Text) + "_"), ", ")
  }

  /** `_recipe_to_list_item_str`: the linked title, ` by ` and the authors in
      italics when there are any, then the rating and the review count.
      `rating` stands for the one-decimal rendering `f"{x:.1f}"`. */
  function ListItem(e: Entry, esc: Escaper, rating: real -> string): string {
    var r := e.recipe;
    var link := "[" + esc(r.title, Text) + "](" + esc(r.url, Link) + ")";
    var stats := " \\(" + esc(rating(r.rating) + "/5.0", Text) + ", " + esc(IntToDecimal(r.reviewsCount), Text) + " reviews\\)";
    var authorsStr := if e.authors != [] then AuthorNames(e.authors, esc) else "";
    if authorsStr != [] then link + " by " + authorsStr + stats else link + stats
  }

  /** A join of non-empty items is non-empty. */
  lemma JoinNonEmpty(parts: seq<string>, sep: string)
    requires parts != [] && parts[0] != []
    ensures Join(parts, sep) != []
  {
  }

  /** The ` by ` part is there exactly when the recipe has authors, and holds
      each author's name, or its id when the name is missing or empty. */
  lemma ListItemAuthors(e: Entry, esc: Escaper, rating: real -> string)
    ensures var r := e.recipe;
      var link := "[" + esc(r.title, Text) + "](" + esc(r.url, Link) + ")";
      var stats := " \\(" + esc(rating(r.rating) + "/5.0", Text) + ", " + esc(IntToDecimal(r.reviewsCount), Text) + " reviews\\)";
      && (e.authors == [] ==> ListItem(e, esc, rating) == link + stats)
      && (e.authors != [] ==> ListItem(e, esc, rating) == link + " by " + AuthorNames(e.authors, esc) + stats)
    ensures forall k :: 0 <= k < |e.authors| ==>
      e.authors[k].Str() == (if e.authors[k].name.Some? && e.authors[k].name.value != [] then e.authors[k].name.value else e.authors[k].id)
  {
    if e.authors != [] {
      var items := seq(|e.authors|, k requires 0 <= k < |e.authors| => "_" + esc(e.authors[k].Str(), Text) + "_");
      JoinNonEmpty(items, ", ");
    }
  }

  // ---------------------------------------------------------------------
  // The recipe card.

  function RecipeHeader(r: Recipe, esc: Escaper): string {
    "*[" + esc(r.title, Text) + "](" + esc(r.url, Link) + ")*"
  }

  function RecipeDescription(r: Recipe, esc: Escaper): string {
    esc(Replace(r.description, "\n", "\n\n"), Text)
  }

  function RecipeIngredients(r: Recipe, esc: Escaper): string {
    Join(seq(|r.ingredientGroups|, k requires 0 <= k < |r.ingredientGroups| => FormatIngredientGroup(r.ingredientGroups[k], esc)), "\n\n")
  }

  function AuthorsLine(authors: seq<Author>, esc: Escaper): string {
    if authors != [] then "By " + AuthorNames(authors, esc) else ""
  }

  function TagItems(tags: seq<Tag>, esc: Escaper): (r: seq<string>)
    ensures |r| == |tags|
  {
    seq(|tags|, k requires 0 <= k < |tags| => "\\#" + esc(tags[k].Str(), Text))
  }

  function TagsLine(tags: seq<Tag>, esc: Escaper): string {
    if tags != [] then Join(TagItems(tags, esc), " ") else ""
  }

  /** The five sections joined by blank lines, then one pass turning four
      line breaks in a row into two. */
  function RecipeText(e: Entry, esc: Escaper): string {
    var r := e.recipe;
    var sections := [RecipeHeader(r, esc), RecipeDescription(r, esc), RecipeIngredients(r, esc),
                     AuthorsLine(e.authors, esc), TagsLine(e.tags, esc)];
    Replace(Join(sections, "\n\n"), "\n\n\n\n", "\n\n")
  }

  /** `format_recipe_msg`: the card's text and its one row of buttons. */
  function FormatRecipeMsg(e: Entry, esc: Escaper): (string, Keyboard) {
    var id := e.recipe.id;
    (RecipeText(e, esc), [[Button(Heart, Callback("recipe", id, "like")), Button(Cross, Callback("recipe", id, "delete"))]])
  }

  /** The card has exactly one row of two buttons, liking and deleting the
      recipe, whose callback data split back into `recipe`, the id and the
      action. */
  lemma RecipeMsgButtons(e: Entry, esc: Escaper)
    requires '/' !in e.recipe.id
    ensures var kb := FormatRecipeMsg(e, esc).1;
      && |kb| == 1 && |kb[0]| == 2
      && kb[0][0].text == Heart && Split(kb[0][0].callback, "/") == ["recipe", e.recipe.id, "like"]
      && kb[0][1].text == Cross && Split(kb[0][1].callback, "/") == ["recipe", e.recipe.id, "delete"]
  {
    CallbackParts("recipe", e.recipe.id, "like");
    CallbackParts("recipe", e.recipe.id, "delete");
  }

  /** The author line is empty exactly when there are no authors and
      otherwise starts with `By `; the tag line is empty when there are no
      tags and otherwise is the tags, each an escaped `#` and its name or
      id, separated by spaces. */
  lemma RecipeMsgLines(e: Entry, esc: Escaper)
    ensures AuthorsLine(e.authors, esc) == [] <==> e.authors == []
    ensures e.authors != [] ==> StartsWith(AuthorsLine(e.authors, esc), "By ")
    ensures e.tags == [] ==> TagsLine(e.tags, esc) == []
    ensures e.tags != [] && (forall k :: 0 <= k < |e.tags| ==> ' ' !in esc(e.tags[k].Str(), Text)) ==>
      Split(TagsLine(e.tags, esc), " ") == TagItems(e.tags, esc)
    ensures forall k :: 0 <= k < |e.tags| ==> TagItems(e.tags, esc)[k] == "\\#" + esc(e.tags[k].Str(), Text)
  {
    if e.tags != [] {
      var items := TagItems(e.tags, esc);
      if forall k :: 0 <= k < |e.tags| ==> ' ' !in esc(e.tags[k].Str(), Text) {
        forall k | 0 <= k < |items| ensures ' ' !in items[k] {
          assert items[k] == "\\#" + esc(e.tags[k].Str(), Text);
        }
        SplitJoin(items, ' ');
      }
    }
  }

  /** A recipe with ingredients and tags but no authors: the empty author
      section collapses into a single blank line between the ingredients
      and the tags. */
  lemma RecipeMsgWithoutAuthors(e: Entry, esc: Escaper)
    requires e.authors == []
    requires RecipeIngredients(e.recipe, esc) != []
    requires RecipeIngredients(e.recipe, esc)[|RecipeIngredients(e.recipe, esc)| - 1] != '\n'
    requires TagsLine(e.tags, esc) == [] || TagsLine(e.tags, esc)[0] != '\n'
    ensures var r := e.recipe;
      var opening := RecipeHeader(r, esc) + "\n\n" + RecipeDescription(r, esc) + "\n\n" + RecipeIngredients(r, esc);
      RecipeText(e, esc) == Replace(opening, "\n\n\n\n", "\n\n") + "\n\n" + Replace(TagsLine(e.tags, esc), "\n\n\n\n", "\n\n")
  {
    var r := e.recipe;
    Formatters.JoinWithEmptyFourth(RecipeHeader(r, esc), RecipeDescription(r, esc), RecipeIngredients(r, esc), TagsLine(e.tags, esc));
  }

  // ---------------------------------------------------------------------
  // The result list.

  function ListItems(results: seq<Entry>, esc: Escaper, rating: real -> string): (r: seq<string>)
    ensures |r| == |results|
  {
    seq(|results|, i requires 0 <= i < |results| => ListItem(results[i], esc, rating))
  }

  /** Each item after its number (from 1) and an escaped `.`. */
  function NumberedRows(items: seq<string>): (r: seq<string>)
    ensures |r| == |items|
  {
    seq(|items|, i requires 0 <= i < |items| => IntToDecimal(i + 1) + "\\. " + items[i])
  }

  function NumberButtons(results: seq<Entry>): (r: seq<Button>)
    ensures |r| == |results|
  {
    seq(|results|, i requires 0 <= i < |results| => Button(IntToDecimal(i + 1), Callback("recipe", results[i].recipe.id, "show")))
  }

  function NavigationRow(prefix: string): seq<Button> {
    [Button(LeftArrow, ActionOf(prefix, "previousPage")), Button(Cross, ActionOf(prefix, "delete")),
     Button(RightArrow, ActionOf(prefix, "nextPage"))]
  }

  /** The buttons in even rows of at most five, then the navigation row. */
  function ListKeyboard(buttons: seq<Button>, prefix: string): Keyboard {
    Chunking.ChunkedEven(buttons, 5) + [NavigationRow(prefix)]
  }

  /** `format_recipes_list_msg`: one numbered row per result, and the
      number buttons in even rows of at most five above the navigation row. */
  function FormatRecipesList(results: seq<Entry>, prefix: string, esc: Escaper, rating: real -> string): (string, Keyboard) {
    (Join(NumberedRows(ListItems(results, esc, rating)), "\n"), ListKeyboard(NumberButtons(results), prefix))
  }

  lemma {:induction false} DigitsNotNewline(s: string)
    requires AllDigits(s)
    ensures '\n' !in s
  {
    forall j | 0 <= j < |s| ensures s[j] != '\n' {
      assert IsAsciiDigit(s[j]);
    }
  }

  /** Numbered rows joined by line breaks split back into the rows, the
      i-th (from 1) starting with the decimal `i` and an escaped `.`. */
  lemma NumberedLines(items: seq<string>)
    requires items != []
    requires forall i :: 0 <= i < |items| ==> '\n' !in items[i]
    ensures var lines := Split(Join(NumberedRows(items), "\n"), "\n");
      && |lines| == |items|
      && forall i :: 0 <= i < |items| ==>
           && StartsWith(lines[i], NatToDecimal(i + 1) + "\\. ")
           && lines[i][|NatToDecimal(i + 1)| + 3..] == items[i]
  {
    var rows := NumberedRows(items);
    forall i | 0 <= i < |rows| ensures '\n' !in rows[i] {
      var num := NatToDecimal(i + 1);
      DigitsNotNewline(num);
      assert rows[i] == num + "\\. " + items[i];
    }
    SplitJoin(rows, '\n');
    forall i | 0 <= i < |items|
      ensures && StartsWith(rows[i], NatToDecimal(i + 1) + "\\. ")
              && rows[i][|NatToDecimal(i + 1)| + 3..] == items[i]
    {
      assert rows[i] == NatToDecimal(i + 1) + "\\. " + items[i];
    }
  }

  /** When no list item holds a line break, the text has one line per
      result, in order, the i-th (from 1) being the decimal `i`, an escaped
      `.`, a space and the item; the number reads back as `i`. */
  lemma RecipesListText(results: seq<Entry>, prefix: string, esc: Escaper, rating: real -> string)
    requires results != []
    requires forall i :: 0 <= i < |results| ==> '\n' !in ListItem(results[i], esc, rating)
    ensures var lines := Split(FormatRecipesList(results, prefix, esc, rating).0, "\n");
      && |lines| == |results|
      && forall i :: 0 <= i < |results| ==>
           && StartsWith(lines[i], NatToDecimal(i + 1) + "\\. ")
           && DigitsValue(NatToDecimal(i + 1)) == i + 1
           && lines[i][|NatToDecimal(i + 1)| + 3..] == ListItem(results[i], esc, rating)
  {
    var items := ListItems(results, esc, rating);
    NumberedLines(items);
    forall n: nat | 1 <= n <= |results| ensures DigitsValue(NatToDecimal(n)) == n {
      DecimalRoundTrip(n);
    }
  }

  /** The rows above the navigation row hold the buttons in order, in
      `ceil(n / 5)` rows of one to five, longer rows first and differing by
      at most one. */
  lemma KeyboardLayout(buttons: seq<Button>, prefix: string)
    ensures var kb := ListKeyboard(buttons, prefix);
      var numbers := kb[..|kb| - 1];
      && |kb| >= 1
      && kb[|kb| - 1] == NavigationRow(prefix)
      && Seqs.Flatten(numbers) == buttons
      && |numbers| == Chunking.CeilDiv(|buttons|, 5)
      && (forall j :: 0 <= j < |numbers| ==> 1 <= |numbers[j]| <= 5)
      && (forall j, l :: 0 <= j < l < |numbers| ==> |numbers[l]| <= |numbers[j]| <= |numbers[l]| + 1)
  {
    var kb := ListKeyboard(buttons, prefix);
    Chunking.ChunkedEvenShape(buttons, 5);
    assert kb[..|kb| - 1] == Chunking.ChunkedEven(buttons, 5);
  }

  /** The keyboard of a list: one number button per result, in result order,
      labelled `i` with callback `recipe/<id>/show` for the i-th result, laid
      out as above, with the navigation row last. */
  lemma RecipesListKeyboard(results: seq<Entry>, prefix: string, esc: Escaper, rating: real -> string)
    ensures var kb := FormatRecipesList(results, prefix, esc, rating).1;
      && kb == ListKeyboard(NumberButtons(results), prefix)
      && kb[|kb| - 1] == NavigationRow(prefix)
      && Seqs.Flatten(kb[..|kb| - 1]) == NumberButtons(results)
      && |kb| == Chunking.CeilDiv(|results|, 5) + 1
    ensures forall i :: 0 <= i < |results| ==>
      NumberButtons(results)[i] == Button(NatToDecimal(i + 1), Callback("recipe", results[i].recipe.id, "show"))
  {
    var buttons := NumberButtons(results);
    assert FormatRecipesList(results, prefix, esc, rating).1 == ListKeyboard(buttons, prefix);
    KeyboardLayout(buttons, prefix);
    forall i | 0 <= i < |results|
      ensures buttons[i] == Button(NatToDecimal(i + 1), Callback("recipe", results[i].recipe.id, "show"))
    {
      assert IntToDecimal(i + 1) == NatToDecimal(i + 1);
    }
  }

  lemma ActionParts(prefix: string, action: string)
    requires '/' !in prefix && '/' !in action
    ensures Split(ActionOf(prefix, action), "/") == [prefix, action]
  {
    SplitPrefix(prefix, '/', action);
    SplitNoSep(action, '/');
  }

  /** The navigation callbacks are the prefix, a slash and the action, in the
      order previous, delete, next. */
  lemma NavigationCallbacks(prefix: string)
    requires '/' !in prefix
    ensures var row := NavigationRow(prefix);
      && |row| == 3
      && Split(row[0].callback, "/") == [prefix, "previousPage"]
      && Split(row[1].callback, "/") == [prefix, "delete"]
      && Split(row[2].callback, "/") == [prefix, "nextPage"]
  {
    ActionParts(prefix, "previousPage");
    ActionParts(prefix, "delete");
    ActionParts(prefix, "nextPage");
  }
}

=== FILE: telegram_models.dfy ===
/** The bot's stored state (telegram/models.py): a chat row refreshed from
    each incoming message, and the two paged result lists, a search and the
    liked recipes, whose `page_n` moves one page at a time and never onto
    an empty page. */
module TelegramModels {
  import opened Wrappers
  import opened RecipeModels
  import Seqs
  import opened Arith

  // ---------------------------------------------------------------------
  // Chats.

  /** A chat row. `lastSeen` is the `auto_now` timestamp of the last save. */
  datatype ChatRow = ChatRow(
    id: int,
    username: Option<string>,
    firstName: Option<string>,
    lastName: Option<string>,
    lastSeen: int,
    likedRecipes: set<string>,
    blockedTags: set<string>,
    blockedAuthors: set<string>)

  /** The chat fields of an incoming message; Telegram may leave any name out. */
  datatype MessageChat = MessageChat(id: int, username: Option<string>, firstName: Option<string>, lastName: Option<string>)

  /** `value or None`: an empty or missing text is stored as NULL. */
  function OrNone(value: Option<string>): (r: Option<string>)
    ensures r.None? <==> value.None? || value.value == []
    ensures r.Some? ==> r == value
  {
    match value
    case Some(v) => if v != [] then Some(v) else None
    case None => None
  }

  /** `Chat.update_from_message`: the chat row is fetched or created, its
      three names replaced from the message and saved at time `now`. */
  function UpdateFromMessage(chats: map<int, ChatRow>, msg: MessageChat, now: int): (map<int, ChatRow>, ChatRow) {
    var prev := if msg.id in chats then chats[msg.id] else ChatRow(msg.id, None, None, None, now, {}, {}, {});
    var row := prev.(username := OrNone(msg.username), firstName := OrNone(msg.firstName),
                    lastName := OrNone(msg.lastName), lastSeen := now);
    (chats[msg.id := row], row)
  }

  /** The returned row is the stored one; each name is NULL exactly when the
      message left it out or empty; a known chat keeps its likes and blocks;
      no other chat changes; and a repeated update changes nothing more. */
  lemma UpdateFromMessageEffect(chats: map<int, ChatRow>, msg: MessageChat, now: int)
    requires forall c :: c in chats ==> chats[c].id == c
    ensures var (after, row) := UpdateFromMessage(chats, msg, now);
      && after.Keys == chats.Keys + {msg.id}
      && after[msg.id] == row && row.id == msg.id && row.lastSeen == now
      && (row.username.None? <==> msg.username.None? || msg.username.value == [])
      && (row.firstName.None? <==> msg.firstName.None? || msg.firstName.value == [])
      && (row.lastName.None? <==> msg.lastName.None? || msg.lastName.value == [])
      && (row.username.Some? ==> row.username == msg.username)
      && (row.firstName.Some? ==> row.firstName == msg.firstName)
      && (row.lastName.Some? ==> row.lastName == msg.lastName)
      && (msg.id in chats ==>
            row.likedRecipes == chats[msg.id].likedRecipes && row.blockedTags == chats[msg.id].blockedTags
            && row.blockedAuthors == chats[msg.id].blockedAuthors)
      && (msg.id !in chats ==> row.likedRecipes == {} && row.blockedTags == {} && row.blockedAuthors == {})
      && (forall c :: c in chats && c != msg.id ==> after[c] == chats[c])
      && (forall c :: c in after ==> after[c].id == c)
      && UpdateFromMessage(after, msg, now) == (after, row)
  {
    var (after, row) := UpdateFromMessage(chats, msg, now);
    var row2 := row.(username := OrNone(msg.username), firstName := OrNone(msg.firstName),
                     lastName := OrNone(msg.lastName), lastSeen := now);
    assert row2 == row;
    assert after[msg.id := row] == after;
  }

  // ---------------------------------------------------------------------
  // Pages of a result list.

  datatype PageError = NegativeIndexing

  /** `list(queryset[start:end])`: a negative bound is refused, and an end
      before the start gives nothing. */
  function Slice<T>(results: seq<T>, start: int, end: int): Result<seq<T>, PageError> {
    if start < 0 || end < 0 then Err(NegativeIndexing)
    else Ok(results[Min(start, |results|)..Min(Max(start, end), |results|)])
  }

  /** `get_page`: the slice from `size * n` up to `size * (n + 1)`. */
  function GetPage<T>(results: seq<T>, n: int, size: int): Result<seq<T>, PageError> {
    Slice(results, size * n, size * (n + 1))
  }

  lemma MulNonNeg(a: int, b: int)
    requires a >= 0 && b >= 0
    ensures a * b >= 0
  {
  }

  /** A page of a non-negative number and size is the `size` results from
      `size * n` on, fewer at the end of the list, and none past it. */
  lemma PageSlice<T>(results: seq<T>, n: int, size: int)
    requires n >= 0 && size >= 0
    ensures GetPage(results, n, size).Ok?
    ensures var page := GetPage(results, n, size).value;
      && |page| == (if size * n >= |results| then 0 else Min(size, |results| - size * n))
      && forall j :: 0 <= j < |page| ==> page[j] == results[size * n + j]
  {
    MulNonNeg(size, n);
    assert size * (n + 1) == size * n + size;
  }

  /** Paging fails exactly when a bound is negative. */
  lemma PageFails<T>(results: seq<T>, n: int, size: int)
    ensures GetPage(results, n, size).Err? <==> size * n < 0 || size * (n + 1) < 0
  {
  }

  /** Every result is on page `i / size`, at place `i % size`. */
  lemma PageOfIndex<T>(results: seq<T>, size: int, i: int)
    requires size > 0 && 0 <= i < |results|
    ensures GetPage(results, i / size, size).Ok?
    ensures |GetPage(results, i / size, size).value| > i % size
    ensures GetPage(results, i / size, size).value[i % size] == results[i]
  {
    var n := i / size;
    assert i == size * n + i % size;
    PageSlice(results, n, size);
  }

  /** With a positive size, page `n` has results exactly when it starts
      before the end of the list. */
  lemma PageNonEmpty<T>(results: seq<T>, n: int, size: int)
    requires n >= 0 && size > 0
    ensures GetPage(results, n, size).Ok?
    ensures GetPage(results, n, size).value != [] <==> size * n < |results|
  {
    PageSlice(results, n, size);
  }

  /** A page request: the page, and the `page_n` stored afterwards. */
  datatype Move<T> = Move(page: Result<seq<T>, PageError>, pageN: int)

  /** A page that is there and has results. */
  predicate Filled<T>(page: Result<seq<T>, PageError>) {
    page.Ok? && page.value != []
  }

  /** `current_page`. */
  function CurrentPage<T>(results: seq<T>, pageN: int, size: int): Result<seq<T>, PageError> {
    GetPage(results, pageN, size)
  }

  /** `previous_page`: nothing at page 0; otherwise the page before, moving
      to it only when it has results. */
  function PreviousPage<T>(results: seq<T>, pageN: int, size: int): Move<T> {
    if pageN == 0 then Move(Ok([]), 0)
    else
      var page := GetPage(results, pageN - 1, size);
      Move(page, if Filled(page) then pageN - 1 else pageN)
  }

  /** `next_page`: the page after, moving to it only when it has results. */
  function NextPage<T>(results: seq<T>, pageN: int, size: int): Move<T> {
    var page := GetPage(results, pageN + 1, size);
    Move(page, if Filled(page) then pageN + 1 else pageN)
  }

  /** At page 0 going back returns nothing and stays at page 0. */
  lemma PreviousAtFirst<T>(results: seq<T>, size: int)
    ensures PreviousPage(results, 0, size) == Move(Ok([]), 0)
  {
  }

  /** A move goes one page back or forward exactly when the page it returns
      has results, stays put otherwise, and afterwards the current page is
      the page it returned. */
  lemma MoveSteps<T>(results: seq<T>, pageN: int, size: int)
    ensures var m := PreviousPage(results, pageN, size);
      && (m.pageN == pageN - 1 <==> pageN != 0 && Filled(m.page))
      && (m.pageN != pageN - 1 ==> m.pageN == pageN)
      && (m.pageN != pageN ==> CurrentPage(results, m.pageN, size) == m.page)
    ensures var m := NextPage(results, pageN, size);
      && (m.pageN == pageN + 1 <==> Filled(m.page))
      && (m.pageN != pageN + 1 ==> m.pageN == pageN)
      && (m.pageN != pageN ==> CurrentPage(results, m.pageN, size) == m.page)
  {
  }

  /** A move that stays put returns an empty page or an error. */
  lemma StayingReturnsNothing<T>(results: seq<T>, pageN: int, size: int)
    ensures PreviousPage(results, pageN, size).pageN == pageN ==> !Filled(PreviousPage(results, pageN, size).page)
    ensures NextPage(results, pageN, size).pageN == pageN ==> !Filled(NextPage(results, pageN, size).page)
  {
  }

  /** Moves keep `page_n` non-negative and, with a positive size, keep it on
      a page that starts inside the list. */
  lemma MovesStayInRange<T>(results: seq<T>, pageN: int, size: int)
    requires pageN >= 0 && size > 0
    ensures PreviousPage(results, pageN, size).pageN >= 0
    ensures NextPage(results, pageN, size).pageN >= 0
    ensures PreviousPage(results, pageN, size).pageN != pageN ==> size * PreviousPage(results, pageN, size).pageN < |results|
    ensures NextPage(results, pageN, size).pageN != pageN ==> size * NextPage(results, pageN, size).pageN < |results|
  {
    if pageN > 0 {
      PageNonEmpty(results, pageN - 1, size);
    }
    PageNonEmpty(results, pageN + 1, size);
  }

  /** `total_results_count`: the length of the unsliced list. */
  function TotalResultsCount<T>(results: seq<T>): nat {
    |results|
  }

  /** The number of pages with results, at a positive size, is the total
      count divided by the size, rounded up. */
  lemma PagesCoverTotal<T>(results: seq<T>, size: int, n: int)
    requires size > 0 && n >= 0
    ensures Filled(GetPage(results, n, size)) <==> n < (TotalResultsCount(results) + size - 1) / size
  {
    PageNonEmpty(results, n, size);
    var k := (|results| + size - 1) / size;
    var m := (|results| + size - 1) % size;
    assert |results| + size - 1 == size * k + m;
    if n < k {
      MulLe(n + 1, k, size);
      assert size * (n + 1) == size * n + size;
    } else {
      MulLe(k, n, size);
    }
  }

  // ---------------------------------------------------------------------
  // The two result lists.

  /** The two groups of fields the full-text filter can search. */
  datatype Fieldset = Essentials | Ingredients

  /** `order_by('-reviews_count', '-rating', '-pub_date')`; a descending
      order puts recipes without a date first. */
  predicate SearchOrder(a: Recipe, b: Recipe) {
    || a.reviewsCount > b.reviewsCount
    || (a.reviewsCount == b.reviewsCount && a.rating > b.rating)
    || (a.reviewsCount == b.reviewsCount && a.rating == b.rating && DateDesc(a.pubDate, b.pubDate))
  }

  predicate DateDesc(x: Option<int>, y: Option<int>) {
    x.None? || (y.Some? && x.value >= y.value)
  }

  lemma SearchOrderIsPreorder()
    ensures Seqs.TotalPreorder(SearchOrder)
  {
  }

  /** `SearchListMessage.get_queryset`: the recipes matching each non-empty
      query, in search order. `matches` stands for the full-text filter. */
  function SearchResults(all: seq<Recipe>, recipeQuery: string, ingredientsQuery: string,
                         matches: (Fieldset, string, Recipe) -> bool): seq<Recipe>
  {
    var byRecipe := if recipeQuery != [] then Seqs.Filter(all, r => matches(Essentials, recipeQuery, r)) else all;
    var byIngredients := if ingredientsQuery != [] then Seqs.Filter(byRecipe, r => matches(Ingredients, ingredientsQuery, r)) else byRecipe;
    SearchOrderIsPreorder();
    Seqs.SortBy(byIngredients, SearchOrder)
  }

  /** A search holds exactly the recipes that match every non-empty query,
      all recipes when both are empty, most reviewed first, then best
      rated, then newest with undated ones first. */
  lemma SearchResultsMeaning(all: seq<Recipe>, recipeQuery: string, ingredientsQuery: string,
                             matches: (Fieldset, string, Recipe) -> bool)
    ensures var rs := SearchResults(all, recipeQuery, ingredientsQuery, matches);
      forall r :: r in rs <==>
        r in all && (recipeQuery != [] ==> matches(Essentials, recipeQuery, r))
                 && (ingredientsQuery != [] ==> matches(Ingredients, ingredientsQuery, r))
    ensures recipeQuery == [] && ingredientsQuery == [] ==>
      multiset(SearchResults(all, recipeQuery, ingredientsQuery, matches)) == multiset(all)
    ensures var rs := SearchResults(all, recipeQuery, ingredientsQuery, matches);
      forall i, j :: 0 <= i < j < |rs| ==>
        && rs[i].reviewsCount >= rs[j].reviewsCount
        && (rs[i].reviewsCount == rs[j].reviewsCount ==> rs[i].rating >= rs[j].rating)
        && (rs[i].reviewsCount == rs[j].reviewsCount && rs[i].rating == rs[j].rating ==>
              DateDesc(rs[i].pubDate, rs[j].pubDate))
  {
    var p1 := (r: Recipe) => matches(Essentials, recipeQuery, r);
    var p2 := (r: Recipe) => matches(Ingredients, ingredientsQuery, r);
    var byRecipe := if recipeQuery != [] then Seqs.Filter(all, p1) else all;
    var byIngredients := if ingredientsQuery != [] then Seqs.Filter(byRecipe, p2) else byRecipe;
    SearchOrderIsPreorder();
    Seqs.SortByPreserves(byIngredients, SearchOrder);
    if recipeQuery != [] {
      Seqs.FilterMembership(all, p1);
      Seqs.InFilter(all, p1);
    }
    if ingredientsQuery != [] {
      Seqs.FilterMembership(byRecipe, p2);
      Seqs.InFilter(byRecipe, p2);
    }
  }

  /** Code-point order on strings, a prefix first. */
  predicate LexLeq(a: string, b: string)
    decreases |a|
  {
    a == [] || (b != [] && (a[0] < b[0] || (a[0] == b[0] && LexLeq(a[1..], b[1..]))))
  }

  lemma {:induction false} LexTotal(a: string, b: string)
    ensures LexLeq(a, b) || LexLeq(b, a)
    decreases |a|
  {
    if a != [] && b != [] && a[0] == b[0] {
      LexTotal(a[1..], b[1..]);
    }
  }

  lemma {:induction false} LexTrans(a: string, b: string, c: string)
    requires LexLeq(a, b) && LexLeq(b, c)
    ensures LexLeq(a, c)
    decreases |a|
  {
    if a != [] && a[0] == b[0] && b[0] == c[0] {
      LexTrans(a[1..], b[1..], c[1..]);
    }
  }

  predicate TitleOrder(a: Recipe, b: Recipe) {
    LexLeq(a.title, b.title)
  }

  lemma TitleOrderIsPreorder()
    ensures Seqs.TotalPreorder(TitleOrder)
  {
    forall a: Recipe, b: Recipe ensures TitleOrder(a, b) || TitleOrder(b, a) {
      LexTotal(a.title, b.title);
    }
    forall a: Recipe, b: Recipe, c: Recipe | TitleOrder(a, b) && TitleOrder(b, c) ensures TitleOrder(a, c) {
      LexTrans(a.title, b.title, c.title);
    }
  }

  /** `LikedListMessage.get_queryset`: the chat's liked recipes by title. */
  function LikedResults(liked: seq<Recipe>): seq<Recipe> {
    TitleOrderIsPreorder();
    Seqs.SortBy(liked, TitleOrder)
  }

  /** The liked list holds the liked recipes, each as often, in title order,
      and counts as many. */
  lemma LikedResultsMeaning(liked: seq<Recipe>)
    ensures multiset(LikedResults(liked)) == multiset(liked)
    ensures TotalResultsCount(LikedResults(liked)) == |liked|
    ensures var rs := LikedResults(liked);
      forall i, j :: 0 <= i < j < |rs| ==> LexLeq(rs[i].title, rs[j].title)
  {
    TitleOrderIsPreorder();
    Seqs.SortByPreserves(liked, TitleOrder);
  }
}

=== FILE: telegram_tasks.dfy ===
/** `fulfill_subscriptions` (telegram/tasks.py): for each chat, the recipes
    newer than the watermark of one of its tag or author subscriptions,
    combined without repeats and sent oldest first; after each dated
    recipe is sent, every subscription of that chat gets its date.
    Sending is an oracle: `send(chat, recipe)` is false when the transport
    raises, which, with no handler in the task, ends the whole run. */
module Fulfilment {
  import opened Wrappers
  import opened RecipeModels
  import Seqs

  datatype Target = TagTarget(tag: string) | AuthorTarget(author: string)

  /** A tag or author subscription row: the chat, what it follows, and the
      date of the last recipe sent for it. */
  datatype Subscription = Subscription(chat: int, target: Target, lastRecipeDate: int)

  /** How the run ended, and the counter of recipes per chat it kept. */
  datatype Run = Run(subs: seq<Subscription>, counter: map<int, nat>, failedChat: Option<int>)

  /** What sending a chat its recipes did: the subscriptions afterwards, how
      many sends went through, and whether one raised. */
  datatype Delivery = Delivery(subs: seq<Subscription>, sent: nat, failed: bool)

  function TagIds(e: Entry): set<string> {
    set k | 0 <= k < |e.tags| :: e.tags[k].id
  }

  function AuthorIds(e: Entry): set<string> {
    set k | 0 <= k < |e.authors| :: e.authors[k].id
  }

  /** `tag.recipes` / `author.recipes`: the recipe is linked to the target. */
  predicate Linked(e: Entry, t: Target) {
    match t
    case TagTarget(id) => id in TagIds(e)
    case AuthorTarget(id) => id in AuthorIds(e)
  }

  /** `.filter(pub_date__gt=last_recipe_date)` on the target's recipes; a
      recipe without a date never passes. */
  predicate NewFor(e: Entry, s: Subscription) {
    Linked(e, s.target) && e.recipe.pubDate.Some? && e.recipe.pubDate.value > s.lastRecipeDate
  }

  function NewRecipes(catalogue: seq<Entry>, s: Subscription): seq<Entry> {
    Seqs.Filter(catalogue, (e: Entry) => NewFor(e, s))
  }

  /** The chat's tag subscriptions, then its author subscriptions. */
  function ChatSubs(subs: seq<Subscription>, chat: int): seq<Subscription> {
    Seqs.Filter(subs, (s: Subscription) => s.chat == chat && s.target.TagTarget?)
      + Seqs.Filter(subs, (s: Subscription) => s.chat == chat && s.target.AuthorTarget?)
  }

  /** The first occurrence of each element, in order: a queryset `union`. */
  function Dedup<T(==)>(s: seq<T>): seq<T>
    decreases |s|
  {
    if s == [] then []
    else
      var r := Dedup(s[..|s| - 1]);
      if s[|s| - 1] in r then r else r + [s[|s| - 1]]
  }

  lemma {:induction false} DedupMeaning<T>(s: seq<T>)
    ensures Seqs.Distinct(Dedup(s))
    ensures forall x :: x in Dedup(s) <==> x in s
    decreases |s|
  {
    if s != [] {
      var init := s[..|s| - 1];
      DedupMeaning(init);
      assert s == init + [s[|s| - 1]];
      forall x ensures x in s <==> x in init || x == s[|s| - 1] {
        if x in s {
          var i :| 0 <= i < |s| && s[i] == x;
          if i < |s| - 1 { assert init[i] == x; }
        }
      }
    }
  }

  /** `order_by('pub_date')`: oldest first, recipes without a date last. */
  predicate DateOrder(a: Entry, b: Entry) {
    match (a.recipe.pubDate, b.recipe.pubDate)
    case (Some(x), Some(y)) => x <= y
    case (Some(_), None) => true
    case (None, Some(_)) => false
    case (None, None) => true
  }

  lemma DateOrderIsPreorder()
    ensures Seqs.TotalPreorder(DateOrder)
  {
  }

  /** The recipes the chat is sent, in sending order. */
  function ToSend(catalogue: seq<Entry>, subs: seq<Subscription>, chat: int): seq<Entry> {
    DateOrderIsPreorder();
    Seqs.SortBy(Dedup(Seqs.FlatMap(ChatSubs(subs, chat), (s: Subscription) => NewRecipes(catalogue, s))), DateOrder)
  }

  lemma ChatSubsMembers(subs: seq<Subscription>, chat: int)
    ensures forall s :: s in ChatSubs(subs, chat) <==> s in subs && s.chat == chat
  {
    Seqs.InFilter(subs, (s: Subscription) => s.chat == chat && s.target.TagTarget?);
    Seqs.InFilter(subs, (s: Subscription) => s.chat == chat && s.target.AuthorTarget?);
  }

  /** A recipe is sent to a chat exactly when it is in the catalogue and
      newer than the watermark of a subscription of that chat to one of its
      tags or authors. */
  lemma ToSendMembers(catalogue: seq<Entry>, subs: seq<Subscription>, chat: int, e: Entry)
    ensures e in ToSend(catalogue, subs, chat) <==>
      e in catalogue && exists s :: s in subs && s.chat == chat && NewFor(e, s)
  {
    var mine := ChatSubs(subs, chat);
    var f := (s: Subscription) => NewRecipes(catalogue, s);
    var all := Seqs.FlatMap(mine, f);
    DateOrderIsPreorder();
    Seqs.SortByPreserves(Dedup(all), DateOrder);
    DedupMeaning(all);
    Seqs.FlatMapMembership(mine, f, e);
    ChatSubsMembers(subs, chat);
    forall s ensures e in f(s) <==> e in catalogue && NewFor(e, s) {
      Seqs.InFilter(catalogue, (x: Entry) => NewFor(x, s));
    }
    if e in ToSend(catalogue, subs, chat) {
      var k :| 0 <= k < |mine| && e in f(mine[k]);
      assert mine[k] in subs && mine[k].chat == chat && NewFor(e, mine[k]);
    }
    if e in catalogue && exists s :: s in subs && s.chat == chat && NewFor(e, s) {
      var s :| s in subs && s.chat == chat && NewFor(e, s);
      assert s in mine;
      var k :| 0 <= k < |mine| && mine[k] == s;
      assert e in f(mine[k]);
    }
  }

  /** Each recipe is sent to a chat at most once in a run, every one has a
      date, and they go out in ascending date order. */
  lemma ToSendOrder(catalogue: seq<Entry>, subs: seq<Subscription>, chat: int)
    ensures var es := ToSend(catalogue, subs, chat);
      && Seqs.Distinct(es)
      && (forall i :: 0 <= i < |es| ==> es[i].recipe.pubDate.Some?)
      && (forall i, j :: 0 <= i < j < |es| ==> es[i].recipe.pubDate.value <= es[j].recipe.pubDate.value)
  {
    var all := Seqs.FlatMap(ChatSubs(subs, chat), (s: Subscription) => NewRecipes(catalogue, s));
    var es := ToSend(catalogue, subs, chat);
    DateOrderIsPreorder();
    DedupMeaning(all);
    Seqs.DistinctPermutation(Dedup(all), es);
    forall i | 0 <= i < |es| ensures es[i].recipe.pubDate.Some? {
      ToSendMembers(catalogue, subs, chat, es[i]);
    }
  }

  /** A chat without subscriptions is sent nothing. */
  lemma NoSubscriptionsNothingToSend(catalogue: seq<Entry>, subs: seq<Subscription>, chat: int)
    requires forall i :: 0 <= i < |subs| ==> subs[i].chat != chat
    ensures ToSend(catalogue, subs, chat) == []
  {
    var es := ToSend(catalogue, subs, chat);
    if es != [] {
      ToSendMembers(catalogue, subs, chat, es[0]);
      assert false;
    }
  }

  // ---------------------------------------------------------------------
  // Sending.

  /** `chat.tag_subscriptions.update(...)` and
      `chat.author_subscriptions.update(...)`: every subscription of the chat
      gets the date. */
  function SetChatDate(subs: seq<Subscription>, chat: int, date: int): (r: seq<Subscription>)
    ensures |r| == |subs|
    ensures forall i :: 0 <= i < |subs| ==> r[i] == if subs[i].chat == chat then subs[i].(lastRecipeDate := date) else subs[i]
    decreases |subs|
  {
    if subs == [] then []
    else [if subs[0].chat == chat then subs[0].(lastRecipeDate := date) else subs[0]] + SetChatDate(subs[1..], chat, date)
  }

  /** The chat's recipes sent one by one until a send raises; each dated
      recipe sent moves all of the chat's watermarks to its date. */
  function SendAll(chat: int, es: seq<Entry>, subs: seq<Subscription>, send: (int, Entry) -> bool): Delivery
    decreases |es|
  {
    if es == [] then Delivery(subs, 0, false)
    else if !send(chat, es[0]) then Delivery(subs, 0, true)
    else
      var next := match es[0].recipe.pubDate
        case Some(d) => SetChatDate(subs, chat, d)
        case None => subs;
      var d := SendAll(chat, es[1..], next, send);
      d.(sent := d.sent + 1)
  }

  /** The date of the last dated recipe of `es`, if any. */
  function LastDate(es: seq<Entry>): Option<int>
    decreases |es|
  {
    if es == [] then None
    else if es[|es| - 1].recipe.pubDate.Some? then es[|es| - 1].recipe.pubDate
    else LastDate(es[..|es| - 1])
  }

  lemma LastDateCons(e: Entry, es: seq<Entry>)
    ensures LastDate([e] + es) == if LastDate(es).Some? then LastDate(es) else e.recipe.pubDate
    decreases |es|
  {
    var s := [e] + es;
    if es != [] {
      assert s[..|s| - 1] == [e] + es[..|es| - 1];
      LastDateCons(e, es[..|es| - 1]);
    } else {
      assert s[..|s| - 1] == [];
    }
  }

  /** Sends go through up to the first one that raises; watermarks change
      only after a send returns, and then to the date of the last dated
      recipe sent; only the chat's own subscriptions change, and none is
      added, removed or moved to another target. */
  lemma {:induction false} SendAllEffect(chat: int, es: seq<Entry>, subs: seq<Subscription>, send: (int, Entry) -> bool)
    ensures var d := SendAll(chat, es, subs, send);
      && d.sent <= |es|
      && (d.failed <==> d.sent < |es|)
      && (forall k :: 0 <= k < d.sent ==> send(chat, es[k]))
      && (d.failed ==> !send(chat, es[d.sent]))
      && |d.subs| == |subs|
      && (forall i :: 0 <= i < |subs| ==> d.subs[i].chat == subs[i].chat && d.subs[i].target == subs[i].target)
      && (forall i :: 0 <= i < |subs| && subs[i].chat != chat ==> d.subs[i] == subs[i])
      && (forall i :: 0 <= i < |subs| && subs[i].chat == chat ==>
            d.subs[i].lastRecipeDate == LastDate(es[..d.sent]).GetOr(subs[i].lastRecipeDate))
  {
    SendAllSends(chat, es, subs, send);
    SendAllDates(chat, es, subs, send);
  }

  /** The sends that happen: a prefix of the list, stopping at the first
      failure. */
  lemma {:induction false} SendAllSends(chat: int, es: seq<Entry>, subs: seq<Subscription>, send: (int, Entry) -> bool)
    ensures var d := SendAll(chat, es, subs, send);
      && d.sent <= |es|
      && (d.failed <==> d.sent < |es|)
      && (forall k :: 0 <= k < d.sent ==> send(chat, es[k]))
      && (d.failed ==> !send(chat, es[d.sent]))
    decreases |es|
  {
    if es != [] && send(chat, es[0]) {
      var next := match es[0].recipe.pubDate
        case Some(day) => SetChatDate(subs, chat, day)
        case None => subs;
      var d := SendAll(chat, es, subs, send);
      var d1 := SendAll(chat, es[1..], next, send);
      assert d == d1.(sent := d1.sent + 1);
      SendAllSends(chat, es[1..], next, send);
      forall k | 0 <= k < d.sent ensures send(chat, es[k]) {
        if k > 0 { assert es[k] == es[1..][k - 1]; }
      }
      if d.failed { assert es[d.sent] == es[1..][d1.sent]; }
    }
  }

  /** The subscriptions afterwards: only the chat's own watermarks move, to
      the date of the last dated recipe sent. */
  lemma {:induction false} SendAllDates(chat: int, es: seq<Entry>, subs: seq<Subscription>, send: (int, Entry) -> bool)
    ensures var d := SendAll(chat, es, subs, send);
      && d.sent <= |es|
      && |d.subs| == |subs|
      && (forall i :: 0 <= i < |subs| ==> d.subs[i].chat == subs[i].chat && d.subs[i].target == subs[i].target)
      && (forall i :: 0 <= i < |subs| && subs[i].chat != chat ==> d.subs[i] == subs[i])
      && (forall i :: 0 <= i < |subs| && subs[i].chat == chat ==>
            d.subs[i].lastRecipeDate == LastDate(es[..d.sent]).GetOr(subs[i].lastRecipeDate))
    decreases |es|
  {
    var d := SendAll(chat, es, subs, send);
    if es == [] || !send(chat, es[0]) {
      assert es[..0] == [];
    } else {
      var next := match es[0].recipe.pubDate
        case Some(day) => SetChatDate(subs, chat, day)
        case None => subs;
      var d1 := SendAll(chat, es[1..], next, send);
      assert d == d1.(sent := d1.sent + 1);
      SendAllDates(chat, es[1..], next, send);
      var sentDates := LastDate(es[1..][..d1.sent]);
      assert es[..d.sent] == [es[0]] + es[1..][..d1.sent];
      LastDateCons(es[0], es[1..][..d1.sent]);
      forall i | 0 <= i < |subs|
        ensures d.subs[i].chat == subs[i].chat && d.subs[i].target == subs[i].target
        ensures subs[i].chat != chat ==> d.subs[i] == subs[i]
        ensures subs[i].chat == chat ==> d.subs[i].lastRecipeDate == LastDate(es[..d.sent]).GetOr(subs[i].lastRecipeDate)
      {
        assert d.subs[i] == d1.subs[i];
        if subs[i].chat == chat {
          assert next[i].chat == chat;
          assert next[i].lastRecipeDate == es[0].recipe.pubDate.GetOr(subs[i].lastRecipeDate);
          assert d1.subs[i].lastRecipeDate == sentDates.GetOr(next[i].lastRecipeDate);
        } else {
          assert next[i] == subs[i];
        }
      }
    }
  }

  /** On a list of dated recipes in ascending date order, the chat's
      watermarks end at the date of the last recipe sent, the latest of
      those sent. */
  lemma AscendingWatermark(chat: int, es: seq<Entry>, subs: seq<Subscription>, send: (int, Entry) -> bool)
    requires forall i :: 0 <= i < |es| ==> es[i].recipe.pubDate.Some?
    requires forall i, j :: 0 <= i < j < |es| ==> es[i].recipe.pubDate.value <= es[j].recipe.pubDate.value
    ensures var d := SendAll(chat, es, subs, send);
      && d.sent <= |es| && |d.subs| == |subs|
      && (d.sent > 0 ==>
            && (forall k :: 0 <= k < d.sent ==> es[k].recipe.pubDate.value <= es[d.sent - 1].recipe.pubDate.value)
            && forall i :: 0 <= i < |subs| && subs[i].chat == chat ==>
                 d.subs[i].lastRecipeDate == es[d.sent - 1].recipe.pubDate.value)
  {
    var d := SendAll(chat, es, subs, send);
    SendAllEffect(chat, es, subs, send);
    if d.sent > 0 {
      var sent := es[..d.sent];
      assert sent[|sent| - 1] == es[d.sent - 1];
    }
  }

  /** On the chat's own list, the watermarks end at the date of the last
      recipe sent, the latest of them. */
  lemma SentWatermark(catalogue: seq<Entry>, subs: seq<Subscription>, chat: int, send: (int, Entry) -> bool)
    ensures var es := ToSend(catalogue, subs, chat);
      var d := SendAll(chat, es, subs, send);
      && (forall i :: 0 <= i < |es| ==> es[i].recipe.pubDate.Some?)
      && d.sent <= |es| && |d.subs| == |subs|
      && (d.sent > 0 ==>
            && (forall k :: 0 <= k < d.sent ==> es[k].recipe.pubDate.value <= es[d.sent - 1].recipe.pubDate.value)
            && forall i :: 0 <= i < |subs| && subs[i].chat == chat ==>
                 d.subs[i].lastRecipeDate == es[d.sent - 1].recipe.pubDate.value)
  {
    ToSendOrder(catalogue, subs, chat);
    AscendingWatermark(chat, ToSend(catalogue, subs, chat), subs, send);
  }

  /** The update is unconditional: a chat following a tag up to date 100 and
      an author up to date 5, sent the author's recipe of date 10, has both
      watermarks at 10, the tag's lowered. */
  lemma WatermarkCanDrop(e: Entry, send: (int, Entry) -> bool)
    requires e.recipe.pubDate == Some(10) && send(1, e)
    ensures var subs := [Subscription(1, TagTarget("t"), 100), Subscription(1, AuthorTarget("a"), 5)];
      var d := SendAll(1, [e], subs, send);
      d.sent == 1 && |d.subs| == 2 && d.subs[0].lastRecipeDate == 10 < subs[0].lastRecipeDate
  {
    var subs := [Subscription(1, TagTarget("t"), 100), Subscription(1, AuthorTarget("a"), 5)];
    assert [e][1..] == [];
    assert SetChatDate(subs, 1, 10)[0].lastRecipeDate == 10;
  }

  // ---------------------------------------------------------------------
  // The run.

  /** `sent_messages_counter[chat.id] += n`, a counter with only the chats
      that were counted. */
  function Bump(counter: map<int, nat>, chat: int, n: nat): map<int, nat> {
    if n == 0 then counter
    else counter[chat := (if chat in counter then counter[chat] else 0) + n]
  }

  /** What a chat is due given the subscription table. */
  type Due = (seq<Subscription>, int) -> seq<Entry>

  function DueFrom(catalogue: seq<Entry>): Due {
    (subs: seq<Subscription>, chat: int) => ToSend(catalogue, subs, chat)
  }

  /** What a chat is due depends on its own subscriptions only. */
  ghost predicate OwnRowsOnly(due: Due) {
    forall a, b, chat :: ChatSubs(a, chat) == ChatSubs(b, chat) ==> due(a, chat) == due(b, chat)
  }

  lemma DueFromOwnRows(catalogue: seq<Entry>)
    ensures OwnRowsOnly(DueFrom(catalogue))
  {
  }

  /** The chats in turn; a send that raises ends the run, the counter having
      already counted that recipe. */
  function Fulfil(chats: seq<int>, due: Due, subs: seq<Subscription>,
                  send: (int, Entry) -> bool, counter: map<int, nat>): Run
    decreases |chats|
  {
    if chats == [] then Run(subs, counter, None)
    else
      var c := chats[0];
      var d := SendAll(c, due(subs, c), subs, send);
      if d.failed then Run(d.subs, Bump(counter, c, d.sent + 1), Some(c))
      else Fulfil(chats[1..], due, d.subs, send, Bump(counter, c, d.sent))
  }

  /** `fulfill_subscriptions` over the chats in the order the store lists them. */
  function FulfilSubscriptionsSpec(chats: seq<int>, catalogue: seq<Entry>, subs: seq<Subscription>,
                                   send: (int, Entry) -> bool): Run {
    Fulfil(chats, DueFrom(catalogue), subs, send, map[])
  }

  lemma {:induction false} FilterAgree<T>(a: seq<T>, b: seq<T>, p: T -> bool)
    requires |a| == |b|
    requires forall i :: 0 <= i < |a| ==> p(a[i]) == p(b[i]) && (p(a[i]) ==> a[i] == b[i])
    ensures Seqs.Filter(a, p) == Seqs.Filter(b, p)
    decreases |a|
  {
    if a != [] {
      FilterAgree(a[1..], b[1..], p);
    }
  }

  /** Two tables that agree on a chat's rows give it the same subscriptions. */
  lemma ChatSubsFrom(a: seq<Subscription>, b: seq<Subscription>, chat: int)
    requires |a| == |b|
    requires forall i :: 0 <= i < |a| ==> (a[i].chat == chat || b[i].chat == chat ==> a[i] == b[i])
    ensures ChatSubs(a, chat) == ChatSubs(b, chat)
  {
    FilterAgree(a, b, (s: Subscription) => s.chat == chat && s.target.TagTarget?);
    FilterAgree(a, b, (s: Subscription) => s.chat == chat && s.target.AuthorTarget?);
  }

  /** Sending to one chat leaves every other chat's subscriptions as they were. */
  lemma SendAllKeepsOthers(chat: int, es: seq<Entry>, subs: seq<Subscription>, send: (int, Entry) -> bool, other: int)
    requires other != chat
    ensures ChatSubs(SendAll(chat, es, subs, send).subs, other) == ChatSubs(subs, other)
  {
    SendAllEffect(chat, es, subs, send);
    ChatSubsFrom(SendAll(chat, es, subs, send).subs, subs, other);
  }

  /** A run without a failing send counts, for each of its distinct chats,
      exactly the recipes that chat was due at the start of the run, and
      counts no chat that was due none. */
  lemma {:induction false} FulfilCounts(chats: seq<int>, due: Due, subs: seq<Subscription>,
                                        send: (int, Entry) -> bool, counter: map<int, nat>)
    requires OwnRowsOnly(due)
    requires Seqs.Distinct(chats)
    requires forall k :: 0 <= k < |chats| ==> chats[k] !in counter
    ensures var r := Fulfil(chats, due, subs, send, counter);
      r.failedChat.None? ==>
        && (forall k :: 0 <= k < |chats| ==>
              (chats[k] in r.counter <==> |due(subs, chats[k])| > 0)
              && (chats[k] in r.counter ==> r.counter[chats[k]] == |due(subs, chats[k])|))
        && (forall c :: c in counter ==> c in r.counter && r.counter[c] == counter[c])
        && (forall c :: c in r.counter ==> c in counter || c in chats)
    decreases |chats|
  {
    if chats != [] {
      var c := chats[0];
      var es := due(subs, c);
      var d := SendAll(c, es, subs, send);
      SendAllEffect(c, es, subs, send);
      if !d.failed {
        var rest := chats[1..];
        var counter' := Bump(counter, c, d.sent);
        assert forall k :: 0 <= k < |rest| ==> rest[k] == chats[k + 1] && rest[k] != c;
        FulfilCounts(rest, due, d.subs, send, counter');
        forall k | 0 <= k < |rest| ensures due(d.subs, rest[k]) == due(subs, rest[k]) {
          SendAllKeepsOthers(c, es, subs, send, rest[k]);
        }
        forall k | 0 <= k < |chats| ensures chats[k] == c || chats[k] in rest {
          if k > 0 { assert chats[k] == rest[k - 1]; }
        }
      }
    }
  }

  /** The run's counter: each chat, counted once, for the recipes it was due. */
  lemma FulfilSubscriptionsCounts(chats: seq<int>, catalogue: seq<Entry>, subs: seq<Subscription>,
                                  send: (int, Entry) -> bool)
    requires Seqs.Distinct(chats)
    ensures var r := FulfilSubscriptionsSpec(chats, catalogue, subs, send);
      r.failedChat.None? ==>
        && (forall c :: c in r.counter ==> c in chats)
        && (forall k :: 0 <= k < |chats| ==>
              (chats[k] in r.counter <==> ToSend(catalogue, subs, chats[k]) != [])
              && (chats[k] in r.counter ==> r.counter[chats[k]] == |ToSend(catalogue, subs, chats[k])|))
  {
    DueFromOwnRows(catalogue);
    FulfilCounts(chats, DueFrom(catalogue), subs, send, map[]);
  }

  /** A chat without subscriptions is sent nothing, its counter is not
      touched, and the subscriptions are as they were. */
  lemma UnsubscribedChatUntouched(chat: int, catalogue: seq<Entry>, subs: seq<Subscription>,
                                  send: (int, Entry) -> bool)
    requires forall i :: 0 <= i < |subs| ==> subs[i].chat != chat
    ensures SendAll(chat, ToSend(catalogue, subs, chat), subs, send) == Delivery(subs, 0, false)
  {
    NoSubscriptionsNothingToSend(catalogue, subs, chat);
  }

  // ---------------------------------------------------------------------
  // The loops.

  /** The inner loop: one send per recipe, then the watermark update. */
  method SendToChat(chat: int, es: seq<Entry>, subs: seq<Subscription>, send: (int, Entry) -> bool)
    returns (after: seq<Subscription>, sent: nat, failed: bool)
    ensures Delivery(after, sent, failed) == SendAll(chat, es, subs, send)
  {
    after, sent := subs, 0;
    while sent < |es|
      invariant sent <= |es|
      invariant var d := SendAll(chat, es[sent..], after, send);
        SendAll(chat, es, subs, send) == Delivery(d.subs, d.sent + sent, d.failed)
      decreases |es| - sent
    {
      var e := es[sent];
      assert es[sent..][0] == e && es[sent..][1..] == es[sent + 1..];
      if !send(chat, e) {
        return after, sent, true;
      }
      if e.recipe.pubDate.Some? {
        after := SetChatDate(after, chat, e.recipe.pubDate.value);
      }
      sent := sent + 1;
    }
    assert es[sent..] == [];
    failed := false;
  }

  /** The outer loop over the chats, for any way of working out what a
      chat is due. */
  method FulfilWith(chats: seq<int>, due: Due, subs: seq<Subscription>, send: (int, Entry) -> bool)
    returns (r: Run)
    ensures r == Fulfil(chats, due, subs, send, map[])
  {
    var current := subs;
    var counter: map<int, nat> := map[];
    var k := 0;
    while k < |chats|
      invariant k <= |chats|
      invariant Fulfil(chats, due, subs, send, map[]) == Fulfil(chats[k..], due, current, send, counter)
      decreases |chats| - k
    {
      var c := chats[k];
      assert chats[k..][0] == c && chats[k..][1..] == chats[k + 1..];
      var after, sent, failed := SendToChat(c, due(current, c), current, send);
      if failed {
        return Run(after, Bump(counter, c, sent + 1), Some(c));
      }
      current, counter := after, Bump(counter, c, sent);
      k := k + 1;
    }
    assert chats[k..] == [];
    r := Run(current, counter, None);
  }

  /** `fulfill_subscriptions`. */
  method FulfilSubscriptions(chats: seq<int>, catalogue: seq<Entry>, subs: seq<Subscription>, send: (int, Entry) -> bool)
    returns (r: Run)
    ensures r == FulfilSubscriptionsSpec(chats, catalogue, subs, send)
  {
    r := FulfilWith(chats, DueFrom(catalogue), subs, send);
  }
}

=== FILE: wrappers.dfy ===
/** Option and Result, the failure-carrying values the rest of the model returns
    where the source returns None or raises. */
module Wrappers {

  datatype Option<+T> = None | Some(value: T) {

    /** The value, or a default when there is none (Python's `x or default`). */
    function GetOr(default: T): T {
      match this
      case Some(v) => v
      case None => default
    }
  }

  datatype Result<+R, +E> = Ok(value: R) | Err(error: E) {

    predicate IsFailure() {
      Err?
    }

    function PropagateFailure<U>(): Result<U, E>
      requires Err?
    {
      Err(error)
    }

    function Extract(): R
      requires Ok?
    {
      value
    }
  }
}
